=== FILE: README.md ===
# AI data analytics: question answering, modelled in Dafny

The system answers a business question in plain English. The server asks a language model
for a PostgreSQL query, lets the query through only if its first keyword is `SELECT` or
`WITH`, runs it on the database, and phrases the first row of the result as a sentence. The
browser then draws a chart of the rows when the first row has a numeric column.

This project models the core of that flow as pure Dafny functions:

| file | module | what it models |
|---|---|---|
| `base.dfy` | `Base` | `Option`, `Result`, and the first index satisfying a predicate |
| `strings.dfy` | `Strings` | ECMAScript whitespace and `trim`, ASCII case mapping, `indexOf`, prefixes, suffixes and infixes |
| `values.dfy` | `Values` | a result row (keys in `Object.keys` order, unique), cell values, JavaScript truthiness, `String(v)` and `Number(v)` |
| `calls.dfy` | `Calls` | the remote calls the server makes: the model request, the connection probe, and the SQL execution |
| `keymatch.dfy` | `KeyMatch` | `getKeyByPattern`, with its exact, case-insensitive and substring passes |
| `answer.dfy` | `Answer` | the question classification and the five answer sentences of `askQuestion` |
| `geminiservice.dfy` | `GeminiService` | the prompt, the errors of the model request, and the parsing of the reply into SQL, explanation and template |
| `dbservice.dfy` | `DbService` | the schema text, `cleanSql`, the normalised copy, the first-keyword gate, and `executeQuery` |
| `datavisualization.dfy` | `DataVisualization` | `canVisualize`, the value and label fields, the chart values, labels and title, label truncation, and what the component renders: the chart, the notice, or a throw on `null` rows |
| `askcontroller.dfy` | `AskController` | `askQuestion`: the 400 for a missing question, then model, gate, database and sentence, in that order |

Everything outside the process is a parameter:
- the API key;
- the schema text (the server's is `DbService.SchemaInfo`);
- the model endpoint (a function from prompt to `Completion`);
- the connection probe's error;
- the database RPC (a function from SQL text to rows or an error message);
- the runtime's number formatting and parsing (`Values.NumberText`).

Each operation returns the remote calls it made, in order. That is how the contracts state
the security property: no SQL reaches the database unless the gate accepts it, and the
database receives exactly the cleaned text of the generated query.

Where the system's design description and the code disagree, the model follows the code.
- **Cleaning is not idempotent.** The design calls cleaning idempotent, but `cleanSql` trims
  once and then strips the semicolons. So `"select 1; ;"` cleans to `"select 1; "`, and
  cleaning that again gives `"select 1"`. `DbService.CleanSqlNotIdempotent` proves this, and
  `DbService.CleanSqlIdempotent` states exactly when cleaning is idempotent.
- **Keyword upper-casing.** The first keyword is upper-cased with ASCII rules. The two
  non-ASCII characters whose upper case is an ASCII letter also map: U+017F (long s) to S,
  and U+0131 (dotless i) to I. So `select` spelled with U+017F for its first letter passes the gate, as it does in JavaScript.
- **`null` rows reach the chart.** The server sends the rows of the database on unchanged,
  and the database may return `null` rows. The page guards only the response itself, and the
  chart component reads `data.length` of the rows first, so it throws.
  `AskController.NullRowsCrashChart` follows such rows from the handler to
  `DataVisualization.Render`.

## Model

| member | source | states |
|---|---|---|
| Strings.Trim | server/src/services/dbService.ts:28 | `trim` leaves a text that neither starts nor ends with ECMAScript whitespace; the result is empty exactly when the input is all whitespace |
| Strings.Lower | server/src/controllers/askController.ts:47 | ASCII lower-casing: keeps the length, maps `A`–`Z` to `a`–`z` and leaves every other character alone |
| Strings.NatToStringRoundTrip | server/src/services/geminiService.ts:109 | the status code written into the API error message reads back as the same number |
| Values.LookupAt | server/src/controllers/askController.ts:56 | `firstResult[key]`, for a key of the row, is that key's own value |
| KeyMatch.GetKeyByPattern | server/src/controllers/askController.ts:199-226 | the first pattern stored in the row wins; failing that, the first key equal to a pattern ignoring case; failing that, the first key that contains, or is contained in, a pattern ignoring case. The result is `null` exactly when no key overlaps any pattern, and any key returned is a key of the row |
| KeyMatch.PassesAgree | server/src/controllers/askController.ts:200-223 | each pass returns the first hit in its own order (patterns for the exact pass, keys for the other two); a hit of either earlier pass is also an overlap; the substring pass finds nothing exactly when nothing overlaps |
| KeyMatch.SubstringPassExample | server/src/controllers/askController.ts:215-223 | the key `ProductName` is found for the patterns `product_name`, `name` only by the substring pass |
| Answer.Classify | server/src/controllers/askController.ts:47-139 | the five categories as if-and-only-ifs over the lowered question: profit keywords first, then sales, region and inventory, else generic |
| Answer.MarginText | server/src/controllers/askController.ts:59-64 | a number below 1 is scaled by 100 before two-decimal formatting; other numbers are formatted as they are; anything else is inserted as text |
| Answer.ProfitAnswer | server/src/controllers/askController.ts:52-67 | no sentence unless both the product and the margin keys are found. Otherwise the sentence starts with the profit lead, says " last quarter" exactly when the question mentions "quarter", and contains the product name and the formatted margin followed by "%." |
| Answer.SalesAnswer | server/src/controllers/askController.ts:73-103 | no sentence unless the product key and a truthy sales or quantity figure are found. Otherwise it opens with the product name as top seller, carries the sales figure when truthy, ends with the quantity " units sold" exactly when that figure is truthy, and always ends with the popularity tail |
| Answer.RegionAnswer | server/src/controllers/askController.ts:110-135 | no sentence exactly when no region key is found. Otherwise " in <country>" follows the region name exactly when the country is truthy, "with <sales> in sales" ends the sentence exactly when the sales figure is truthy, and the growth tail always ends it |
| Answer.InventoryLevel | server/src/controllers/askController.ts:152 | "critically low" below 10, "low" from 10 to below 50, "adequate" otherwise, with the comparison false for a value that is not a number |
| Answer.InventoryAnswer | server/src/controllers/askController.ts:142-155 | no sentence unless both the product and the stock keys are found. Otherwise it opens with "<product> has <stock> units in stock", names " in the <region> region" exactly when the region is truthy, and ends with the inventory level of the stock value |
| Answer.GenericAnswer | server/src/controllers/askController.ts:160-171 | the sentence is never empty. It is the found-results fallback exactly when the name or the value key is missing; otherwise it opens with "<name> has a value of " and ends with the value and the analysis tail |
| Answer.Synthesize | server/src/controllers/askController.ts:42-175 | no rows (or `null`) give the no-data sentence. The answer is empty exactly when the category is not generic and the first row cannot answer it, and a generic question gets the fallback exactly when a key is missing |
| Answer.SynthesizeSentences | server/src/controllers/askController.ts:46-172 | a non-empty answer is the chosen category's sentence: the profit lead, the sales tail, the region tail, the inventory level of the stock, or the generic tail or fallback |
| Answer.ProfitOutranksSales | server/src/controllers/askController.ts:47-70 | a question mentioning both "profit margin" and "sales" is a profit question, and its answer is the profit sentence or empty |
| GeminiService.PromptContents | server/src/services/geminiService.ts:46-79 | the prompt starts with the fixed preamble and contains the schema and the question in double quotes, verbatim |
| GeminiService.PromptDeterminesQuestion | server/src/services/geminiService.ts:52 | two questions with the same prompt are the same question, so the prompt sent identifies the question asked |
| GeminiService.FindIgnoringCase | server/src/services/geminiService.ts:122-124 | the earliest case-insensitive match of a marker at or after a position, or none exactly when there is no match |
| GeminiService.StripFences | server/src/services/geminiService.ts:132 | removing every fence, with an optional "sql" tag in any case, leaves no fence and never lengthens the text |
| GeminiService.StripFencesFenceFree | server/src/services/geminiService.ts:132 | a text without a fence is unchanged |
| GeminiService.FencedBlock | server/src/services/geminiService.ts:132 | a fenced block tagged "sql" (any case) gives back its body |
| GeminiService.NormalizePlaceholders | server/src/services/geminiService.ts:138-140 | a template that already has `{{`, or has no `{`, is unchanged; the rewrite never changes the text apart from braces |
| GeminiService.RewriteKeepsText | server/src/services/geminiService.ts:139 | the global brace-doubling replace keeps every non-brace character in order |
| GeminiService.RewriteSinglePlaceholder | server/src/services/geminiService.ts:139 | a `{name}` group is doubled to `{{name}}`, and the rest of the text is rewritten in turn |
| GeminiService.ParseReply | server/src/services/geminiService.ts:119-140 | parsing fails, with the no-SQL message, exactly when the trimmed reply has no `SQL:` in any case; the SQL is trimmed and fence-free; a missing `TEMPLATE:` gives the default template; the template keeps the captured text apart from braces |
| GeminiService.ParsedSqlExtent | server/src/services/geminiService.ts:122-132 | the SQL is the text between the first `SQL:` and the first `EXPLANATION:` after it (or the end), trimmed, with its fences removed, and trimmed again |
| GeminiService.ParsedExplanationExtent | server/src/services/geminiService.ts:123-134 | the explanation is the trimmed text between the first `EXPLANATION:` and the first `TEMPLATE:` after it (or the end) |
| GeminiService.ParsedTemplateExtent | server/src/services/geminiService.ts:124-140 | the template, apart from braces, is the trimmed text after the first `TEMPLATE:` |
| GeminiService.ParseFormattedReply | server/src/services/geminiService.ts:75-78 | a reply written in the requested three-line format parses back to its SQL, explanation and template |
| GeminiService.GenerateSql | server/src/services/geminiService.ts:33-160 | no key means the missing-key error and no request. Otherwise exactly one request, carrying the built prompt, is made: an HTTP error gives "Gemini API error: <status> - <body>", no candidates gives the no-response error, a thrown error passes its message on, and a reply is parsed after trimming |
| GeminiService.ReplyFailsOnlyWithoutSql | server/src/services/geminiService.ts:122-128 | given a reply, generation fails exactly when the reply has no `SQL:` section, and then with the no-SQL message |
| DbService.StripTrailingSemicolons | server/src/services/dbService.ts:28 | the replace of `;+$` keeps a prefix, removes only semicolons, and leaves no semicolon at the end |
| DbService.CleanSql | server/src/services/dbService.ts:28 | the cleaned text is the trimmed input up to its run of trailing semicolons |
| DbService.CleanSqlNotIdempotent | server/src/services/dbService.ts:28 | `"select 1; ;"` cleans to `"select 1; "`, which cleans again to `"select 1"` |
| DbService.CleanSqlIdempotent | server/src/services/dbService.ts:28 | cleaning twice equals cleaning once exactly when the cleaned text is empty or does not end in whitespace |
| DbService.CleanOfSemicolons | server/src/services/dbService.ts:28 | a statement followed by `;;` cleans to the statement |
| DbService.StripLeadingComments | server/src/services/dbService.ts:41 | what is left is a suffix of the text and starts with a non-space character |
| DbService.LeadingSpaceSkipped | server/src/services/dbService.ts:41 | a leading whitespace run is skipped: the result for `w + t` is the result for `t` |
| DbService.LeadingBlockSkipped | server/src/services/dbService.ts:41 | a leading block comment is skipped up to its first `*/`: the result for `/*c*/ + t` is the result for `t` when `c` holds no `*/` |
| DbService.LeadingLineSkipped | server/src/services/dbService.ts:41 | a leading `--` comment is skipped together with the `\r` or `\n` that ends it: the result for `--c` + newline + `t` is the result for `t` |
| DbService.PlainStartKept | server/src/services/dbService.ts:41 | skipping stops at a non-space character that opens no comment: the text is kept whole |
| DbService.UnclosedBlockKept | server/src/services/dbService.ts:41 | a block comment with no `*/` is not skipped: the text is kept whole |
| DbService.UnendedLineKept | server/src/services/dbService.ts:41 | a `--` comment that runs to the end, or ends at U+2028 or U+2029 rather than `\r` or `\n`, is not skipped |
| DbService.FirstToken | server/src/services/dbService.ts:42 | the first element of the `\s+` split is the longest prefix without whitespace |
| DbService.FirstWordDecides | server/src/services/dbService.ts:32-44 | when a plain word starts the query, the keyword is that word upper-cased, and the gate accepts exactly when it is `SELECT` or `WITH` |
| DbService.FirstWordAfterSpace | server/src/services/dbService.ts:28-44 | whitespace before that word changes nothing: the keyword is still the word upper-cased, and the gate decides by it alone |
| DbService.SelectThenAnythingAccepted | server/src/services/dbService.ts:42-44 | `SELECT` followed by whitespace, or by nothing, is accepted whatever follows |
| DbService.WithThenAnythingAccepted | server/src/services/dbService.ts:42-44 | `WITH` followed by whitespace, or by nothing, is accepted whatever follows |
| DbService.LowerCaseSelectAccepted | server/src/services/dbService.ts:42-44 | the comparison is after upper-casing, so a lower-case `select` is accepted |
| DbService.GluedWordsRejected | server/src/services/dbService.ts:42-44 | the first token runs to the first whitespace, so `SELECTX` and `SELECT;DROP` are rejected |
| DbService.WritesRejected | server/src/services/dbService.ts:44-64 | `DELETE` and `UPDATE` statements are rejected |
| DbService.WriteWordRejected | server/src/services/dbService.ts:44-64 | a statement led by a word whose first character does not upper-case to S or W is rejected, in any letter case (`delete` as well as `DELETE`) |
| DbService.BlankRejected | server/src/services/dbService.ts:28-44 | a blank query has an empty keyword and is rejected |
| DbService.EmptyNormalizedRejected | server/src/services/dbService.ts:32-44 | a query that is nothing but comments has an empty keyword and is rejected |
| DbService.LineCommentRejected | server/src/services/dbService.ts:28-44 | a query that is only a `--` comment is rejected |
| DbService.BlockCommentRejected | server/src/services/dbService.ts:28-44 | a query that is only a closed block comment is rejected |
| DbService.CommentedStatement | server/src/services/dbService.ts:28-42 | a `--` comment line before the statement stays in the cleaned text, yet the keyword is the statement's first word upper-cased |
| DbService.CommentedQuerySent | server/src/services/dbService.ts:28-59 | a `select` after a comment line is accepted, and the database receives the comment line followed by the cleaned statement |
| DbService.CommentedQueryExample | server/src/services/dbService.ts:28-59 | a concrete commented `select` ending in `;;` is sent without its semicolons |
| DbService.ExecuteQuery | server/src/services/dbService.ts:22-70 | a query the gate rejects fails with the read-only message and makes no call. An accepted one probes the connection first; a probe error is prefixed with "Supabase connection error: ". Otherwise the cleaned text goes to the RPC, and the result is the RPC's data exactly when it succeeds |
| DbService.ExecuteQueryCalls | server/src/services/dbService.ts:44-59 | the only calls are the probe and the execution; the execution is of the cleaned text of an accepted query, and it happens exactly when the gate accepts and the probe succeeds |
| DbService.Run | server/src/services/dbService.ts:44-65 | the branch after the gate: an RPC error is reported with the "Query execution error: " prefix |
| DataVisualization.CanVisualize | client/src/components/DataVisualization.tsx:14-27 | true exactly when there is a row and the first row has a numeric field |
| DataVisualization.ValueField | client/src/components/DataVisualization.tsx:41-52 | the first key, in key order, of the first row whose value is a number; none exactly when there is none |
| DataVisualization.LabelField | client/src/components/DataVisualization.tsx:46-56 | the first key whose value is a string or a non-null object, or the empty name when there is none |
| DataVisualization.ChartValue | client/src/components/DataVisualization.tsx:59 | `Number(v) \|\| 0`: a number is itself; NaN, a missing field and null give 0; true and false give 1 and 0; a numeric string gives its number |
| DataVisualization.ChartLabel | client/src/components/DataVisualization.tsx:60 | `String(v \|\| '')`: a falsy cell gives the empty label, a string is itself, an object is its string form |
| DataVisualization.ItemLabelsDistinct | client/src/components/DataVisualization.tsx:61 | the `Item n` labels of different rows differ |
| DataVisualization.PrepareChart | client/src/components/DataVisualization.tsx:29-79 | a chart exactly when the data can be visualised; one value and one label per row, each from that row and the first row's fields; `Item n` labels when there is no label field; the title names the value field and the label field |
| DataVisualization.Render | client/src/components/DataVisualization.tsx:197-207 | the component throws exactly when the rows are `null`; otherwise it shows the notice exactly when the rows cannot be charted, and else the prepared chart with one entry per row |
| DataVisualization.EmptyRowsNotice | client/src/components/DataVisualization.tsx:14-16 | an empty result set gives the notice |
| DataVisualization.FirstValueIsItsNumber | client/src/components/DataVisualization.tsx:42-59 | the first row's chart value is the number in its value field |
| DataVisualization.Title | client/src/components/DataVisualization.tsx:79 | the title is "<value field> by <label field>", with "Item" when there is no label field |
| DataVisualization.Truncate | client/src/components/DataVisualization.tsx:99 | a label of at most 8 characters is drawn as it is; a longer one as its first 8 characters and "..." |
| AskController.AskQuestion | server/src/controllers/askController.ts:13-191 | a 400 with "Question is required" exactly when the question is missing or empty, with no call made. An answer has gate-accepted, trimmed, fence-free SQL, made exactly the calls model, probe, execution of the cleaned SQL, and carries the database rows and the synthesized sentence. The answer's `sql` and `explanation` are exactly those `generateSQL` returned |
| AskController.Flow | server/src/controllers/askController.ts:13-191 | the same guarantees, whatever the sentence step computes |
| AskController.Proceed | server/src/controllers/askController.ts:33-185 | after generation, no further model request; a rejected query is forwarded with the read-only message and no call. An answer carries the generated `sql` and `explanation` unchanged |
| AskController.ModelAskedFirstAndOnce | server/src/controllers/askController.ts:26-33 | whenever a call is made, the first is the model request with the built prompt, and no later call is a model request |
| AskController.OnlyGatedSqlRuns | server/src/controllers/askController.ts:26-33 | every text the database executes is the cleaned form of a query the gate accepts, namely the generated one |
| AskController.WriteQueryNeverRuns | server/src/controllers/askController.ts:26-33 | when the generated SQL is rejected, the error is forwarded after the single model request, and the database is never called |
| AskController.ReplyWithoutSqlStopsEarly | server/src/controllers/askController.ts:26 | a reply without `SQL:` forwards the no-SQL error after the one model request |
| AskController.MissingKeyStopsEarly | server/src/services/geminiService.ts:36-40 | without an API key the missing-key error is forwarded and no call is made |
| AskController.EmptyResultsAnswer | server/src/controllers/askController.ts:173-175 | an answered request whose rows are `null` or empty carries the no-data sentence |
| AskController.NullRowsCrashChart | server/src/controllers/askController.ts:180-185 | rows the database returns as `null` are sent on unchanged: the answer is the no-data sentence, and the chart component given the response throws |

## Left out

- Network and environment. `fetch`, the Supabase client and `process.env` become parameters (`Environment`, `Completion`, the probe error and the RPC function). The module-load check of the Supabase credentials (dbService.ts:11-13) is not modelled.
- Express, React and the canvas. The HTTP exchange is the `Response` datatype. The error middleware, the chart-type state, and all drawing geometry (bar, line and pie scaling, colours, angles) are left out: they are rendering, not data.
- Logging. Every `console.log` and `console.error` is dropped, and so is the alias-extraction loop (geminiService.ts:142-149), whose result is only logged.
- Number formatting and parsing. `toFixed(2)`, `toLocaleString`, `String(n)` and `Number(s)` are uninterpreted functions in `NumberText`, so the exact digits are not modelled.
- Floating point. Cell numbers are `real`.
- MarginText: a margin below 1 is scaled as the real `n * 100.0`. The rounding of the double product `profitMargin * 100` before `toFixed` (askController.ts:61) is not modelled.
- GetKeyByPattern: the exact pass looks only at the row's own keys. `obj[pattern]` also finds properties inherited through the prototype chain, which is not modelled.
- Lower: ASCII only. `toLowerCase` is full Unicode: U+0130 lowers to two code units, the Kelvin sign U+212A lowers to `k`, and other non-ASCII capitals lower too. Every use of Lower inherits this.
- GetKeyByPattern: keys and patterns are lowered with ASCII rules only. `toLowerCase` is full Unicode: for example, the Kelvin sign U+212A lowers to `k`. So a key spelled "Stoc" followed by U+212A matches "stock" in the source, but not in the model.
- Classify: the question is lowered with ASCII rules only. So "STOC" followed by U+212A and " LEVEL" is an inventory question in the source, but a generic one in the model.
- Truncate: lengths and the cut are counted in characters (code points). JavaScript counts UTF-16 code units, so a label with characters outside the Basic Multilingual Plane is cut at a different place. It can even be cut inside a surrogate pair, which the model cannot represent.
- Key order. A `Row` is given in `Object.keys` order. The way JavaScript moves integer-like keys to the front is not modelled.
- Non-string questions. A question that is a number or an object (truthy but not a string) makes `toLowerCase` throw in the source. The model takes the question as an optional string.
- Error messages of thrown exceptions. The message of a rejected `fetch`, of a non-JSON body, or of the `TypeError` for a candidate without text is a parameter of `Completion.Thrown`.
- The response template. The parser returns it, but `askQuestion` never fills it; it only sends the results, the SQL, the explanation and the sentence, as the model does.

=== FILE: answer.dfy ===
/** The answer synthesizer of `askQuestion` (server/src/controllers/askController.ts): one
    fixed English sentence chosen by keyword classification of the question and filled
    from the first result row. */
module Answer {
  import opened Base
  import opened Strings
  import opened Values
  import opened KeyMatch

  const NoDataSentence: string :=
    "I couldn't find any data that answers your question. Please try a different query or check if the data exists in the database."

  const FoundResultsSentence: string :=
    "I found results matching your query. Please see the detailed data table below for specific information."

  // Keyword sets, tested in this order; the first set with a hit decides.
  const ProfitKeywords: seq<string> := ["profit margin", "profitable", "highest margin"]
  const SalesKeywords: seq<string> := ["sales", "revenue", "selling"]
  const RegionKeywords: seq<string> := ["region", "location", "area"]
  const InventoryKeywords: seq<string> := ["inventory", "stock", "warehouse"]

  // Candidate column names for each role.
  const ProductPatterns: seq<string> := ["product_name", "name", "product"]
  const MarginPatterns: seq<string> :=
    ["profit_margin", "margin", "margin_percentage", "profit_margin_percentage"]
  const SalesPatterns: seq<string> := ["total_sales", "sales", "revenue", "amount", "total_amount"]
  const QuantityPatterns: seq<string> := ["quantity", "qty", "total_quantity", "count", "total_count"]
  const RegionNamePatterns: seq<string> := ["region_name", "name", "region"]
  const CountryPatterns: seq<string> := ["country"]
  const RegionSalesPatterns: seq<string> := ["total_sales", "sales", "revenue", "amount"]
  const StockPatterns: seq<string> := ["qty_available", "stock", "inventory", "available"]
  const StockRegionPatterns: seq<string> := ["region_name", "region"]
  const GenericNamePatterns: seq<string> := ["name", "title", "description"]
  const GenericValuePatterns: seq<string> :=
    ["value", "count", "total", "amount", "qty", "quantity", "sum"]

  datatype Category = ProfitMargin | Sales | Region | Inventory | Generic

  /** The keyword table in priority order. */
  const CategoryTable: seq<(Category, seq<string>)> := [
    (ProfitMargin, ProfitKeywords),
    (Sales, SalesKeywords),
    (Region, RegionKeywords),
    (Inventory, InventoryKeywords)
  ]

  /** `question.toLowerCase().includes(k)` for some keyword `k`. */
  predicate Mentions(question: string, keywords: seq<string>) {
    exists k | k in keywords :: IsInfix(k, Lower(question))
  }

  /** The first category whose keywords occur in the question, ignoring case. */
  function Classify(question: string): (c: Category)
    ensures c == ProfitMargin <==> Mentions(question, ProfitKeywords)
    ensures c == Sales <==> !Mentions(question, ProfitKeywords) && Mentions(question, SalesKeywords)
    ensures c == Region <==>
      && !Mentions(question, ProfitKeywords) && !Mentions(question, SalesKeywords)
      && Mentions(question, RegionKeywords)
    ensures c == Inventory <==>
      && !Mentions(question, ProfitKeywords) && !Mentions(question, SalesKeywords)
      && !Mentions(question, RegionKeywords) && Mentions(question, InventoryKeywords)
    ensures c == Generic <==>
      && !Mentions(question, ProfitKeywords) && !Mentions(question, SalesKeywords)
      && !Mentions(question, RegionKeywords) && !Mentions(question, InventoryKeywords)
  {
    var hit := FirstIndex(CategoryTable, (e: (Category, seq<string>)) => Mentions(question, e.1));
    match hit
    case Some(i) =>
      assert i > 0 ==> !Mentions(question, CategoryTable[0].1);
      assert i > 1 ==> !Mentions(question, CategoryTable[1].1);
      assert i > 2 ==> !Mentions(question, CategoryTable[2].1);
      CategoryTable[i].0
    case None =>
      assert !Mentions(question, CategoryTable[0].1) && !Mentions(question, CategoryTable[1].1);
      assert !Mentions(question, CategoryTable[2].1) && !Mentions(question, CategoryTable[3].1);
      Generic
  }

  /** A resolved key is usable only when it is truthy: the empty column name is not. */
  predicate Found(key: Option<string>) {
    key.Some? && key.value != ""
  }

  /** `key ? row[key] : null`. */
  function Cell(row: Row, key: Option<string>): Value {
    if Found(key) then Lookup(row, key.value) else Null
  }

  /** A number replaced by its formatted text; any other value left as it is. */
  function Formatted(v: Value, format: real -> string): Value {
    if v.Num? then Text(format(v.n)) else v
  }

  // ---------------------------------------------------------------- profit margin

  const ProfitLead: string := "The product with the highest profit margin"
  const ProfitTail: string := "%. This premium product consistently outperforms others in our catalog."

  /** A margin below 1 is a fraction and is scaled to a percentage; numbers get two
      decimals; anything else is inserted as it is. */
  function MarginText(v: Value, nt: NumberText): (r: string)
    ensures v.Num? && v.n < 1.0 ==> r == nt.toFixed2(v.n * 100.0)
    ensures v.Num? && v.n >= 1.0 ==> r == nt.toFixed2(v.n)
    ensures !v.Num? ==> r == ToText(v, nt)
  {
    if v.Num? && v.n < 1.0 then nt.toFixed2(v.n * 100.0)
    else if v.Num? then nt.toFixed2(v.n)
    else ToText(v, nt)
  }

  function ProfitAnswer(question: string, row: Row, nt: NumberText): (r: string)
    ensures r == "" <==>
      !(Found(GetKeyByPattern(row, ProductPatterns)) && Found(GetKeyByPattern(row, MarginPatterns)))
    ensures r != "" ==> IsPrefix(ProfitLead, r)
    ensures r != "" ==>
      (IsPrefix(ProfitLead + " last quarter was ", r) <==> IsInfix("quarter", Lower(question)))
    ensures r != "" ==>
      IsInfix(MarginText(Lookup(row, GetKeyByPattern(row, MarginPatterns).value), nt) + ProfitTail, r)
    ensures r != "" ==>
      IsInfix(" was " + ToText(Lookup(row, GetKeyByPattern(row, ProductPatterns).value), nt)
        + " with a profit margin of ", r)
  {
    var nameKey := GetKeyByPattern(row, ProductPatterns);
    var marginKey := GetKeyByPattern(row, MarginPatterns);
    if Found(nameKey) && Found(marginKey) then
      var quarter := if IsInfix("quarter", Lower(question)) then " last quarter" else "";
      var name := ToText(Lookup(row, nameKey.value), nt);
      var margin := MarginText(Lookup(row, marginKey.value), nt);
      var r := ProfitLead + quarter + " was " + name + " with a profit margin of " + margin + ProfitTail;
      ProfitShape(ProfitLead, quarter, name, margin, ProfitTail, r);
      r
    else ""
  }

  lemma ProfitShape(lead: string, quarter: string, name: string, margin: string, tail: string, r: string)
    requires quarter == " last quarter" || quarter == ""
    requires r == lead + quarter + " was " + name + " with a profit margin of " + margin + tail
    ensures IsPrefix(lead, r)
    ensures IsPrefix(lead + " last quarter was ", r) <==> quarter == " last quarter"
    ensures IsInfix(margin + tail, r)
    ensures IsInfix(" was " + name + " with a profit margin of ", r)
  {
    ProfitLeadShown(lead, quarter, name, margin, tail, r);
    ProfitMarginShown(lead, quarter, name, margin, tail, r);
    ProfitNameShown(lead, quarter, name, margin, tail, r);
    if quarter == "" {
      ProfitQuarterHidden(lead, name, margin, tail, r);
    } else {
      ProfitQuarterShown(lead, name, margin, tail, r);
    }
  }

  lemma ProfitLeadShown(lead: string, quarter: string, name: string, margin: string, tail: string, r: string)
    requires r == lead + quarter + " was " + name + " with a profit margin of " + margin + tail
    ensures IsPrefix(lead, r)
  {
    var rest := quarter + " was " + name + " with a profit margin of " + margin + tail;
    assert r == lead + rest;
    PrefixOfConcat(lead, rest);
  }

  lemma ProfitMarginShown(lead: string, quarter: string, name: string, margin: string, tail: string, r: string)
    requires r == lead + quarter + " was " + name + " with a profit margin of " + margin + tail
    ensures IsInfix(margin + tail, r)
  {
    var mid := " was " + name + " with a profit margin of ";
    assert r == (lead + quarter + mid) + (margin + tail) + [];
    InfixOfConcat(lead + quarter + mid, margin + tail, []);
  }

  lemma ProfitNameShown(lead: string, quarter: string, name: string, margin: string, tail: string, r: string)
    requires r == lead + quarter + " was " + name + " with a profit margin of " + margin + tail
    ensures IsInfix(" was " + name + " with a profit margin of ", r)
  {
    var mid := " was " + name + " with a profit margin of ";
    assert r == (lead + quarter) + mid + (margin + tail);
    InfixOfConcat(lead + quarter, mid, margin + tail);
  }

  lemma ProfitQuarterHidden(lead: string, name: string, margin: string, tail: string, r: string)
    requires r == lead + "" + " was " + name + " with a profit margin of " + margin + tail
    ensures !IsPrefix(lead + " last quarter was ", r)
  {
    var a := lead + " last quarter was ";
    assert r == lead + (" was " + (name + " with a profit margin of " + margin + tail));
    assert r[|lead| + 1] == 'w';
    assert a[|lead| + 1] == 'l';
  }

  lemma ProfitQuarterShown(lead: string, name: string, margin: string, tail: string, r: string)
    requires r == lead + " last quarter" + " was " + name + " with a profit margin of " + margin + tail
    ensures IsPrefix(lead + " last quarter was ", r)
  {
    var a := lead + " last quarter was ";
    assert r == a + (name + " with a profit margin of " + margin + tail);
  }

  // ---------------------------------------------------------------- sales

  function SalesFigure(row: Row, nt: NumberText): Value {
    Formatted(Cell(row, GetKeyByPattern(row, SalesPatterns)), nt.currency)
  }

  function QuantityFigure(row: Row, nt: NumberText): Value {
    Formatted(Cell(row, GetKeyByPattern(row, QuantityPatterns)), nt.grouped)
  }

  const SalesTail: string := ". This product has been consistently popular with our customers."

  /** The sales sentence: the product, then the sales figure and the units sold, each only
      when it is truthy once formatted; empty when neither is. */
  function SalesAnswer(row: Row, nt: NumberText): (r: string)
    ensures r == "" <==> !Answerable(Sales, row, nt)
    ensures r != "" ==>
      IsPrefix(ToText(Lookup(row, GetKeyByPattern(row, ProductPatterns).value), nt)
        + " is our top selling product with ", r)
    ensures r != "" && Truthy(SalesFigure(row, nt)) ==>
      IsPrefix(ToText(Lookup(row, GetKeyByPattern(row, ProductPatterns).value), nt)
        + " is our top selling product with " + ToText(SalesFigure(row, nt), nt) + " in sales", r)
    ensures r != "" && Truthy(QuantityFigure(row, nt)) ==>
      IsSuffix(ToText(QuantityFigure(row, nt), nt) + " units sold" + SalesTail, r)
    ensures r != "" ==> (IsSuffix(" units sold" + SalesTail, r) <==> Truthy(QuantityFigure(row, nt)))
    ensures r != "" ==> IsSuffix(SalesTail, r)
  {
    var nameKey := GetKeyByPattern(row, ProductPatterns);
    var salesKey := GetKeyByPattern(row, SalesPatterns);
    var quantityKey := GetKeyByPattern(row, QuantityPatterns);
    if Found(nameKey) && (Found(salesKey) || Found(quantityKey)) then
      var lead := ToText(Lookup(row, nameKey.value), nt) + " is our top selling product with ";
      var sales := SalesFigure(row, nt);
      var qty := QuantityFigure(row, nt);
      var salesPart := ToText(sales, nt) + " in sales";
      var qtyPart := ToText(qty, nt) + " units sold";
      if Truthy(sales) && Truthy(qty) then
        var r := lead + salesPart + " and " + qtyPart + SalesTail;
        SalesBoth(lead, ToText(sales, nt), ToText(qty, nt), SalesTail, r);
        r
      else if Truthy(sales) then
        var r := lead + salesPart + SalesTail;
        SalesOnly(lead, ToText(sales, nt), SalesTail, r);
        r
      else if Truthy(qty) then
        var r := lead + qtyPart + SalesTail;
        UnitsOnly(lead, ToText(qty, nt), SalesTail, r);
        r
      else ""
    else ""
  }

  lemma SalesBoth(lead: string, s: string, q: string, tail: string, r: string)
    requires r == lead + (s + " in sales") + " and " + (q + " units sold") + tail
    ensures IsPrefix(lead + s + " in sales", r) && IsPrefix(lead, r)
    ensures IsSuffix(q + " units sold" + tail, r) && IsSuffix(" units sold" + tail, r)
    ensures IsSuffix(tail, r)
  {
    assert r == (lead + s + " in sales") + (" and " + (q + " units sold") + tail);
    PrefixOfConcat(lead + s + " in sales", " and " + (q + " units sold") + tail);
    assert r == (lead + s + " in sales and ") + (q + " units sold" + tail);
    SuffixOfConcat(lead + s + " in sales and ", q + " units sold" + tail);
    assert r == (lead + s + " in sales and " + q) + (" units sold" + tail);
    SuffixOfConcat(lead + s + " in sales and " + q, " units sold" + tail);
    SuffixOfSuffix(" units sold", tail, r);
  }

  lemma SalesOnly(lead: string, s: string, tail: string, r: string)
    requires r == lead + (s + " in sales") + tail
    ensures IsPrefix(lead + s + " in sales", r) && IsPrefix(lead, r)
    ensures !IsSuffix(" units sold" + tail, r)
    ensures IsSuffix(tail, r)
  {
    assert r == (lead + s + " in sales") + tail;
    PrefixOfConcat(lead + s + " in sales", tail);
    SuffixOfConcat(lead + s + " in sales", tail);
    var e := " units sold" + tail;
    if |e| <= |r| {
      assert r[|r| - |tail| - 1] == 's';
      assert e[|e| - |tail| - 1] == 'd';
      assert r[|r| - |e|..][|e| - |tail| - 1] == r[|r| - |tail| - 1];
    }
  }

  lemma UnitsOnly(lead: string, q: string, tail: string, r: string)
    requires r == lead + (q + " units sold") + tail
    ensures IsPrefix(lead, r)
    ensures IsSuffix(q + " units sold" + tail, r) && IsSuffix(" units sold" + tail, r)
    ensures IsSuffix(tail, r)
  {
    assert r == lead + (q + " units sold" + tail);
    PrefixOfConcat(lead, q + " units sold" + tail);
    SuffixOfConcat(lead, q + " units sold" + tail);
    assert r == (lead + q) + (" units sold" + tail);
    SuffixOfConcat(lead + q, " units sold" + tail);
    SuffixOfSuffix(" units sold", tail, r);
  }

  // ---------------------------------------------------------------- region

  const RegionMiddle: string := " is our top performing region"
  const RegionTail: string := ". This region has shown consistent growth over time."

  /** The two characters of the fixed middle that tell the four region forms apart. */
  lemma RegionMiddleShape()
    ensures |RegionMiddle| > 2 && RegionMiddle[2] == 's' && RegionMiddle[|RegionMiddle| - 1] == 'n'
  { }

  function RegionSalesFigure(row: Row, nt: NumberText): Value {
    Formatted(Cell(row, GetKeyByPattern(row, RegionSalesPatterns)), nt.currency)
  }

  /** The region sentence: the country phrase and the sales phrase are independent optional
      parts, each present exactly when its value is truthy. */
  function RegionAnswer(row: Row, nt: NumberText): (r: string)
    ensures r == "" <==> !Found(GetKeyByPattern(row, RegionNamePatterns))
    ensures r != "" ==>
      var region := ToText(Lookup(row, GetKeyByPattern(row, RegionNamePatterns).value), nt);
      var country := Cell(row, GetKeyByPattern(row, CountryPatterns));
      && (IsPrefix(region + " in ", r) <==> Truthy(country))
      && (Truthy(country) ==>
            IsPrefix(region + " in " + ToText(country, nt) + RegionMiddle, r))
    ensures r != "" ==>
      var sales := RegionSalesFigure(row, nt);
      && (IsSuffix(" in sales" + RegionTail, r) <==> Truthy(sales))
      && (Truthy(sales) ==> IsSuffix(" with " + ToText(sales, nt) + " in sales" + RegionTail, r))
    ensures r != "" ==> IsSuffix(RegionTail, r)
  {
    var regionKey := GetKeyByPattern(row, RegionNamePatterns);
    var countryKey := GetKeyByPattern(row, CountryPatterns);
    if Found(regionKey) then
      var region := ToText(Lookup(row, regionKey.value), nt);
      var country := Cell(row, countryKey);
      var sales := RegionSalesFigure(row, nt);
      var countryPart := " in " + ToText(country, nt);
      var salesPart := " with " + ToText(sales, nt) + " in sales";
      var performing := RegionMiddle;
      RegionMiddleShape();
      if Truthy(sales) && Truthy(country) then
        var r := region + countryPart + performing + salesPart + RegionTail;
        RegionWithBoth(region, ToText(country, nt), performing, ToText(sales, nt), RegionTail, r);
        r
      else if Truthy(sales) then
        var r := region + performing + salesPart + RegionTail;
        RegionWithSales(region, performing, ToText(sales, nt), RegionTail, r);
        r
      else if Truthy(country) then
        var r := region + countryPart + performing + RegionTail;
        RegionWithCountry(region, ToText(country, nt), performing, RegionTail, r);
        r
      else
        var r := region + "" + performing + RegionTail;
        RegionBare(region, performing, RegionTail, r);
        r
    else ""
  }

  lemma RegionWithBoth(x: string, c: string, p: string, s: string, tail: string, r: string)
    requires r == x + (" in " + c) + p + (" with " + s + " in sales") + tail
    ensures IsPrefix(x + " in ", r) && IsPrefix(x + " in " + c + p, r)
    ensures IsSuffix(" in sales" + tail, r) && IsSuffix(" with " + s + " in sales" + tail, r)
    ensures IsSuffix(tail, r)
  {
    var y := x + " in " + c + p;
    var z := " with " + s + " in sales" + tail;
    assert r == y + z;
    PrefixOfConcat(y, z);
    SuffixOfConcat(y, z);
    PrefixOfPrefix(x + " in " + c, p, r);
    PrefixOfPrefix(x + " in ", c, r);
    assert z == (" with " + s) + (" in sales" + tail);
    SuffixOfSuffix(" with " + s, " in sales" + tail, r);
    SuffixOfSuffix(" in sales", tail, r);
  }

  lemma RegionWithSales(x: string, p: string, s: string, tail: string, r: string)
    requires |p| > 2 && p[2] == 's'
    requires r == x + p + (" with " + s + " in sales") + tail
    ensures !IsPrefix(x + " in ", r)
    ensures IsSuffix(" in sales" + tail, r) && IsSuffix(" with " + s + " in sales" + tail, r)
    ensures IsSuffix(tail, r)
  {
    assert r == (x + p) + (" with " + s + " in sales" + tail);
    SuffixOfConcat(x + p, " with " + s + " in sales" + tail);
    assert r == (x + p + " with " + s) + (" in sales" + tail);
    SuffixOfConcat(x + p + " with " + s, " in sales" + tail);
    SuffixOfSuffix(" in sales", tail, r);
    assert r[|x| + 2] == 's';
    assert (x + " in ")[|x| + 2] == 'n';
  }

  lemma RegionWithCountry(x: string, c: string, p: string, tail: string, r: string)
    requires |p| > 0 && p[|p| - 1] == 'n'
    requires r == x + (" in " + c) + p + tail
    ensures IsPrefix(x + " in ", r) && IsPrefix(x + " in " + c + p, r)
    ensures !IsSuffix(" in sales" + tail, r)
    ensures IsSuffix(tail, r)
  {
    assert r == (x + " in " + c + p) + tail;
    SuffixOfConcat(x + " in " + c + p, tail);
    PrefixOfConcat(x + " in " + c + p, tail);
    assert r == (x + " in ") + (c + p + tail);
    PrefixOfConcat(x + " in ", c + p + tail);
    NotSalesSuffix(x + " in " + c + p, tail, r);
  }

  lemma RegionBare(x: string, p: string, tail: string, r: string)
    requires |p| > 2 && p[2] == 's' && p[|p| - 1] == 'n'
    requires r == x + "" + p + tail
    ensures !IsPrefix(x + " in ", r)
    ensures !IsSuffix(" in sales" + tail, r)
    ensures IsSuffix(tail, r)
  {
    assert r[|x| + 2] == 's';
    assert (x + " in ")[|x| + 2] == 'n';
    assert r == (x + p) + tail;
    SuffixOfConcat(x + p, tail);
    NotSalesSuffix(x + p, tail, r);
  }

  /** A sentence whose body before the tail ends in 'n' does not end in " in sales" and the tail. */
  lemma NotSalesSuffix(head: string, tail: string, r: string)
    requires |head| > 0 && head[|head| - 1] == 'n'
    requires r == head + tail
    ensures !IsSuffix(" in sales" + tail, r)
  {
    var e := " in sales" + tail;
    if |e| <= |r| {
      assert r[|r| - |tail| - 1] == 'n';
      assert e[|e| - |tail| - 1] == 's';
      assert r[|r| - |e|..][|e| - |tail| - 1] == r[|r| - |tail| - 1];
    }
  }

  // ---------------------------------------------------------------- inventory

  /** Below 10 is critically low, below 50 low, anything else (including a value that is
      not a number) adequate. */
  function InventoryLevel(stock: Value, nt: NumberText): (r: string)
    ensures r == "critically low" <==> LessThan(stock, 10.0, nt)
    ensures r == "low" <==> !LessThan(stock, 10.0, nt) && LessThan(stock, 50.0, nt)
    ensures r == "adequate" <==> !LessThan(stock, 50.0, nt)
  {
    if LessThan(stock, 10.0, nt) then "critically low"
    else if LessThan(stock, 50.0, nt) then "low"
    else "adequate"
  }

  const LevelLead: string := ". This inventory level is "

  lemma LevelLeadShape()
    ensures |LevelLead| > 0 && LevelLead[0] == '.'
  { }

  /** The inventory sentence: the region phrase is the only difference between the two
      forms, present exactly when the region value is truthy; the closing level word
      follows `InventoryLevel`. */
  function InventoryAnswer(row: Row, nt: NumberText): (r: string)
    ensures r == "" <==>
      !(Found(GetKeyByPattern(row, ProductPatterns)) && Found(GetKeyByPattern(row, StockPatterns)))
    ensures r != "" ==>
      var stock := Lookup(row, GetKeyByPattern(row, StockPatterns).value);
      var head := ToText(Lookup(row, GetKeyByPattern(row, ProductPatterns).value), nt)
        + " has " + ToText(stock, nt) + " units in stock";
      var region := Cell(row, GetKeyByPattern(row, StockRegionPatterns));
      && IsPrefix(head, r)
      && (IsPrefix(head + " in the ", r) <==> Truthy(region))
      && (Truthy(region) ==> IsPrefix(head + " in the " + ToText(region, nt) + " region", r))
      && IsSuffix(LevelLead + InventoryLevel(stock, nt) + ".", r)
  {
    var nameKey := GetKeyByPattern(row, ProductPatterns);
    var stockKey := GetKeyByPattern(row, StockPatterns);
    var regionKey := GetKeyByPattern(row, StockRegionPatterns);
    if Found(nameKey) && Found(stockKey) then
      var stock := Lookup(row, stockKey.value);
      var region := Cell(row, regionKey);
      var head := ToText(Lookup(row, nameKey.value), nt) + " has " + ToText(stock, nt) + " units in stock";
      var level := InventoryLevel(stock, nt);
      if Truthy(region) then
        var r := head + " in the " + ToText(region, nt) + " region" + LevelLead + level + ".";
        InventoryWithRegion(head, ToText(region, nt), LevelLead, level, r);
        r
      else
        var r := head + LevelLead + level + ".";
        LevelLeadShape();
        InventoryWithoutRegion(head, LevelLead, level, r);
        r
    else ""
  }

  lemma InventoryWithRegion(head: string, region: string, lead: string, level: string, r: string)
    requires r == head + " in the " + region + " region" + lead + level + "."
    ensures IsPrefix(head, r) && IsPrefix(head + " in the ", r)
    ensures IsPrefix(head + " in the " + region + " region", r)
    ensures IsSuffix(lead + level + ".", r)
  {
    var x := head + " in the " + region + " region";
    assert r == x + (lead + level + ".");
    PrefixOfConcat(x, lead + level + ".");
    SuffixOfConcat(x, lead + level + ".");
    PrefixOfPrefix(head + " in the " + region, " region", r);
    PrefixOfPrefix(head + " in the ", region, r);
    PrefixOfPrefix(head, " in the ", r);
  }

  lemma InventoryWithoutRegion(head: string, lead: string, level: string, r: string)
    requires |lead| > 0 && lead[0] == '.'
    requires r == head + lead + level + "."
    ensures IsPrefix(head, r) && !IsPrefix(head + " in the ", r)
    ensures IsSuffix(lead + level + ".", r)
  {
    var tail := lead + level + ".";
    assert r == head + tail;
    PrefixOfConcat(head, tail);
    SuffixOfConcat(head, tail);
    assert r[|head|] == '.';
    assert (head + " in the ")[|head|] == ' ';
  }

  // ---------------------------------------------------------------- generic

  const GenericTail: string := ". This information is based on our latest data analysis."

  /** The last-but-one characters that tell the two generic sentences apart. */
  lemma GenericEnds()
    ensures |GenericTail| > 1 && GenericTail[|GenericTail| - 2] == 's'
    ensures |FoundResultsSentence| > 1 && FoundResultsSentence[|FoundResultsSentence| - 2] == 'n'
  { }

  /** The generic sentence from a name-like and a value-like column, else the fixed
      "results found" sentence; never empty. */
  function GenericAnswer(row: Row, nt: NumberText): (r: string)
    ensures r != ""
    ensures !(Found(GetKeyByPattern(row, GenericNamePatterns)) && Found(GetKeyByPattern(row, GenericValuePatterns)))
      <==> r == FoundResultsSentence
    ensures r != FoundResultsSentence ==>
      && IsPrefix(ToText(Lookup(row, GetKeyByPattern(row, GenericNamePatterns).value), nt) + " has a value of ", r)
      && IsSuffix(ToText(Lookup(row, GetKeyByPattern(row, GenericValuePatterns).value), nt) + GenericTail, r)
  {
    var nameKey := GetKeyByPattern(row, GenericNamePatterns);
    var valueKey := GetKeyByPattern(row, GenericValuePatterns);
    if Found(nameKey) && Found(valueKey) then
      var name := ToText(Lookup(row, nameKey.value), nt);
      var value := ToText(Lookup(row, valueKey.value), nt);
      var r := name + " has a value of " + value + GenericTail;
      GenericEnds();
      GenericShape(name, value, GenericTail, FoundResultsSentence, r);
      r
    else FoundResultsSentence
  }

  lemma GenericShape(name: string, value: string, tail: string, other: string, r: string)
    requires |tail| > 1 && |other| > 1 && tail[|tail| - 2] != other[|other| - 2]
    requires r == name + " has a value of " + value + tail
    ensures r != "" && r != other
    ensures IsPrefix(name + " has a value of ", r) && IsSuffix(value + tail, r)
  {
    assert r == (name + " has a value of ") + (value + tail);
    PrefixOfConcat(name + " has a value of ", value + tail);
    SuffixOfConcat(name + " has a value of ", value + tail);
    assert r[|r| - 2] == tail[|tail| - 2];
  }

  // ---------------------------------------------------------------- dispatch

  /** The category can be answered from the row: its required columns are found, and for
      sales at least one figure is truthy. */
  predicate Answerable(c: Category, row: Row, nt: NumberText) {
    match c
    case ProfitMargin =>
      Found(GetKeyByPattern(row, ProductPatterns)) && Found(GetKeyByPattern(row, MarginPatterns))
    case Sales =>
      && Found(GetKeyByPattern(row, ProductPatterns))
      && (Found(GetKeyByPattern(row, SalesPatterns)) || Found(GetKeyByPattern(row, QuantityPatterns)))
      && (Truthy(SalesFigure(row, nt)) || Truthy(QuantityFigure(row, nt)))
    case Region => Found(GetKeyByPattern(row, RegionNamePatterns))
    case Inventory =>
      Found(GetKeyByPattern(row, ProductPatterns)) && Found(GetKeyByPattern(row, StockPatterns))
    case Generic => true
  }

  /** The natural-language answer. `None` is a missing (`null`) result set. */
  function Synthesize(question: string, results: Option<seq<Row>>, nt: NumberText): (answer: string)
    ensures results.None? || |results.value| == 0 ==> answer == NoDataSentence
    ensures answer == "" <==>
      && results.Some? && |results.value| > 0
      && Classify(question) != Generic
      && !Answerable(Classify(question), results.value[0], nt)
    ensures results.Some? && |results.value| > 0 && Classify(question) == Generic ==>
      var row := results.value[0];
      var both := Found(GetKeyByPattern(row, GenericNamePatterns)) && Found(GetKeyByPattern(row, GenericValuePatterns));
      (answer == FoundResultsSentence <==> !both)
  {
    if results.None? || |results.value| == 0 then NoDataSentence
    else
      var row := results.value[0];
      match Classify(question)
      case ProfitMargin => ProfitAnswer(question, row, nt)
      case Sales => SalesAnswer(row, nt)
      case Region => RegionAnswer(row, nt)
      case Inventory => InventoryAnswer(row, nt)
      case Generic => GenericAnswer(row, nt)
  }

  /** Each category's answer, when there is one, is recognisably that category's sentence. */
  lemma SynthesizeSentences(question: string, results: Option<seq<Row>>, nt: NumberText)
    ensures results.Some? && |results.value| > 0 ==>
      var row := results.value[0];
      var answer := Synthesize(question, results, nt);
      && (Classify(question) == ProfitMargin && answer != "" ==> IsPrefix(ProfitLead, answer))
      && (Classify(question) == Sales && answer != "" ==> IsSuffix(SalesTail, answer))
      && (Classify(question) == Region && answer != "" ==> IsSuffix(RegionTail, answer))
      && (Classify(question) == Inventory && answer != "" ==>
            var stock := Lookup(row, GetKeyByPattern(row, StockPatterns).value);
            IsSuffix(LevelLead + InventoryLevel(stock, nt) + ".", answer))
      && (Classify(question) == Generic ==>
            answer == FoundResultsSentence || IsSuffix(GenericTail, answer))
  {
    if results.Some? && |results.value| > 0 {
      var row := results.value[0];
      if Classify(question) == Generic && GenericAnswer(row, nt) != FoundResultsSentence {
        var value := ToText(Lookup(row, GetKeyByPattern(row, GenericValuePatterns).value), nt);
        SuffixOfSuffix(value, GenericTail, GenericAnswer(row, nt));
      }
    }
  }

  /** The profit keywords are tested first: a question about the profit margin of sales
      gets the profit sentence, never the sales one. */
  lemma ProfitOutranksSales(question: string, results: Option<seq<Row>>, nt: NumberText)
    requires IsInfix("profit margin", Lower(question)) && IsInfix("sales", Lower(question))
    ensures Classify(question) == ProfitMargin
    ensures results.Some? && |results.value| > 0 ==>
      var answer := Synthesize(question, results, nt);
      answer == "" || IsPrefix(ProfitLead, answer)
  {
    assert ProfitKeywords[0] == "profit margin";
    SynthesizeSentences(question, results, nt);
  }
}

=== FILE: askcontroller.dfy ===
/** `askQuestion` (server/src/controllers/askController.ts): the request handler that checks
    the question, asks the model for SQL, runs it through the read-only gate, and answers
    with the rows, the SQL, the explanation and a natural-language sentence. */
module AskController {
  import opened Base
  import opened Strings
  import opened Values
  import opened Calls
  import opened Answer
  import opened GeminiService
  import opened DbService
  import opened DataVisualization

  const QuestionRequired: string := "Question is required"

  /** What the handler does with the HTTP exchange. */
  datatype Response =
    | BadRequest(error: string)   // status 400 with `{ error }`
    | Answered(results: Option<seq<Row>>, sql: string, explanation: string,
               naturalLanguageResponse: string)  // status 200 with these four fields
    | Forwarded(error: string)    // `next(error)`: the message goes to the error middleware

  /** Everything outside the handler: the API key, the schema text, the model endpoint,
      the database, and the number conversions of the runtime. */
  datatype Environment = Environment(
    apiKey: string,
    schema: string,
    model: string -> Completion,
    probeError: Option<string>,
    rpc: string -> Result<Option<seq<Row>>, string>,
    nt: NumberText)

  datatype Handled = Handled(response: Response, calls: seq<Call>)

  /** The last step of the handler: the question and the rows give the sentence. */
  type Answerer = (string, Option<seq<Row>>) -> string

  /** A text the database may receive: the cleaned form of a query the gate accepts. */
  ghost predicate Gated(sql: string) {
    exists query :: IsReadOnly(query) && sql == CleanSql(query)
  }

  /** The question is present and truthy. */
  predicate Asked(question: Option<string>) {
    question.Some? && question.value != ""
  }

  /** The sentence step `askQuestion` uses. */
  function Synthesis(nt: NumberText): Answerer {
    (q, results) => Synthesize(q, results, nt)
  }

  /** `askQuestion(req, res, next)`; `question` is `req.body.question`, `None` when absent. */
  function AskQuestion(question: Option<string>, env: Environment): (h: Handled)
    ensures h.response.BadRequest? <==> !Asked(question)
    ensures !Asked(question) ==> h.response == BadRequest(QuestionRequired) && h.calls == []
    ensures h.response.Answered? ==>
      && question.Some?
      && var g := GenerateSql(question.value, env.schema, env.apiKey, env.model);
      && g.outcome.Success?
      && h.response.sql == g.outcome.value.sql
      && h.response.explanation == g.outcome.value.explanation
      && IsReadOnly(h.response.sql)
      && IsTrimmed(h.response.sql) && !IsInfix("```", h.response.sql)
      && h.calls == [ModelRequest(BuildPrompt(env.schema, question.value)), ConnectionProbe,
                     ExecuteSql(CleanSql(h.response.sql))]
      && env.rpc(CleanSql(h.response.sql)) == Success(h.response.results)
      && h.response.naturalLanguageResponse ==
         Synthesize(question.value, h.response.results, env.nt)
  {
    Flow(question, env, Synthesis(env.nt))
  }

  /** The handler with its sentence step left as `answer`: what it says about the order of
      the calls holds whatever that step computes. */
  function Flow(question: Option<string>, env: Environment, answer: Answerer): (h: Handled)
    ensures h.response.BadRequest? <==> !Asked(question)
    ensures !Asked(question) ==> h.response == BadRequest(QuestionRequired) && h.calls == []
    ensures h.response.Answered? ==>
      && question.Some?
      && var g := GenerateSql(question.value, env.schema, env.apiKey, env.model);
      && g.outcome.Success?
      && h.response.sql == g.outcome.value.sql
      && h.response.explanation == g.outcome.value.explanation
      && IsReadOnly(h.response.sql)
      && IsTrimmed(h.response.sql) && !IsInfix("```", h.response.sql)
      && h.calls == [ModelRequest(BuildPrompt(env.schema, question.value)), ConnectionProbe,
                     ExecuteSql(CleanSql(h.response.sql))]
      && env.rpc(CleanSql(h.response.sql)) == Success(h.response.results)
      && h.response.naturalLanguageResponse == answer(question.value, h.response.results)
  {
    if !Asked(question) then Handled(BadRequest(QuestionRequired), [])
    else
      var q := question.value;
      var g := GenerateSql(q, env.schema, env.apiKey, env.model);
      Continue(q, g, env, answer)
  }

  /** What `generateSQL` guarantees the handler about its calls and its query. */
  predicate ModelStep(g: Generated, schema: string, q: string) {
    && (g.calls == [] || g.calls == [ModelRequest(BuildPrompt(schema, q))])
    && (g.outcome.Success? ==>
          && g.calls == [ModelRequest(BuildPrompt(schema, q))]
          && IsTrimmed(g.outcome.value.sql) && !IsInfix("```", g.outcome.value.sql))
  }

  lemma GenerateSqlIsModelStep(q: string, env: Environment)
    ensures ModelStep(GenerateSql(q, env.schema, env.apiKey, env.model), env.schema, q)
  {
  }

  /** The handler once the model step has ended with `g`. */
  function Continue(q: string, g: Generated, env: Environment, answer: Answerer): (h: Handled)
    requires ModelStep(g, env.schema, q)
    ensures !h.response.BadRequest?
    ensures h.response.Answered? ==>
      && g.outcome.Success?
      && h.response.sql == g.outcome.value.sql
      && h.response.explanation == g.outcome.value.explanation
      && IsReadOnly(h.response.sql)
      && IsTrimmed(h.response.sql) && !IsInfix("```", h.response.sql)
      && h.calls == [ModelRequest(BuildPrompt(env.schema, q)), ConnectionProbe,
                     ExecuteSql(CleanSql(h.response.sql))]
      && env.rpc(CleanSql(h.response.sql)) == Success(h.response.results)
      && h.response.naturalLanguageResponse == answer(q, h.response.results)
  {
    match g.outcome
    case Failure(msg) => Handled(Forwarded(msg), g.calls)
    case Success(gen) =>
      var rest := Proceed(q, gen, env, answer);
      if rest.response.Answered? then
        ThreeCalls(g.calls, rest.calls, ModelRequest(BuildPrompt(env.schema, q)), ConnectionProbe,
                   ExecuteSql(CleanSql(gen.sql)));
        Handled(rest.response, g.calls + rest.calls)
      else
        Handled(rest.response, g.calls + rest.calls)
  }

  lemma ThreeCalls(first: seq<Call>, rest: seq<Call>, a: Call, b: Call, c: Call)
    requires first == [a] && rest == [b, c]
    ensures first + rest == [a, b, c]
  {
  }

  /** The handler after the model has produced `gen`: run its SQL and answer. The calls
      are those of the query step alone. */
  function Proceed(q: string, gen: Generation, env: Environment, answer: Answerer): (h: Handled)
    ensures !h.response.BadRequest?
    ensures forall c | c in h.calls :: !c.ModelRequest?
    ensures forall c | c in h.calls && c.ExecuteSql? :: IsReadOnly(gen.sql) && c.sql == CleanSql(gen.sql)
    ensures !IsReadOnly(gen.sql) ==> h == Handled(Forwarded(ReadOnlyError), [])
    ensures h.response.Answered? ==>
      && h.response.sql == gen.sql && IsReadOnly(gen.sql)
      && h.response.explanation == gen.explanation
      && h.calls == [ConnectionProbe, ExecuteSql(CleanSql(gen.sql))]
      && env.rpc(CleanSql(gen.sql)) == Success(h.response.results)
      && h.response.naturalLanguageResponse == answer(q, h.response.results)
  {
    var e := ExecuteQuery(gen.sql, env.probeError, env.rpc);
    ExecuteQueryCalls(gen.sql, env.probeError, env.rpc);
    match e.outcome
    case Failure(msg) => Handled(Forwarded(msg), e.calls)
    case Success(results) =>
      Handled(Answered(results, gen.sql, gen.explanation, answer(q, results)), e.calls)
  }

  // ---------------------------------------------------------------- the order of the calls

  /** After the model step, the handler's calls start with the model step's own. */
  lemma ContinueAsksFirst(q: string, g: Generated, env: Environment, answer: Answerer)
    requires ModelStep(g, env.schema, q)
    ensures |g.calls| > 0 ==> var h := Continue(q, g, env, answer);
      |h.calls| > 0 && h.calls[0] == g.calls[0]
  {
  }

  /** After the model step, the handler sends no further model request. */
  lemma ContinueAsksOnce(q: string, g: Generated, env: Environment, answer: Answerer)
    requires ModelStep(g, env.schema, q)
    ensures var h := Continue(q, g, env, answer);
      forall i | 0 < i < |h.calls| :: !h.calls[i].ModelRequest?
  {
    var h := Continue(q, g, env, answer);
    if g.outcome.Success? {
      var rest := Proceed(q, g.outcome.value, env, answer);
      assert h.calls == [ModelRequest(BuildPrompt(env.schema, q))] + rest.calls;
      forall i | 0 < i < |h.calls|
        ensures !h.calls[i].ModelRequest?
      {
        assert h.calls[i] == rest.calls[i - 1] && rest.calls[i - 1] in rest.calls;
      }
    }
  }

  /** After the model step, every SQL text sent is the cleaned form of the generated query,
      which the gate accepted. */
  lemma ContinueRunsOnlyGenerated(q: string, g: Generated, env: Environment, answer: Answerer)
    requires ModelStep(g, env.schema, q)
    ensures forall c | c in Continue(q, g, env, answer).calls && c.ExecuteSql? ::
      g.outcome.Success? && IsReadOnly(g.outcome.value.sql) && c.sql == CleanSql(g.outcome.value.sql)
  {
    var h := Continue(q, g, env, answer);
    if g.outcome.Success? {
      var rest := Proceed(q, g.outcome.value, env, answer);
      assert h.calls == g.calls + rest.calls;
      forall c | c in h.calls && c.ExecuteSql?
        ensures c in rest.calls
      {
      }
    }
  }

  /** A generated query the gate refuses ends the handler with the rejection, after the
      model request and before any database call. */
  lemma ContinueRefusesWrite(q: string, g: Generated, env: Environment, answer: Answerer)
    requires ModelStep(g, env.schema, q)
    requires g.outcome.Success? && !IsReadOnly(g.outcome.value.sql)
    ensures Continue(q, g, env, answer) == Handled(Forwarded(ReadOnlyError), g.calls)
  {
    assert Proceed(q, g.outcome.value, env, answer) == Handled(Forwarded(ReadOnlyError), []);
    assert g.calls + [] == g.calls;
  }

  /** `askQuestion` asks the model first, once the question is there and the key is set,
      and never asks it again. */
  lemma ModelAskedFirstAndOnce(question: Option<string>, env: Environment)
    ensures var h := AskQuestion(question, env);
      Asked(question) && env.apiKey != "" ==>
        |h.calls| > 0 && h.calls[0] == ModelRequest(BuildPrompt(env.schema, question.value))
    ensures var h := AskQuestion(question, env);
      forall i | 0 < i < |h.calls| :: !h.calls[i].ModelRequest?
  {
    if Asked(question) {
      var q := question.value;
      var g := GenerateSql(q, env.schema, env.apiKey, env.model);
      GenerateSqlIsModelStep(q, env);
      ContinueAsksFirst(q, g, env, Synthesis(env.nt));
      ContinueAsksOnce(q, g, env, Synthesis(env.nt));
    }
  }

  /** Whatever the model answers, the database only ever receives the cleaned form of the
      generated query, and only when the gate accepted that query. */
  lemma OnlyGatedSqlRuns(question: Option<string>, env: Environment)
    ensures Asked(question) ==>
      forall c | c in AskQuestion(question, env).calls && c.ExecuteSql? ::
        var g := GenerateSql(question.value, env.schema, env.apiKey, env.model);
        g.outcome.Success? && IsReadOnly(g.outcome.value.sql) && c.sql == CleanSql(g.outcome.value.sql)
    ensures forall c | c in AskQuestion(question, env).calls && c.ExecuteSql? :: Gated(c.sql)
  {
    if Asked(question) {
      var q := question.value;
      var g := GenerateSql(q, env.schema, env.apiKey, env.model);
      GenerateSqlIsModelStep(q, env);
      ContinueRunsOnlyGenerated(q, g, env, Synthesis(env.nt));
      forall c | c in AskQuestion(question, env).calls && c.ExecuteSql?
        ensures Gated(c.sql)
      {
        assert IsReadOnly(g.outcome.value.sql) && c.sql == CleanSql(g.outcome.value.sql);
      }
    }
  }

  // ---------------------------------------------------------------- early exits

  /** When the model's SQL is not a read-only query, nothing reaches the database and the
      rejection message goes to the error middleware. */
  lemma WriteQueryNeverRuns(question: string, env: Environment)
    requires question != ""
    requires GenerateSql(question, env.schema, env.apiKey, env.model).outcome.Success?
    requires !IsReadOnly(GenerateSql(question, env.schema, env.apiKey, env.model).outcome.value.sql)
    ensures AskQuestion(Some(question), env) ==
      Handled(Forwarded(ReadOnlyError), [ModelRequest(BuildPrompt(env.schema, question))])
  {
    var g := GenerateSql(question, env.schema, env.apiKey, env.model);
    GenerateSqlIsModelStep(question, env);
    ContinueRefusesWrite(question, g, env, Synthesis(env.nt));
  }

  /** A model reply without a `SQL:` section stops the request before the database. */
  lemma ReplyWithoutSqlStopsEarly(question: string, env: Environment)
    requires question != "" && env.apiKey != ""
    requires env.model(BuildPrompt(env.schema, question)).Reply?
    requires NoMatchIgnoringCase(Trim(env.model(BuildPrompt(env.schema, question)).text), "SQL:", 0)
    ensures AskQuestion(Some(question), env).response == Forwarded(NoSqlError)
    ensures AskQuestion(Some(question), env).calls == [ModelRequest(BuildPrompt(env.schema, question))]
  {
    ReplyFailsOnlyWithoutSql(question, env.schema, env.apiKey, env.model);
  }

  /** Without an API key the model is never asked and nothing else happens. */
  lemma MissingKeyStopsEarly(question: string, env: Environment)
    requires question != "" && env.apiKey == ""
    ensures AskQuestion(Some(question), env) == Handled(Forwarded(MissingKeyError), [])
  {
  }

  /** An empty or missing result set is answered with the no-data sentence. */
  lemma EmptyResultsAnswer(question: string, env: Environment)
    requires AskQuestion(Some(question), env).response.Answered?
    requires var r := AskQuestion(Some(question), env).response.results;
      r.None? || |r.value| == 0
    ensures AskQuestion(Some(question), env).response.naturalLanguageResponse == NoDataSentence
  {
  }

  /** Rows the database returns as `null` are forwarded as they are: the answer is the
      no-data sentence, and the chart component given that response throws. */
  lemma NullRowsCrashChart(question: string, env: Environment)
    requires AskQuestion(Some(question), env).response.Answered?
    requires env.rpc(CleanSql(AskQuestion(Some(question), env).response.sql)) == Success(None)
    ensures AskQuestion(Some(question), env).response.results == None
    ensures AskQuestion(Some(question), env).response.naturalLanguageResponse == NoDataSentence
    ensures Render(AskQuestion(Some(question), env).response.results, env.nt) == Crashed
  {
    EmptyResultsAnswer(question, env);
  }
}

=== FILE: base.dfy ===
/** Failure-compatible wrappers and a first-match search shared by every module. */
module Base {

  /** A value that may be absent: JavaScript's `null`/`undefined` results. */
  datatype Option<+T> = None | Some(value: T)

  /** The outcome of an operation that can throw: a value, or the thrown error. */
  datatype Result<+T, +E> = Success(value: T) | Failure(error: E)

  /** Index of the first element of `s` satisfying `p`, the shape of every
      `for ... of ... { if (...) return ... }` loop in the system. */
  function FirstIndex<T>(s: seq<T>, p: T -> bool): (r: Option<nat>)
    ensures r.Some? ==> r.value < |s| && p(s[r.value])
    ensures r.Some? ==> forall j | 0 <= j < r.value :: !p(s[j])
    ensures r.None? <==> forall j | 0 <= j < |s| :: !p(s[j])
  {
    if |s| == 0 then None
    else if p(s[0]) then Some(0)
    else match FirstIndex(s[1..], p)
      case None => None
      case Some(i) => Some(i + 1)
  }

  /** The elements of `s` satisfying `p`, in order: `Array.prototype.filter`. */
  function Filter<T>(s: seq<T>, p: T -> bool): (r: seq<T>)
    ensures |r| <= |s|
    ensures forall x | x in r :: x in s && p(x)
    ensures forall j | 0 <= j < |s| && p(s[j]) :: s[j] in r
  {
    if |s| == 0 then []
    else (if p(s[0]) then [s[0]] else []) + Filter(s[1..], p)
  }

  /** Filtering and taking the head finds the same element as a first-match search. */
  lemma {:induction false} FilterHead<T>(s: seq<T>, p: T -> bool)
    ensures |Filter(s, p)| > 0 <==> FirstIndex(s, p).Some?
    ensures |Filter(s, p)| > 0 ==> Filter(s, p)[0] == s[FirstIndex(s, p).value]
  {
    if |s| > 0 && !p(s[0]) {
      FilterHead(s[1..], p);
      assert Filter(s, p) == Filter(s[1..], p);
    }
  }
}

=== FILE: calls.dfy ===
/** The remote calls the server makes. Every orchestration returns the calls it made, in
    order, next to its outcome, so that contracts can say which calls happen and with what. */
module Calls {
  datatype Call =
    | ModelRequest(prompt: string) // the POST of this prompt to the generateContent endpoint
    | ConnectionProbe              // `supabase.from('products').select('*').limit(0)`
    | ExecuteSql(sql: string)      // `supabase.rpc('execute_sql_query', { sql_query })`
}

=== FILE: datavisualization.dfy ===
/** The data preparation of the chart component (client/src/components/DataVisualization.tsx):
    whether a result can be charted, which fields give the values and the labels, the
    value and label of every row, and the truncation of labels under the axis. The canvas
    drawing itself is not modelled. */
module DataVisualization {
  import opened Base
  import opened Strings
  import opened Values

  /** `typeof v === 'number'`. */
  predicate IsNumeric(v: Value) {
    v.Num?
  }

  /** `typeof v === 'string' || (typeof v === 'object' && v !== null)`. */
  predicate IsCategorical(v: Value) {
    v.Text? || v.Composite?
  }

  predicate NumericField(f: Field) {
    IsNumeric(f.1)
  }

  predicate CategoricalField(f: Field) {
    IsCategorical(f.1)
  }

  /** The key at position `i` is the first whose field satisfies `p`. */
  ghost predicate FirstKeyWith(row: Row, p: Field -> bool, i: nat, key: string) {
    && i < |row|
    && row[i].0 == key
    && p(row[i])
    && forall j | 0 <= j < i :: !p(row[j])
  }

  /** `fields.filter(field => ...)`: the keys of the fields satisfying `p`, in
      `Object.keys` order; the first of them is the first such field's key. */
  function KeysWhere(row: Row, p: Field -> bool): (ks: seq<string>)
    ensures |ks| > 0 <==> exists i | 0 <= i < |row| :: p(row[i])
    ensures |ks| > 0 ==> exists i :: FirstKeyWith(row, p, i, ks[0])
  {
    FilterHead(row, p);
    var ks := Keys(Filter(row, p));
    if |ks| > 0 then
      assert FirstKeyWith(row, p, FirstIndex(row, p).value, ks[0]);
      ks
    else ks
  }

  /** `canVisualize(data)`: there is a row, and the first row has a numeric field. */
  function CanVisualize(data: seq<Row>): (ok: bool)
    ensures ok <==> |data| > 0 && exists i | 0 <= i < |data[0]| :: IsNumeric(data[0][i].1)
  {
    if |data| == 0 then false
    else
      var found := |KeysWhere(data[0], NumericField)| > 0;
      assert found ==> exists i | 0 <= i < |data[0]| :: IsNumeric(data[0][i].1);
      found
  }

  /** `numericFields[0]`: the first key of the row holding a number. */
  function ValueField(row: Row): (k: Option<string>)
    ensures k.None? <==> forall i | 0 <= i < |row| :: !IsNumeric(row[i].1)
    ensures k.Some? ==> exists i :: FirstKeyWith(row, NumericField, i, k.value)
  {
    var ks := KeysWhere(row, NumericField);
    if |ks| == 0 then
      assert forall i | 0 <= i < |row| :: !NumericField(row[i]);
      None
    else Some(ks[0])
  }

  /** `categoricalFields.length > 0 ? categoricalFields[0] : ''`. */
  function LabelField(row: Row): (k: string)
    ensures (forall i | 0 <= i < |row| :: !IsCategorical(row[i].1)) ==> k == ""
    ensures (exists i | 0 <= i < |row| :: IsCategorical(row[i].1)) ==>
      exists i :: FirstKeyWith(row, CategoricalField, i, k)
  {
    var ks := KeysWhere(row, CategoricalField);
    if |ks| == 0 then ""
    else
      assert exists i | 0 <= i < |row| :: CategoricalField(row[i]);
      ks[0]
  }

  /** `Number(row[valueField]) || 0`: the number the cell converts to, `0` for `NaN`. */
  function ChartValue(row: Row, valueField: string, nt: NumberText): (x: real)
    ensures Lookup(row, valueField).Num? ==> x == Lookup(row, valueField).n
    ensures ToNumber(Lookup(row, valueField), nt).None? ==> x == 0.0
    ensures valueField !in Keys(row) ==> x == 0.0
    ensures Lookup(row, valueField).Null? ==> x == 0.0
    ensures Lookup(row, valueField).Bool? ==> x == if Lookup(row, valueField).b then 1.0 else 0.0
    ensures Lookup(row, valueField).Text? && nt.parse(Lookup(row, valueField).s).Some? ==>
      x == nt.parse(Lookup(row, valueField).s).value
  {
    match ToNumber(Lookup(row, valueField), nt)
    case Some(n) => n
    case None => 0.0
  }

  /** `String(row[labelField] || '')`: a falsy cell gives the empty label. */
  function ChartLabel(row: Row, labelField: string, nt: NumberText): (s: string)
    ensures !Truthy(Lookup(row, labelField)) ==> s == ""
    ensures Lookup(row, labelField).Text? ==> s == Lookup(row, labelField).s
    ensures Lookup(row, labelField).Composite? ==> s == Lookup(row, labelField).shown
  {
    var v := Lookup(row, labelField);
    if Truthy(v) then ToText(v, nt) else ""
  }

  /** `Item ${index + 1}`, the label of a row when there is no label field. */
  function ItemLabel(index: nat): string {
    "Item " + NatToString(index + 1)
  }

  /** The stand-in labels tell every row apart. */
  lemma ItemLabelsDistinct(i: nat, j: nat)
    requires i != j
    ensures ItemLabel(i) != ItemLabel(j)
  {
    var a, b := NatToString(i + 1), NatToString(j + 1);
    assert ItemLabel(i)[5..] == a && ItemLabel(j)[5..] == b;
    NatToStringRoundTrip(i + 1);
    NatToStringRoundTrip(j + 1);
  }

  /** `results.map(row => Number(row[valueField]) || 0)`. */
  function ChartValues(results: seq<Row>, valueField: string, nt: NumberText): (xs: seq<real>)
    ensures |xs| == |results|
    ensures forall i | 0 <= i < |results| :: xs[i] == ChartValue(results[i], valueField, nt)
  {
    seq(|results|, i requires 0 <= i < |results| => ChartValue(results[i], valueField, nt))
  }

  /** The labels of the rows: from the label field when there is one (its key is truthy),
      otherwise `Item 1`, `Item 2`, ... */
  function ChartLabels(results: seq<Row>, labelField: string, nt: NumberText): (ls: seq<string>)
    ensures |ls| == |results|
    ensures labelField != "" ==>
      forall i | 0 <= i < |results| :: ls[i] == ChartLabel(results[i], labelField, nt)
    ensures labelField == "" ==> forall i | 0 <= i < |results| :: ls[i] == ItemLabel(i)
  {
    if labelField != "" then
      seq(|results|, i requires 0 <= i < |results| => ChartLabel(results[i], labelField, nt))
    else seq(|results|, i requires 0 <= i < |results| => ItemLabel(i))
  }

  /** The prepared chart: `valueField by labelField`, one value and one label per row. */
  datatype Chart = Chart(title: string, values: seq<real>, labels: seq<string>)

  /** The data preparation of the chart effect; `None` when `canVisualize` is false and
      nothing is drawn. */
  function PrepareChart(results: seq<Row>, nt: NumberText): (c: Option<Chart>)
    ensures c.Some? <==> CanVisualize(results)
    ensures c.Some? ==> |c.value.values| == |c.value.labels| == |results|
    ensures c.Some? ==> c.value.values[0] == NumberOfFirstNumeric(results[0])
    ensures c.Some? ==>
      forall i | 0 <= i < |results| ::
        c.value.values[i] == ChartValue(results[i], ValueField(results[0]).value, nt)
    ensures c.Some? ==> c.value.title == Title(ValueField(results[0]).value, LabelField(results[0]))
    ensures c.Some? && LabelField(results[0]) == "" ==>
      forall i | 0 <= i < |results| :: c.value.labels[i] == ItemLabel(i)
    ensures c.Some? && LabelField(results[0]) != "" ==>
      forall i | 0 <= i < |results| ::
        c.value.labels[i] == ChartLabel(results[i], LabelField(results[0]), nt)
  {
    if !CanVisualize(results) then None
    else
      var first := results[0];
      var valueField := ValueField(first).value;
      var labelField := LabelField(first);
      var values := ChartValues(results, valueField, nt);
      FirstValueIsItsNumber(first, valueField);
      Some(Chart(Title(valueField, labelField), values, ChartLabels(results, labelField, nt)))
  }

  /** What the component shows for the `results` of a response. */
  datatype View =
    | Crashed          // `canVisualize(results)` reads `data.length` of a `null` result and throws
    | Notice           // the notice that the rows hold nothing to chart
    | Drawn(chart: Chart)

  /** The render of the component: it calls `canVisualize(results)` before anything else,
      so rows the server sent as `null` make it throw; rows it cannot chart give the
      notice; otherwise the prepared chart is drawn, one bar or point per row. */
  function Render(results: Option<seq<Row>>, nt: NumberText): (v: View)
    ensures v.Crashed? <==> results.None?
    ensures v.Notice? <==> results.Some? && !CanVisualize(results.value)
    ensures v.Drawn? <==> results.Some? && CanVisualize(results.value)
    ensures v.Drawn? ==>
      && PrepareChart(results.value, nt) == Some(v.chart)
      && |v.chart.values| == |v.chart.labels| == |results.value| > 0
  {
    match results
    case None => Crashed
    case Some(rows) =>
      match PrepareChart(rows, nt)
      case None => Notice
      case Some(c) => Drawn(c)
  }

  /** An empty result set gives the notice, never a chart. */
  lemma EmptyRowsNotice(nt: NumberText)
    ensures Render(Some([]), nt) == Notice
  {
  }

  /** The number held by the first numeric field of a row that has one. */
  function NumberOfFirstNumeric(row: Row): real
    requires exists i | 0 <= i < |row| :: IsNumeric(row[i].1)
  {
    assert exists i | 0 <= i < |row| :: NumericField(row[i]);
    row[FirstIndex(row, NumericField).value].1.n
  }

  /** The first row's value is the number in its own value field. */
  lemma FirstValueIsItsNumber(row: Row, valueField: string)
    requires exists i | 0 <= i < |row| :: IsNumeric(row[i].1)
    requires ValueField(row) == Some(valueField)
    ensures Lookup(row, valueField) == Num(NumberOfFirstNumeric(row))
  {
    var i :| FirstKeyWith(row, NumericField, i, valueField);
    assert exists i | 0 <= i < |row| :: NumericField(row[i]);
    var j := FirstIndex(row, NumericField).value;
    assert i == j by {
      assert !(j < i) by { assert NumericField(row[j]); }
      assert !(i < j) by { assert NumericField(row[i]); }
    }
    LookupAt(row, i);
  }

  /** `${valueField} by ${labelField || 'Item'}`. */
  function Title(valueField: string, labelField: string): (t: string)
    ensures IsPrefix(valueField + " by ", t)
    ensures labelField == "" ==> t == valueField + " by Item"
  {
    valueField + " by " + (if labelField != "" then labelField else "Item")
  }

  /** `text.substring(0, 8) + (text.length > 8 ? '...' : '')`, the text drawn under a
      bar or point. */
  function Truncate(text: string): (r: string)
    ensures |text| <= 8 ==> r == text
    ensures |text| > 8 ==> |r| == 11 && r[..8] == text[..8] && r[8..] == "..."
    ensures |r| <= 11
  {
    if |text| > 8 then text[..8] + "..." else text
  }

  /** Truncating an already truncated text changes nothing. */
  lemma TruncateIdempotent(text: string)
    ensures Truncate(Truncate(text)) == Truncate(text)
  {
    if |text| > 8 {
      var r := Truncate(text);
      assert r[..8] + "..." == r;
    }
  }
}

=== FILE: dbservice.dfy ===
/** `executeQuery` (server/src/services/dbService.ts): the cleaning of the generated SQL,
    the normalised copy that is inspected, the first-keyword gate, and the order of the
    remote calls. The Supabase probe and RPC are parameters. */
module DbService {
  import opened Base
  import opened Strings
  import opened Values
  import opened Calls

  /** The text `getSchemaInfo` returns for the prompt. */
  const SchemaInfo: string :=
    "\n"
    + "    Table regions: id (serial), name (varchar), country (varchar), zone (varchar), population (integer), economic_index (numeric), Q1 (boolean), Q2 (boolean), Q3 (boolean), Q4 (boolean), x_factor (numeric)\n"
    + "    \n"
    + "    Table products: id (serial), name (varchar), category (varchar), price (numeric), cost (numeric), prd_desc (text), mfg_date (date), exp_date (date), prd_code (varchar), stock (integer), status (varchar)\n"
    + "    \n"
    + "    Table users: id (serial), name (varchar), email (varchar), role (varchar), joined_date (date), last_active (timestamp), t1 (boolean), t2 (boolean), t3 (boolean), usr_pref (jsonb)\n"
    + "    \n"
    + "    Table sales: id (serial), date (date), amount (numeric), product_id (integer), user_id (integer), region_id (integer), qty (integer), dscnt (numeric), c1 (varchar), c2 (varchar), p1 (boolean), p2 (boolean), s (integer), ts (timestamp)\n"
    + "    \n"
    + "    Table inventory: id (serial), product_id (integer), region_id (integer), qty_available (integer), last_restocked (timestamp), min_stock_level (integer), max_stock_level (integer), flag (varchar)\n"
    + "    \n"
    + "    Relationships:\n"
    + "    - sales.product_id references products.id\n"
    + "    - sales.user_id references users.id\n"
    + "    - sales.region_id references regions.id\n"
    + "    - inventory.product_id references products.id\n"
    + "    - inventory.region_id references regions.id\n"
    + "  "

  const ReadOnlyError: string := "Only SELECT queries are supported for security reasons"
  const ConnectionErrorPrefix: string := "Supabase connection error: "
  const QueryErrorPrefix: string := "Query execution error: "

  // ---------------------------------------------------------------- cleaning

  /** `s.replace(/;+$/, '')`: the maximal run of semicolons at the end is removed. */
  function StripTrailingSemicolons(s: string): (r: string)
    ensures IsPrefix(r, s)
    ensures forall i | |r| <= i < |s| :: s[i] == ';'
    ensures r == [] || r[|r| - 1] != ';'
  {
    if |s| > 0 && s[|s| - 1] == ';' then StripTrailingSemicolons(s[..|s| - 1]) else s
  }

  /** `cleanSql`, the string that is executed: the trimmed input without its trailing
      semicolons. It is not trimmed again. */
  function CleanSql(sql: string): (r: string)
    ensures IsPrefix(r, Trim(sql))
    ensures forall i | |r| <= i < |Trim(sql)| :: Trim(sql)[i] == ';'
    ensures r == [] || r[|r| - 1] != ';'
  {
    StripTrailingSemicolons(Trim(sql))
  }

  // ---------------------------------------------------------------- normalisation

  predicate StartsWith2(s: string, a: char, b: char) {
    |s| >= 2 && s[0] == a && s[1] == b
  }

  // The block-comment removal (a lazy, dot-all, global regex): scanning left to right,
  // a slash-star with a later star-slash is removed through the first such star-slash;
  // a slash-star without one stays.
  function StripBlockComments(s: string): (r: string)
    ensures |r| <= |s|
    decreases |s|
  {
    if |s| == 0 then []
    else if StartsWith2(s, '/', '*') && IndexOf(s, "*/", 2).Some? then
      StripBlockComments(s[IndexOf(s, "*/", 2).value + 2..])
    else [s[0]] + StripBlockComments(s[1..])
  }

  /** The end of the line that starts at or before `i`: the first line terminator at or
      after `i`, or the end of the text. */
  function LineEnd(s: string, i: nat): (k: nat)
    requires i <= |s|
    ensures i <= k <= |s|
    ensures forall j | i <= j < k :: !IsLineTerminator(s[j])
    ensures k < |s| ==> IsLineTerminator(s[k])
  {
    SkipWhile(s, i, c => !IsLineTerminator(c))
  }

  /** `.replace(/--.*?$/gm, '')`: each `--` is removed with the rest of its line; the line
      terminator stays. */
  function StripLineComments(s: string): (r: string)
    ensures |r| <= |s|
    decreases |s|
  {
    if |s| == 0 then []
    else if StartsWith2(s, '-', '-') then StripLineComments(s[LineEnd(s, 2)..])
    else [s[0]] + StripLineComments(s[1..])
  }

  /** `.replace(/^\s+/gm, '')`: a whitespace run that starts a line (the text start, or
      just after a line terminator of the original text) is removed, newlines included.
      `lineStart` says whether the current position starts a line. */
  function StripIndent(s: string, lineStart: bool): (r: string)
    ensures |r| <= |s|
    decreases |s|
  {
    if |s| == 0 then []
    else if lineStart && IsSpace(s[0]) then
      // the character after the run is not whitespace, so it cannot start a run itself
      StripIndent(s[SkipWhile(s, 0, IsSpace)..], false)
    else [s[0]] + StripIndent(s[1..], IsLineTerminator(s[0]))
  }

  /** `normalizedSql`: comments and indentation removed, then trimmed. */
  function Normalize(clean: string): (r: string)
    ensures IsTrimmed(r)
  {
    Trim(StripIndent(StripLineComments(StripBlockComments(clean)), true))
  }

  // The leading-comment removal (an anchored, starred alternation): from the start,
  // repeatedly drop one whitespace character, a closed block comment, or a line comment
  // ended by `\r` or `\n` (a line comment ended otherwise, or not ended, stops the loop).
  function StripLeadingComments(s: string): (r: string)
    ensures |r| <= |s| && r == s[|s| - |r|..]
    ensures r == [] || !IsSpace(r[0])
    decreases |s|
  {
    if |s| == 0 then s
    else if IsSpace(s[0]) then StripLeadingComments(s[1..])
    else if StartsWith2(s, '/', '*') && IndexOf(s, "*/", 2).Some? then
      StripLeadingComments(s[IndexOf(s, "*/", 2).value + 2..])
    else if StartsWith2(s, '-', '-') && LineEnd(s, 2) < |s| && (s[LineEnd(s, 2)] == '\r' || s[LineEnd(s, 2)] == '\n') then
      StripLeadingComments(s[LineEnd(s, 2) + 1..])
    else s
  }

  /** `s.split(/\s+/)[0]`: the text before the first whitespace character. */
  function FirstToken(s: string): (t: string)
    ensures IsPrefix(t, s)
    ensures forall i | 0 <= i < |t| :: !IsSpace(t[i])
    ensures |t| == |s| || IsSpace(s[|t|])
  {
    s[..SkipWhile(s, 0, c => !IsSpace(c))]
  }

  /** `firstKeyword`: the upper-cased first token of the normalised text without leading
      comments. */
  function Keyword(sql: string): string {
    FirstKeyword(Normalize(CleanSql(sql)))
  }

  /** `firstKeyword` computed from `normalizedSql`. */
  function FirstKeyword(normalized: string): string {
    Upper(FirstToken(StripLeadingComments(normalized)))
  }

  /** The gate of `executeQuery`. */
  predicate IsReadOnly(sql: string) {
    Keyword(sql) == "SELECT" || Keyword(sql) == "WITH"
  }

  // ---------------------------------------------------------------- execution

  /** What `executeQuery` resolves to (the RPC's data, `null` as `None`) or the message of
      the error it throws, with the remote calls it made. */
  datatype Execution = Execution(outcome: Result<Option<seq<Row>>, string>, calls: seq<Call>)

  /** `executeQuery(sql)`. `probeError` is the error message of the connection probe, if
      it fails; `rpc` is the database's answer to `execute_sql_query` for a given text. */
  function ExecuteQuery(sql: string, probeError: Option<string>,
                        rpc: string -> Result<Option<seq<Row>>, string>): (e: Execution)
    ensures e.outcome == Failure(ReadOnlyError) <==> !IsReadOnly(sql)
    ensures !IsReadOnly(sql) ==> e.calls == []
    ensures IsReadOnly(sql) ==> |e.calls| > 0 && e.calls[0] == ConnectionProbe
    ensures IsReadOnly(sql) && probeError.None? ==>
      e.calls == [ConnectionProbe, ExecuteSql(CleanSql(sql))]
    ensures IsReadOnly(sql) && probeError.Some? ==> e.calls == [ConnectionProbe]
    ensures IsReadOnly(sql) && probeError.Some? ==>
      e.outcome == Failure(ConnectionErrorPrefix + probeError.value)
    ensures e.outcome.Success? <==>
      IsReadOnly(sql) && probeError.None? && rpc(CleanSql(sql)).Success?
    ensures e.outcome.Success? ==> e.outcome.value == rpc(CleanSql(sql)).value
    ensures e.outcome.Failure? && IsReadOnly(sql) && probeError.None? ==>
      e.outcome.error == QueryErrorPrefix + rpc(CleanSql(sql)).error
  {
    Run(IsReadOnly(sql), CleanSql(sql), probeError, rpc)
  }

  /** The database only ever receives the cleaned text of a query the gate accepts, and
      it receives it exactly when the connection probe succeeds. */
  lemma ExecuteQueryCalls(sql: string, probeError: Option<string>,
                          rpc: string -> Result<Option<seq<Row>>, string>)
    ensures var e := ExecuteQuery(sql, probeError, rpc);
      && (forall c | c in e.calls :: c.ConnectionProbe? || c.ExecuteSql?)
      && (forall c | c in e.calls && c.ExecuteSql? :: IsReadOnly(sql) && c.sql == CleanSql(sql))
      && (ExecuteSql(CleanSql(sql)) in e.calls <==> IsReadOnly(sql) && probeError.None?)
  {
  }

  /** The body of `executeQuery` once the gate has decided `accepted` and the text to run
      is `clean`. */
  function Run(accepted: bool, clean: string, probeError: Option<string>,
               rpc: string -> Result<Option<seq<Row>>, string>): (e: Execution)
    ensures e.outcome == Failure(ReadOnlyError) <==> !accepted
    ensures !accepted ==> e.calls == []
    ensures accepted ==> |e.calls| > 0 && e.calls[0] == ConnectionProbe
    ensures accepted && probeError.None? ==> e.calls == [ConnectionProbe, ExecuteSql(clean)]
    ensures accepted && probeError.Some? ==> e.calls == [ConnectionProbe]
    ensures forall c | c in e.calls :: c.ConnectionProbe? || c.ExecuteSql?
    ensures forall c | c in e.calls && c.ExecuteSql? :: accepted && c.sql == clean
    ensures ExecuteSql(clean) in e.calls <==> accepted && probeError.None?
    ensures accepted && probeError.Some? ==>
      e.outcome == Failure(ConnectionErrorPrefix + probeError.value)
    ensures e.outcome.Success? <==> accepted && probeError.None? && rpc(clean).Success?
    ensures e.outcome.Success? ==> e.outcome.value == rpc(clean).value
    ensures e.outcome.Failure? && accepted && probeError.None? ==>
      e.outcome.error == QueryErrorPrefix + rpc(clean).error
  {
    if !accepted then Execution(Failure(ReadOnlyError), [])
    else match probeError
      case Some(msg) =>
        PrefixedDiffers(ConnectionErrorPrefix, msg);
        Execution(Failure(ConnectionErrorPrefix + msg), [ConnectionProbe])
      case None =>
        match rpc(clean)
        case Success(rows) => Execution(Success(rows), [ConnectionProbe, ExecuteSql(clean)])
        case Failure(msg) =>
          PrefixedDiffers(QueryErrorPrefix, msg);
          Execution(Failure(QueryErrorPrefix + msg), [ConnectionProbe, ExecuteSql(clean)])
  }

  /** Neither wrapped error message can be mistaken for the rejection message. */
  lemma PrefixedDiffers(prefix: string, msg: string)
    requires prefix == ConnectionErrorPrefix || prefix == QueryErrorPrefix
    ensures prefix + msg != ReadOnlyError
  {
    // the last character of either prefix is a space; the rejection message has a
    // letter at that position
    assert (prefix + msg)[|prefix| - 1] == prefix[|prefix| - 1];
  }

  // ---------------------------------------------------------------- cleaning is not idempotent

  /** Cleaning twice can differ from cleaning once: the semicolon strip can expose
      whitespace that the single trim already ran past. */
  lemma CleanSqlNotIdempotent()
    ensures CleanSql("select 1; ;") == "select 1; "
    ensures CleanSql(CleanSql("select 1; ;")) == "select 1"
  {
    CleanOnceExample();
    CleanTwiceExample();
  }

  lemma CleanOnceExample()
    ensures CleanSql("select 1; ;") == "select 1; "
  {
    var b := "select 1; ";
    assert b + ";" == "select 1; ;";
    CleanOfSemicolon(b);
  }

  lemma CleanTwiceExample()
    ensures CleanSql("select 1; ") == "select 1"
  {
    var a := "select 1";
    TrimEndSkips(a + ";", " ");
    assert (a + ";") + " " == "select 1; ";
    CleanOfSemicolon(a);
  }

  /** One trailing semicolon after a text that starts a word and does not end in a
      semicolon is all that cleaning removes, once the text around it is trimmed. */
  lemma CleanOfSemicolon(u: string)
    requires u != [] && !IsSpace(u[0]) && u[|u| - 1] != ';'
    ensures Trim(u + ";") == u + ";"
    ensures CleanSql(u + ";") == u
    ensures forall t | Trim(t) == u + ";" :: CleanSql(t) == u
  {
    var t := u + ";";
    assert t[0] == u[0] && t[|t| - 1] == ';';
    TrimOfTrimmed(t);
    assert t[..|t| - 1] == u;
  }

  /** Cleaning is idempotent exactly when its result does not end in whitespace. */
  lemma CleanSqlIdempotent(sql: string)
    ensures CleanSql(CleanSql(sql)) == CleanSql(sql) <==>
      CleanSql(sql) == [] || !IsSpace(CleanSql(sql)[|CleanSql(sql)| - 1])
  {
    var c := CleanSql(sql);
    if c == [] || !IsSpace(c[|c| - 1]) {
      assert c == [] || c[0] == Trim(sql)[0];
      TrimOfTrimmed(c);
    } else {
      assert CleanSql(c) != c by {
        assert |Trim(c)| < |c| by {
          assert IsTrimmed(Trim(c));
          if |Trim(c)| == |c| {
            TrimLengthKept(c);
          }
        }
      }
    }
  }

  lemma TerminatorsAreSpace(c: char)
    ensures IsLineTerminator(c) ==> IsSpace(c)
  {
    if IsLineTerminator(c) { LineTerminatorIsSpace(c); }
  }

  /** A trim that removes nothing leaves a text that was already trimmed. */
  lemma TrimLengthKept(s: string)
    requires |Trim(s)| == |s|
    ensures Trim(s) == s
  {
    var a := TrimStart(s);
    assert |a| == |s|;
    assert a == s;
  }

  // ---------------------------------------------------------------- the first word decides

  /** A word that cleaning and normalisation leave alone at the head of the text. */
  predicate PlainWord(p: string) {
    && |p| > 0
    && p[|p| - 1] != ';'
    && forall i | 0 <= i < |p| :: !IsSpace(p[i]) && p[i] != '/' && p[i] != '-'
  }

  /** `s` starts with the whole word `p`: `p` is followed by whitespace or the end. */
  predicate Leads(p: string, s: string) {
    IsPrefix(p, s) && (|s| == |p| || IsSpace(s[|p|]))
  }

  lemma TrimKeepsLead(p: string, s: string)
    requires PlainWord(p) && Leads(p, s)
    ensures Leads(p, Trim(s))
  {
    assert s[0] == p[0];
    TrimStartKeeps(s);
    assert s[|p| - 1] == p[|p| - 1];
    TrimEndKeepsLead(p, s);
  }

  lemma TrimStartKeeps(s: string)
    requires s == [] || !IsSpace(s[0])
    ensures TrimStart(s) == s
  {}

  lemma TrimEndKeepsLead(p: string, s: string)
    requires Leads(p, s) && |p| > 0 && !IsSpace(s[|p| - 1])
    ensures Leads(p, TrimEnd(s))
  {
    var b := TrimEnd(s);
    assert |b| >= |p|;
    assert b[..|p|] == s[..|p|];
    if |b| > |p| {
      assert b[|p|] == s[|p|];
    }
  }

  lemma StripSemicolonsKeepsLead(p: string, s: string)
    requires PlainWord(p) && Leads(p, s)
    ensures Leads(p, StripTrailingSemicolons(s))
  {
    var r := StripTrailingSemicolons(s);
    assert s[|p| - 1] == p[|p| - 1] && s[|p| - 1] != ';';
    assert |r| >= |p|;
    assert r[..|p|] == s[..|r|][..|p|];
  }

  lemma {:induction false} BlockCommentsAfterWord(p: string, t: string)
    requires forall i | 0 <= i < |p| :: p[i] != '/'
    ensures StripBlockComments(p + t) == p + StripBlockComments(t)
    decreases |p|
  {
    if p != [] {
      assert (p + t)[0] == p[0];
      assert !StartsWith2(p + t, '/', '*');
      assert (p + t)[1..] == p[1..] + t;
      BlockCommentsAfterWord(p[1..], t);
      calc {
        StripBlockComments(p + t);
        [p[0]] + StripBlockComments(p[1..] + t);
        [p[0]] + (p[1..] + StripBlockComments(t));
        { assert [p[0]] + p[1..] == p; }
        p + StripBlockComments(t);
      }
    } else {
      assert p + t == t;
    }
  }

  lemma {:induction false} LineCommentsAfterWord(p: string, t: string)
    requires forall i | 0 <= i < |p| :: p[i] != '-'
    ensures StripLineComments(p + t) == p + StripLineComments(t)
    decreases |p|
  {
    if p != [] {
      assert (p + t)[0] == p[0];
      assert !StartsWith2(p + t, '-', '-');
      assert (p + t)[1..] == p[1..] + t;
      LineCommentsAfterWord(p[1..], t);
      calc {
        StripLineComments(p + t);
        [p[0]] + StripLineComments(p[1..] + t);
        [p[0]] + (p[1..] + StripLineComments(t));
        { assert [p[0]] + p[1..] == p; }
        p + StripLineComments(t);
      }
    } else {
      assert p + t == t;
    }
  }

  lemma {:induction false} IndentAfterWord(p: string, t: string, lineStart: bool)
    requires |p| > 0 && forall i | 0 <= i < |p| :: !IsSpace(p[i])
    ensures StripIndent(p + t, lineStart) == p + StripIndent(t, false)
    decreases |p|
  {
    assert (p + t)[1..] == p[1..] + t;
    assert !IsLineTerminator(p[0]) by {
      TerminatorsAreSpace(p[0]);
    }
    if |p| > 1 {
      IndentAfterWord(p[1..], t, false);
      assert [p[0]] + p[1..] == p;
    }
  }

  /** The word `p` still leads after comment and indentation removal. */
  lemma StripsKeepLead(p: string, s: string, lineStart: bool)
    requires PlainWord(p) && Leads(p, s)
    ensures Leads(p, StripIndent(StripLineComments(StripBlockComments(s)), lineStart))
  {
    var t := s[|p|..];
    assert s == p + t;
    BlockCommentsAfterWord(p, t);
    var b := StripBlockComments(t);
    LineCommentsAfterWord(p, b);
    var l := StripLineComments(b);
    IndentAfterWord(p, l, lineStart);
    var n := StripIndent(l, false);
    assert t == [] || IsSpace(t[0]);
    assert t != [] ==> b[0] == t[0];
    assert b != [] ==> l[0] == b[0];
    assert l != [] ==> n[0] == l[0];
    assert (p + n)[..|p|] == p;
  }

  lemma FirstTokenOfLead(p: string, s: string)
    requires PlainWord(p) && Leads(p, s)
    ensures FirstToken(s) == p
  {
    var t := FirstToken(s);
    assert forall i | 0 <= i < |p| :: s[i] == p[i] && !IsSpace(s[i]);
    assert |t| <= |p|;
    assert forall i | 0 <= i < |t| :: t[i] == s[i] && !IsSpace(s[i]);
    assert |t| >= |p|;
  }

  lemma CleanKeepsLead(p: string, sql: string)
    requires PlainWord(p) && Leads(p, sql)
    ensures Leads(p, CleanSql(sql))
  {
    TrimKeepsLead(p, sql);
    StripSemicolonsKeepsLead(p, Trim(sql));
  }

  lemma NormalizeKeepsLead(p: string, c: string)
    requires PlainWord(p) && Leads(p, c)
    ensures Leads(p, Normalize(c))
  {
    StripsKeepLead(p, c, true);
    TrimKeepsLead(p, StripIndent(StripLineComments(StripBlockComments(c)), true));
  }

  lemma LeadingCommentsKeepLead(p: string, s: string)
    requires PlainWord(p) && Leads(p, s)
    ensures StripLeadingComments(s) == s
  {
    assert s[0] == p[0];
    assert !IsSpace(s[0]) && s[0] != '/' && s[0] != '-';
  }

  /** Only the first word of the statement is inspected: any text starting with a plain
      word is judged by that word alone, whatever follows it. */
  lemma FirstWordDecides(sql: string, p: string)
    requires PlainWord(p) && Leads(p, sql)
    ensures Keyword(sql) == Upper(p)
    ensures IsReadOnly(sql) <==> Upper(p) == "SELECT" || Upper(p) == "WITH"
  {
    var c := CleanSql(sql);
    CleanKeepsLead(p, sql);
    var n := Normalize(c);
    NormalizeKeepsLead(p, c);
    LeadingCommentsKeepLead(p, n);
    FirstTokenOfLead(p, n);
  }

  /** Whitespace before the first word changes nothing: `trim` removes it, and the word
      still decides. */
  lemma FirstWordAfterSpace(w: string, sql: string, p: string)
    requires AllSpace(w) && PlainWord(p) && Leads(p, sql)
    ensures Keyword(w + sql) == Upper(p)
    ensures IsReadOnly(w + sql) <==> Upper(p) == "SELECT" || Upper(p) == "WITH"
  {
    assert Trim(w + sql) == Trim(sql) by { TrimStartAfterSpace(w, sql); }
    FirstWordDecides(sql, p);
  }

  /** A plain word followed by whitespace or nothing: the word alone decides, whatever
      follows. */
  lemma WordLeads(p: string, rest: string)
    requires PlainWord(p) && (rest == [] || IsSpace(rest[0]))
    ensures Keyword(p + rest) == Upper(p)
  {
    LeadsConcat(p, rest);
    FirstWordDecides(p + rest, p);
  }

  lemma LeadsConcat(p: string, rest: string)
    requires rest == [] || IsSpace(rest[0])
    ensures Leads(p, p + rest)
  {
    assert (p + rest)[..|p|] == p;
    if rest != [] {
      assert (p + rest)[|p|] == rest[0];
    }
  }

  /** ASCII letters with semicolons between them form a plain word. */
  lemma LettersPlain(p: string)
    requires |p| > 0 && p[|p| - 1] != ';'
    requires forall i | 0 <= i < |p| :: 'A' <= p[i] <= 'Z' || 'a' <= p[i] <= 'z' || p[i] == ';'
    ensures PlainWord(p)
  {}

  /** The words the gate lemmas below start their texts with. */
  lemma GateWords()
    ensures PlainWord("SELECT") && Upper("SELECT") == "SELECT"
    ensures PlainWord("select") && Upper("select") == "SELECT"
    ensures PlainWord("WITH") && Upper("WITH") == "WITH"
  {
    LettersPlain("SELECT");
    LettersPlain("select");
    LettersPlain("WITH");
  }

  lemma SelectThenAnythingAccepted(rest: string)
    requires rest == [] || IsSpace(rest[0])
    ensures IsReadOnly("SELECT" + rest)
  {
    GateWords();
    WordLeads("SELECT", rest);
  }

  lemma WithThenAnythingAccepted(rest: string)
    requires rest == [] || IsSpace(rest[0])
    ensures IsReadOnly("WITH" + rest)
  {
    GateWords();
    WordLeads("WITH", rest);
  }

  /** The keyword test ignores case. */
  lemma LowerCaseSelectAccepted(rest: string)
    requires rest == [] || IsSpace(rest[0])
    ensures IsReadOnly("select" + rest)
  {
    GateWords();
    WordLeads("select", rest);
  }

  /** A longer word that merely starts with SELECT is rejected, and so is a second
      statement glued to the first by a semicolon, whatever comes after the word. */
  lemma GluedWordsRejected(rest: string)
    requires rest == [] || IsSpace(rest[0])
    ensures !IsReadOnly("SELECTX" + rest)
    ensures !IsReadOnly("SELECT;DROP" + rest)
  {
    var longer, glued := "SELECTX", "SELECT;DROP";
    LettersPlain(longer);
    LettersPlain(glued);
    WordDecidesRejection(longer, rest);
    WordDecidesRejection(glued, rest);
  }

  /** A plain word of neither four nor six letters leads to rejection. */
  lemma WordDecidesRejection(p: string, rest: string)
    requires PlainWord(p) && |p| != 4 && |p| != 6
    requires rest == [] || IsSpace(rest[0])
    ensures !IsReadOnly(p + rest)
  {
    WordLeads(p, rest);
    assert |Upper(p)| == |p|;
  }

  /** Data-changing statements are rejected, whatever follows their first word. */
  lemma WritesRejected(rest: string)
    requires rest == [] || IsSpace(rest[0])
    ensures !IsReadOnly("DELETE" + rest)
    ensures !IsReadOnly("UPDATE" + rest)
  {
    var delete, update := "DELETE", "UPDATE";
    LettersPlain(delete);
    LettersPlain(update);
    assert UpperChar(delete[0]) == 'D' by { assert delete[0] == 'D'; }
    assert UpperChar(update[0]) == 'U' by { assert update[0] == 'U'; }
    WriteWordRejected(delete, rest);
    WriteWordRejected(update, rest);
  }

  /** A plain word whose first character does not upper-case to S or W leads to
      rejection, whatever its case. */
  lemma WriteWordRejected(p: string, rest: string)
    requires PlainWord(p) && UpperChar(p[0]) != 'S' && UpperChar(p[0]) != 'W'
    requires rest == [] || IsSpace(rest[0])
    ensures !IsReadOnly(p + rest)
  {
    assert Keyword(p + rest) == Upper(p) by { WordLeads(p, rest); }
    assert Upper(p)[0] == UpperChar(p[0]);
    ReadOnlyInitial(p + rest);
  }

  /** An accepted keyword starts with S or W. */
  lemma ReadOnlyInitial(sql: string)
    ensures IsReadOnly(sql) ==> |Keyword(sql)| > 0 && (Keyword(sql)[0] == 'S' || Keyword(sql)[0] == 'W')
  {
    var k := Keyword(sql);
    if k == "SELECT" {
      assert k[0] == 'S';
    } else if k == "WITH" {
      assert k[0] == 'W';
    }
  }

  // ---------------------------------------------------------------- texts with no statement

  /** Whatever empties under normalisation has no keyword. */
  lemma EmptyNormalizedRejected(sql: string)
    requires StripLineComments(StripBlockComments(CleanSql(sql))) == []
    ensures Keyword(sql) == [] && !IsReadOnly(sql)
  {
    NormalizeOfStripped(CleanSql(sql));
    EmptyKeyword(sql);
  }

  lemma NormalizeOfStripped(c: string)
    requires StripLineComments(StripBlockComments(c)) == []
    ensures Normalize(c) == []
  {
    assert StripIndent([], true) == [];
    assert AllSpace(StripIndent([], true));
  }

  lemma EmptyKeyword(sql: string)
    requires Normalize(CleanSql(sql)) == []
    ensures Keyword(sql) == [] && !IsReadOnly(sql)
  {
    EmptyKeywordOf(sql);
    EmptyWordNotReadOnly(Keyword(sql));
  }

  lemma EmptyWordNotReadOnly(k: string)
    requires k == []
    ensures !(k == "SELECT" || k == "WITH")
  { }

  lemma EmptyKeywordOf(sql: string)
    requires Normalize(CleanSql(sql)) == []
    ensures Keyword(sql) == []
  {
    EmptyFirstKeyword();
  }

  lemma EmptyFirstKeyword()
    ensures FirstKeyword([]) == []
  {
    assert StripLeadingComments([]) == [];
    assert FirstToken([]) == [];
  }

  /** An empty or blank text has no keyword and is rejected. */
  lemma BlankRejected(sql: string)
    requires AllSpace(sql)
    ensures Keyword(sql) == [] && !IsReadOnly(sql)
  {
    assert CleanSql(sql) == [];
    EmptyNormalizedRejected(sql);
  }

  lemma {:induction false} BlockCommentsAddNoTerminator(s: string)
    requires forall i | 0 <= i < |s| :: !IsLineTerminator(s[i])
    ensures forall i | 0 <= i < |StripBlockComments(s)| :: !IsLineTerminator(StripBlockComments(s)[i])
    decreases |s|
  {
    if s != [] {
      if StartsWith2(s, '/', '*') && IndexOf(s, "*/", 2).Some? {
        BlockCommentsAddNoTerminator(s[IndexOf(s, "*/", 2).value + 2..]);
      } else {
        BlockCommentsAddNoTerminator(s[1..]);
      }
    }
  }

  /** A line comment with no line terminator after it takes the rest of the text. */
  lemma LineCommentToEnd(x: string)
    requires forall i | 0 <= i < |x| :: !IsLineTerminator(x[i])
    ensures StripLineComments("--" + x) == []
  {
    var s := "--" + x;
    assert forall j | 2 <= j < |s| :: s[j] == x[j - 2];
    NoTerminatorToEnd(s, 2);
    assert s[|s|..] == [];
  }

  lemma NoTerminatorToEnd(s: string, i: nat)
    requires i <= |s| && forall j | i <= j < |s| :: !IsLineTerminator(s[j])
    ensures LineEnd(s, i) == |s|
  { }

  /** Cleaning a text that starts, after a blank, with `m` keeps a prefix of `m` that
      reaches past any position holding neither whitespace nor a semicolon. */
  lemma CleanPrefix(ws: string, m: string, k: nat)
    requires AllSpace(ws) && k < |m| && !IsSpace(m[0]) && !IsSpace(m[k]) && m[k] != ';'
    ensures IsPrefix(CleanSql(ws + m), m) && |CleanSql(ws + m)| > k
  {
    TrimOfLead(ws, m, k);
    StripKeepsPast(Trim(ws + m), k);
    PrefixTrans(CleanSql(ws + m), Trim(ws + m), m);
  }

  lemma TrimOfLead(ws: string, m: string, k: nat)
    requires AllSpace(ws) && k < |m| && !IsSpace(m[0]) && !IsSpace(m[k])
    ensures IsPrefix(Trim(ws + m), m) && k < |Trim(ws + m)| && Trim(ws + m)[k] == m[k]
  {
    TrimStartSkips(ws, m);
  }

  /** Stripping semicolons stops before any position that holds something else. */
  lemma StripKeepsPast(s: string, k: nat)
    requires k < |s| && s[k] != ';'
    ensures k < |StripTrailingSemicolons(s)|
  { }

  /** Cleaning a line comment keeps its two dashes and adds no line terminator. */
  lemma CleanLineComment(ws: string, c: string) returns (x: string)
    requires AllSpace(ws)
    requires forall i | 0 <= i < |c| :: !IsLineTerminator(c[i])
    ensures CleanSql(ws + "--" + c) == "--" + x
    ensures forall i | 0 <= i < |x| :: !IsLineTerminator(x[i])
  {
    var m := "--" + c;
    assert ws + "--" + c == ws + m;
    CleanPrefix(ws, m, 1);
    var r := CleanSql(ws + m);
    x := c[..|r| - 2];
    assert m[..|r|] == "--" + x;
  }

  /** A text that is only a line comment (after any blank) is rejected. */
  lemma LineCommentRejected(ws: string, c: string)
    requires AllSpace(ws)
    requires forall i | 0 <= i < |c| :: !IsLineTerminator(c[i])
    ensures Keyword(ws + "--" + c) == [] && !IsReadOnly(ws + "--" + c)
  {
    var x := CleanLineComment(ws, c);
    LineCommentVanishes(x);
    EmptyNormalizedRejected(ws + "--" + c);
  }

  lemma LineCommentVanishes(x: string)
    requires forall i | 0 <= i < |x| :: !IsLineTerminator(x[i])
    ensures StripLineComments(StripBlockComments("--" + x)) == []
  {
    BlockCommentsAfterWord("--", x);
    BlockCommentsAddNoTerminator(x);
    LineCommentToEnd(StripBlockComments(x));
  }

  lemma MatchPair(s: string, j: nat, a: char, b: char)
    ensures MatchAt(s, j, [a, b]) <==> j + 2 <= |s| && s[j] == a && s[j + 1] == b
  {
    if j + 2 <= |s| {
      assert s[j..j + 2] == [s[j], s[j + 1]];
    }
  }

  /** The first comment close in a block comment with no close inside it is its own. */
  lemma BlockCommentEnd(c: string)
    requires !IsInfix("*/", c)
    ensures IndexOf("/*" + c + "*/", "*/", 2) == Some(|c| + 2)
  {
    var m := "/*" + c + "*/";
    MatchPair(m, |c| + 2, '*', '/');
    assert MatchAt(m, |c| + 2, "*/");
    forall j | 2 <= j < |c| + 2
      ensures !MatchAt(m, j, "*/")
    {
      NoCloseBefore(c, j);
    }
    var r := IndexOf(m, "*/", 2);
    assert r.Some?;
    assert r.value <= |c| + 2;
    assert r.value >= |c| + 2;
  }

  lemma NoCloseBefore(c: string, j: nat)
    requires !IsInfix("*/", c) && 2 <= j < |c| + 2
    ensures !MatchAt("/*" + c + "*/", j, "*/")
  {
    var m := "/*" + c + "*/";
    MatchPair(m, j, '*', '/');
    if j < |c| + 1 {
      var i: nat := j - 2;
      MatchPair(c, i, '*', '/');
      assert !MatchAt(c, i, "*/");
      assert m[j] == c[i];
      assert i + 1 < |c| ==> m[j + 1] == c[i + 1];
    } else {
      assert m[j + 1] == '*';
    }
  }

  /** The gate skips a leading whitespace run and then reads what follows it. */
  lemma {:induction false} LeadingSpaceSkipped(w: string, t: string)
    requires AllSpace(w)
    ensures StripLeadingComments(w + t) == StripLeadingComments(t)
    decreases |w|
  {
    if |w| == 0 {
      assert w + t == t;
    } else {
      assert (w + t)[0] == w[0];
      assert (w + t)[1..] == w[1..] + t;
      LeadingSpaceSkipped(w[1..], t);
    }
  }

  /** The gate skips a leading closed block comment, up to its first close. */
  lemma LeadingBlockSkipped(c: string, t: string)
    requires !IsInfix("*/", c)
    ensures StripLeadingComments("/*" + c + "*/" + t) == StripLeadingComments(t)
  {
    var s := "/*" + c + "*/" + t;
    assert IndexOf(s, "*/", 2) == Some(|c| + 2) by { BlockCloseIn(c, t); }
    assert s[0] == '/' && s[1] == '*';
    assert s[|c| + 4..] == t;
  }

  /** The first comment close after a block comment opener with no close inside is
      its own, whatever text follows it. */
  lemma BlockCloseIn(c: string, t: string)
    requires !IsInfix("*/", c)
    ensures IndexOf("/*" + c + "*/" + t, "*/", 2) == Some(|c| + 2)
  {
    var m := "/*" + c + "*/";
    var s := m + t;
    BlockCommentEnd(c);
    forall j: nat | j + 2 <= |m|
      ensures MatchAt(s, j, "*/") <==> MatchAt(m, j, "*/")
    {
      MatchPair(s, j, '*', '/');
      MatchPair(m, j, '*', '/');
    }
    var r := IndexOf(s, "*/", 2);
    assert MatchAt(s, |c| + 2, "*/");
    assert r.Some?;
    assert r.value <= |c| + 2;
    assert r.value >= |c| + 2;
  }

  /** The gate skips a leading line comment together with the `\r` or `\n` that ends it. */
  lemma LeadingLineSkipped(c: string, nl: char, t: string)
    requires forall i | 0 <= i < |c| :: !IsLineTerminator(c[i])
    requires nl == '\n' || nl == '\r'
    ensures StripLeadingComments("--" + c + [nl] + t) == StripLeadingComments(t)
  {
    var u := [nl] + t;
    var s := "--" + c + u;
    assert s == "--" + c + [nl] + t;
    LineCommentBody(c, u);
    assert s[|c| + 2] == u[0] == nl;
    LineEndAt(s, 2, |c| + 2);
    LineCommentStep(s);
    assert s[|c| + 3..] == u[1..] == t;
  }

  /** A line comment `--` + `c` whose text `c` holds no line terminator, before `u`. */
  lemma LineCommentBody(c: string, u: string)
    requires forall i | 0 <= i < |c| :: !IsLineTerminator(c[i])
    ensures var s := "--" + c + u;
      && StartsWith2(s, '-', '-')
      && (forall j | 2 <= j < |c| + 2 :: !IsLineTerminator(s[j]))
      && s[|c| + 2..] == u
  {
    var s := "--" + c + u;
    forall j | 2 <= j < |c| + 2
      ensures !IsLineTerminator(s[j])
    {
      assert s[j] == c[j - 2];
    }
  }

  /** One step of the gate's skipping at a `--`: the comment goes with the `\r` or `\n`
      that ends its line, and skipping stops when no such character ends it. */
  lemma LineCommentStep(s: string)
    requires StartsWith2(s, '-', '-')
    ensures var k := LineEnd(s, 2);
      StripLeadingComments(s) ==
        if k < |s| && (s[k] == '\r' || s[k] == '\n') then StripLeadingComments(s[k + 1..]) else s
  {
  }

  /** The line that starts at `i` ends at the first line terminator after it. */
  lemma LineEndAt(s: string, i: nat, n: nat)
    requires i <= n < |s| && IsLineTerminator(s[n])
    requires forall j | i <= j < n :: !IsLineTerminator(s[j])
    ensures LineEnd(s, i) == n
  {
  }

  /** Skipping stops at a non-blank character that opens no comment. */
  lemma PlainStartKept(s: string)
    requires |s| > 0 && !IsSpace(s[0])
    requires !StartsWith2(s, '/', '*') && !StartsWith2(s, '-', '-')
    ensures StripLeadingComments(s) == s
  {}

  /** Skipping stops at a block comment that is never closed. */
  lemma UnclosedBlockKept(c: string)
    requires !IsInfix("*/", c)
    ensures StripLeadingComments("/*" + c) == "/*" + c
  {
    var s := "/*" + c;
    forall j: nat | 2 <= j
      ensures !MatchAt(s, j, "*/")
    {
      MatchPair(s, j, '*', '/');
      if j + 2 <= |s| {
        MatchPair(c, j - 2, '*', '/');
        assert s[j] == c[j - 2] && s[j + 1] == c[j - 1];
        assert !MatchAt(c, j - 2, "*/");
      }
    }
    assert IndexOf(s, "*/", 2).None?;
  }

  /** Skipping stops at a line comment that runs to the end of the text or ends at a
      line or paragraph separator rather than `\r` or `\n`. */
  lemma UnendedLineKept(c: string, t: string)
    requires forall i | 0 <= i < |c| :: !IsLineTerminator(c[i])
    requires t == [] || (IsLineTerminator(t[0]) && t[0] != '\n' && t[0] != '\r')
    ensures StripLeadingComments("--" + c + t) == "--" + c + t
  {
    var s := "--" + c + t;
    LineCommentBody(c, t);
    if t == [] {
      assert LineEnd(s, 2) == |s|;
    } else {
      assert s[|c| + 2] == t[0];
      LineEndAt(s, 2, |c| + 2);
    }
    LineCommentStep(s);
  }

  /** Cleaning a blank-surrounded block comment gives the comment itself. */
  lemma CleanBlockComment(ws: string, c: string, ws2: string)
    requires AllSpace(ws) && AllSpace(ws2)
    ensures CleanSql(ws + ("/*" + c + "*/") + ws2) == "/*" + c + "*/"
  {
    var m := "/*" + c + "*/";
    assert IsTrimmed(m);
    TrimSurrounded(ws, m, ws2);
    assert m[|m| - 1] == '/';
  }

  lemma BlockCommentVanishes(c: string)
    requires !IsInfix("*/", c)
    ensures StripBlockComments("/*" + c + "*/") == []
  {
    var m := "/*" + c + "*/";
    BlockCommentEnd(c);
    assert StartsWith2(m, '/', '*');
    assert m[|c| + 4..] == [];
  }

  /** A text that is only a closed block comment (between blanks) is rejected. */
  lemma BlockCommentRejected(ws: string, c: string, ws2: string)
    requires AllSpace(ws) && AllSpace(ws2) && !IsInfix("*/", c)
    ensures Keyword(ws + ("/*" + c + "*/") + ws2) == []
    ensures !IsReadOnly(ws + ("/*" + c + "*/") + ws2)
  {
    CleanBlockComment(ws, c, ws2);
    BlockCommentVanishes(c);
    EmptyNormalizedRejected(ws + ("/*" + c + "*/") + ws2);
  }

  // ---------------------------------------------------------------- a commented statement

  lemma {:induction false} TrimEndAfter(a: string, b: string, k: nat)
    requires k < |b| && !IsSpace(b[k])
    ensures TrimEnd(a + b) == a + TrimEnd(b)
    decreases |b|
  {
    var s := a + b;
    assert s[|s| - 1] == b[|b| - 1];
    if IsSpace(b[|b| - 1]) {
      assert s[..|s| - 1] == a + b[..|b| - 1];
      TrimEndAfter(a, b[..|b| - 1], k);
    }
  }

  lemma {:induction false} StripSemicolonsAfter(a: string, b: string, k: nat)
    requires k < |b| && b[k] != ';'
    ensures StripTrailingSemicolons(a + b) == a + StripTrailingSemicolons(b)
    decreases |b|
  {
    var s := a + b;
    assert s[|s| - 1] == b[|b| - 1];
    if b[|b| - 1] == ';' {
      assert s[..|s| - 1] == a + b[..|b| - 1];
      StripSemicolonsAfter(a, b[..|b| - 1], k);
    }
  }

  /** Cleaning a commented statement cleans only the statement's end. */
  lemma {:induction false} CleanCommented(ws: string, pre: string, p: string, rest: string)
    requires AllSpace(ws) && |pre| > 0 && !IsSpace(pre[0])
    requires PlainWord(p) && Leads(p, p + rest)
    ensures CleanSql(ws + pre + p + rest) == pre + CleanSql(p + rest)
  {
    assert CommentShape(ws + pre + p + rest, p + rest, pre, |p| - 1) by {
      CommentedTrims(ws, pre, p, rest);
    }
    assert CleanSql(ws + pre + p + rest) == pre + CleanSql(p + rest) by {
      CleanAfterPrefix(ws + pre + p + rest, p + rest, pre, |p| - 1);
    }
  }

  lemma CommentedTrims(ws: string, pre: string, p: string, rest: string)
    requires AllSpace(ws) && |pre| > 0 && !IsSpace(pre[0])
    requires PlainWord(p) && Leads(p, p + rest)
    ensures CommentShape(ws + pre + p + rest, p + rest, pre, |p| - 1)
  {
    TrimCommented(ws, pre, p, rest);
    TrimEndKeepsWord(p, p + rest);
  }

  /** Cleaning keeps a prefix that trimming keeps, when a later character is not ';'. */
  /** `sql` trims to `pre` and the trimmed `t`, which holds something other than ';' at `k`. */
  predicate CommentShape(sql: string, t: string, pre: string, k: int) {
    && Trim(sql) == pre + TrimEnd(t) && Trim(t) == TrimEnd(t)
    && 0 <= k < |TrimEnd(t)| && TrimEnd(t)[k] != ';'
  }

  lemma CleanAfterPrefix(sql: string, t: string, pre: string, k: int)
    requires CommentShape(sql, t, pre, k)
    ensures CleanSql(sql) == pre + CleanSql(t)
  {
    StripSemicolonsAfter(pre, Trim(t), k);
  }

  lemma TrimCommented(ws: string, pre: string, p: string, rest: string)
    requires AllSpace(ws) && |pre| > 0 && !IsSpace(pre[0])
    requires PlainWord(p)
    ensures Trim(ws + pre + p + rest) == pre + TrimEnd(p + rest)
  {
    var t := p + rest;
    assert ws + pre + p + rest == ws + (pre + t);
    TrimStartSkips(ws, pre + t);
    assert t[|p| - 1] == p[|p| - 1];
    TrimEndAfter(pre, t, |p| - 1);
  }

  lemma TrimEndKeepsWord(p: string, t: string)
    requires PlainWord(p) && Leads(p, t)
    ensures Trim(t) == TrimEnd(t)
    ensures |p| <= |TrimEnd(t)| && TrimEnd(t)[|p| - 1] == p[|p| - 1]
  {
    assert t[0] == p[0];
    assert TrimStart(t) == t;
    TrimKeepsLead(p, t);
  }

  /** Block-comment removal passes over a comment line without a slash. */
  lemma BlockCommentsOverLine(c: string, nl: string, u: string)
    requires forall i | 0 <= i < |c| :: c[i] != '/'
    requires AllSpace(nl)
    ensures StripBlockComments("--" + c + nl + u) == "--" + c + nl + StripBlockComments(u)
  {
    var pre := "--" + c + nl;
    assert forall i | 0 <= i < |c| :: pre[i + 2] == c[i];
    assert forall i | 0 <= i < |nl| :: pre[i + 2 + |c|] == nl[i];
    assert forall i | 0 <= i < |pre| :: pre[i] != '/';
    BlockCommentsAfterWord(pre, u);
  }

  /** Line-comment removal drops the comment and keeps the line break after it. */
  lemma LineCommentsOverLine(c: string, nl: string, b: string)
    requires forall i | 0 <= i < |c| :: !IsLineTerminator(c[i])
    requires |nl| > 0 && nl[0] == '\n' && AllSpace(nl)
    ensures StripLineComments("--" + c + nl + b) == nl + StripLineComments(b)
  {
    var s := "--" + c + nl + b;
    assert forall j | 2 <= j < 2 + |c| :: s[j] == c[j - 2];
    assert s[2 + |c|] == '\n';
    assert LineEnd(s, 2) == 2 + |c|;
    assert s[2 + |c|..] == nl + b;
    assert forall i | 0 <= i < |nl| :: nl[i] != '-';
    LineCommentsAfterWord(nl, b);
  }

  /** A blank run starting a line is removed as a whole. */
  lemma IndentOverBlank(nl: string, l: string)
    requires |nl| > 0 && AllSpace(nl) && l != [] && !IsSpace(l[0])
    ensures StripIndent(nl + l, true) == StripIndent(l, false)
  {
    var v := nl + l;
    assert forall j | 0 <= j < |nl| :: v[j] == nl[j];
    assert v[|nl|] == l[0];
    var k := SkipWhile(v, 0, IsSpace);
    assert k <= |nl|;
    assert k >= |nl|;
    assert v[|nl|..] == l;
  }

  /** The line comment and the indentation in front of a statement vanish in the
      normalised text. */
  lemma NormalizeCommented(c: string, ind: string, p: string, u: string)
    requires forall i | 0 <= i < |c| :: !IsLineTerminator(c[i]) && c[i] != '/'
    requires AllSpace(ind)
    requires PlainWord(p) && Leads(p, u)
    ensures Leads(p, Normalize("--" + c + "\n" + ind + u))
  {
    var nl := "\n" + ind;
    assert "--" + c + "\n" + ind + u == "--" + c + nl + u;
    BlockCommentsOverLine(c, nl, u);
    var b := StripBlockComments(u);
    LineCommentsOverLine(c, nl, b);
    var l := StripLineComments(b);
    StripsKeepLead(p, u, false);
    BlockAndLineKeepHead(p, u);
    IndentOverBlank(nl, l);
    TrimKeepsLead(p, StripIndent(l, false));
  }

  lemma BlockAndLineKeepHead(p: string, u: string)
    requires PlainWord(p) && Leads(p, u)
    ensures StripLineComments(StripBlockComments(u)) != []
    ensures StripLineComments(StripBlockComments(u))[0] == p[0]
  {
    var t := u[|p|..];
    assert u == p + t;
    BlockCommentsAfterWord(p, t);
    LineCommentsAfterWord(p, StripBlockComments(t));
  }

  /** A statement behind a line comment and indentation is judged by its own first word,
      and the text sent to the database keeps the comment: only the statement's end is
      cleaned. */
  lemma CommentedStatement(ws: string, c: string, ind: string, p: string, rest: string)
    requires AllSpace(ws) && AllSpace(ind)
    requires forall i | 0 <= i < |c| :: !IsLineTerminator(c[i]) && c[i] != '/'
    requires PlainWord(p) && (rest == [] || IsSpace(rest[0]))
    ensures CleanSql(ws + ("--" + c + "\n" + ind) + p + rest) ==
      "--" + c + "\n" + ind + CleanSql(p + rest)
    ensures Keyword(ws + ("--" + c + "\n" + ind) + p + rest) == Upper(p)
  {
    var sql := ws + ("--" + c + "\n" + ind) + p + rest;
    var u := CommentedCleaned(ws, c, ind, p, rest);
    NormalizeCommented(c, ind, p, u);
    KeywordOfLead(sql, p);
  }

  lemma CommentedCleaned(ws: string, c: string, ind: string, p: string, rest: string)
    returns (u: string)
    requires AllSpace(ws)
    requires PlainWord(p) && (rest == [] || IsSpace(rest[0]))
    ensures u == CleanSql(p + rest) && Leads(p, u)
    ensures CleanSql(ws + ("--" + c + "\n" + ind) + p + rest) == "--" + c + "\n" + ind + u
  {
    var pre := "--" + c + "\n" + ind;
    assert (p + rest)[..|p|] == p;
    CleanCommented(ws, pre, p, rest);
    u := CleanSql(p + rest);
    CleanKeepsLead(p, p + rest);
  }

  lemma KeywordOfLead(sql: string, p: string)
    requires PlainWord(p) && Leads(p, Normalize(CleanSql(sql)))
    ensures Keyword(sql) == Upper(p)
  {
    var n := Normalize(CleanSql(sql));
    LeadingCommentsKeepLead(p, n);
    FirstTokenOfLead(p, n);
  }

  /** The example of a commented query: it is accepted, and the database receives it with
      the comment and indentation intact and only the trailing semicolons removed. */
  lemma CommentedQueryExample(ws: string, c: string, ind: string, p: string, body: string,
                              probeError: Option<string>,
                              rpc: string -> Result<Option<seq<Row>>, string>)
    requires ws == "  " && c == " comment" && ind == "  "
    requires p == "select" && body == " * from sales"
    requires probeError.None?
    ensures var sql := ws + ("--" + c + "\n" + ind) + p + (body + ";;");
      && IsReadOnly(sql)
      && ExecuteQuery(sql, probeError, rpc).calls ==
         [ConnectionProbe, ExecuteSql("--" + c + "\n" + ind + (p + body))]
  {
    assert forall i | 0 <= i < |c| :: !IsLineTerminator(c[i]) && c[i] != '/';
    GateWords();
    assert body[0] == ' ';
    ExampleCleaned(p, body);
    CommentedQuerySent(ws, c, ind, p, body + ";;", probeError, rpc);
  }

  /** A commented statement whose first word is SELECT reaches the database with its
      comment. */
  lemma CommentedQuerySent(ws: string, c: string, ind: string, p: string, rest: string,
                           probeError: Option<string>,
                           rpc: string -> Result<Option<seq<Row>>, string>)
    requires AllSpace(ws) && AllSpace(ind)
    requires forall i | 0 <= i < |c| :: !IsLineTerminator(c[i]) && c[i] != '/'
    requires PlainWord(p) && (rest == [] || IsSpace(rest[0])) && Upper(p) == "SELECT"
    requires probeError.None?
    ensures var sql := ws + ("--" + c + "\n" + ind) + p + rest;
      && IsReadOnly(sql)
      && ExecuteQuery(sql, probeError, rpc).calls ==
         [ConnectionProbe, ExecuteSql("--" + c + "\n" + ind + CleanSql(p + rest))]
  {
    CommentedStatement(ws, c, ind, p, rest);
  }

  lemma ExampleCleaned(p: string, body: string)
    requires p == "select" && body == " * from sales"
    ensures CleanSql(p + (body + ";;")) == p + body
  {
    var u := p + body;
    assert p + (body + ";;") == u + ";;";
    assert u[0] == 's' && u[|u| - 1] == 's';
    CleanOfSemicolons(u);
  }

  /** Cleaning a text that starts a word and ends in two semicolons drops just those. */
  lemma CleanOfSemicolons(u: string)
    requires u != [] && !IsSpace(u[0]) && u[|u| - 1] != ';'
    ensures CleanSql(u + ";;") == u
  {
    var t := u + ";;";
    assert t[0] == u[0] && t[|t| - 1] == ';';
    TrimOfTrimmed(t);
    assert t[..|t| - 1] == u + ";";
    CleanOfSemicolon(u);
  }
}

=== FILE: geminiservice.dfy ===
/** `generateSQL` (server/src/services/geminiService.ts): the prompt sent to the model, the
    parse of the model's reply text into SQL, explanation and response template, and the
    error paths around the request. The HTTP exchange itself is a parameter. */
module GeminiService {
  import opened Base
  import opened Strings
  import opened Calls

  /** `SQLResult` as `generateSQL` returns it. */
  datatype Generation = Generation(sql: string, explanation: string, responseTemplate: string)

  const NoSqlError: string := "No SQL query found in Gemini response"
  const NoExplanation: string := "No explanation available"
  const NoTemplate: string := "No response template available"

  // ---------------------------------------------------------------- prompt

  /** The prompt text before the schema. */
  const PromptHead: string :=
    "\n"
    + "      You are an expert business analyst who helps translate business questions into SQL queries and provides natural language answers.\n"
    + "      \n"
    + "      Here's the exact database schema with all columns:\n"
    + "      "

  /** The prompt text between the schema and the question. */
  const PromptMiddle: string := PromptGap + QuestionLead

  const PromptGap: string := "\n      \n      "

  /** The words that introduce the quoted question. */
  const QuestionLead: string := "The user asked: \""

  /** The prompt text after the question: its closing quote, then the instructions. */
  const PromptTail: string := "\"" + PromptInstructions

  /** What the model is asked to produce, and in which format. */
  const PromptInstructions: string :=
    "\n"
    + "      \n"
    + "      Please generate:\n"
    + "      1. A valid PostgreSQL query that answers this question\n"
    + "      2. A brief explanation of the SQL query\n"
    + "      3. A template for a natural language response that can be filled with actual data values\n"
    + "      \n"
    + "      SQL requirements:\n"
    + "      - Use ONLY columns that exist exactly as shown in the schema above\n"
    + "      - Use proper case sensitivity for columns like \"Q1\", \"Q2\", \"Q3\", \"Q4\", and \"flag\"\n"
    + "      - Join tables using the relationships defined in the schema\n"
    + "      - Handle cryptic column names appropriately (c1=channel, c2=campaign, p1/p2=promotions, etc.)\n"
    + "      - Always use column aliases for clarity, especially for calculated values\n"
    + "      - For questions about highest/lowest values, order results appropriately and use LIMIT 1\n"
    + "      \n"
    + "      Response Template requirements:\n"
    + "      - Create a natural language template response that includes placeholders in {{double curly braces}}\n"
    + "      - Placeholders MUST be EXACTLY the same as column aliases in your SQL query\n"
    + "      - For example, if your SQL has \"p.name AS product_name\", use {{product_name}} in your template\n"
    + "      - For percentages, do NOT include % symbols in placeholders\n"
    + "      - Keep it concise but informative (2-4 sentences)\n"
    + "      - Make sure all column names referenced in the template exist in your SQL query results\n"
    + "      \n"
    + "      Format your response EXACTLY as follows:\n"
    + "      SQL: [your SQL query with clear column aliases]\n"
    + "      EXPLANATION: [brief explanation of how the query works]\n"
    + "      TEMPLATE: The product with the highest profit margin last quarter was {{product_name}} with a profit margin of {{profit_margin_percentage}}%. This premium product consistently outperforms others in our catalog.\n"
    + "    "

  /** The prompt template with the schema and the question substituted verbatim. */
  function BuildPrompt(schema: string, question: string): string {
    PromptHead + schema + PromptMiddle + question + PromptTail
  }

  /** The prompt starts with the fixed preamble and carries the schema and the quoted
      question verbatim. */
  lemma PromptContents(schema: string, question: string)
    ensures IsInfix(schema, BuildPrompt(schema, question))
    ensures IsInfix(QuestionLead + question + "\"", BuildPrompt(schema, question))
    ensures IsPrefix(PromptHead, BuildPrompt(schema, question))
  {
    FrameFacts(PromptHead, schema, PromptGap, QuestionLead, question, PromptInstructions);
  }

  /** The shape of the prompt with its fixed parts left open. */
  lemma FrameFacts(head: string, schema: string, gap: string, lead: string, question: string,
                   instructions: string)
    ensures var prompt := head + schema + (gap + lead) + question + ("\"" + instructions);
      && IsInfix(schema, prompt)
      && IsInfix(lead + question + "\"", prompt)
      && IsPrefix(head, prompt)
  {
    var prompt := head + schema + (gap + lead) + question + ("\"" + instructions);
    assert prompt == head + schema + (gap + lead + question + ("\"" + instructions));
    InfixOfConcat(head, schema, gap + lead + question + ("\"" + instructions));
    assert prompt[..|head|] == head;
    assert prompt == head + schema + gap + (lead + question + "\"") + instructions;
    InfixOfConcat(head + schema + gap, lead + question + "\"", instructions);
  }

  /** For a fixed schema, different questions give different prompts. */
  lemma PromptDeterminesQuestion(schema: string, q1: string, q2: string)
    ensures BuildPrompt(schema, q1) == BuildPrompt(schema, q2) ==> q1 == q2
  {
    if BuildPrompt(schema, q1) == BuildPrompt(schema, q2) {
      var lead := PromptHead + schema + PromptMiddle;
      SameFrame(lead, q1, q2, PromptTail);
    }
  }

  lemma SameFrame(lead: string, a: string, b: string, tail: string)
    requires lead + a + tail == lead + b + tail
    ensures a == b
  {
    var s1, s2 := lead + a + tail, lead + b + tail;
    assert |a| == |b|;
    assert a == s1[|lead|..|lead| + |a|];
    assert b == s2[|lead|..|lead| + |b|];
  }

  // ---------------------------------------------------------------- reply sections

  /** `pat` occurs at `i` when ASCII letters are compared without case, as in a
      non-unicode `/i` regular expression. */
  predicate MatchAtIgnoringCase(s: string, i: nat, pat: string) {
    MatchAt(Lower(s), i, Lower(pat))
  }

  /** `i` is the first case-insensitive occurrence of `pat` at or after `from`. */
  predicate FirstMatchIgnoringCase(s: string, pat: string, from: nat, i: nat) {
    && from <= i
    && MatchAtIgnoringCase(s, i, pat)
    && forall j: nat | from <= j < i :: !MatchAtIgnoringCase(s, j, pat)
  }

  predicate NoMatchIgnoringCase(s: string, pat: string, from: nat) {
    forall j: nat | from <= j <= |s| :: !MatchAtIgnoringCase(s, j, pat)
  }

  function FindIgnoringCase(s: string, pat: string, from: nat): (r: Option<nat>)
    ensures r.Some? ==> FirstMatchIgnoringCase(s, pat, from, r.value) && r.value + |pat| <= |s|
    ensures r.None? <==> NoMatchIgnoringCase(s, pat, from)
  {
    IndexOfIgnoreCase(s, pat, from)
  }

  /** Where a lazy `[\s\S]*?` followed by the lookahead `(?=stop|$)` ends when it starts
      at `from`: the first case-insensitive `stop` at or after `from`, else the end. */
  function SectionEnd(s: string, from: nat, stop: string): (k: nat)
    requires from <= |s|
    requires |stop| > 0
    ensures from <= k <= |s|
    ensures FirstMatchIgnoringCase(s, stop, from, k) || (k == |s| && NoMatchIgnoringCase(s, stop, from))
  {
    match FindIgnoringCase(s, stop, from)
    case Some(k) => k
    case None => |s|
  }

  /** The capture group of `/<marker>\s*([\s\S]*?)(?=<stop>|$)/i`, or of
      `/<marker>\s*([\s\S]*?)$/i` when there is no stop marker: from the first
      case-insensitive `marker`, past the whitespace after it, to the stop or the end. */
  function Capture(s: string, marker: string, stop: Option<string>): (r: Option<string>)
    requires |marker| > 0
    requires stop.Some? ==> |stop.value| > 0
    ensures r.None? <==> NoMatchIgnoringCase(s, marker, 0)
  {
    match FindIgnoringCase(s, marker, 0)
    case None => None
    case Some(i) =>
      var start := SkipWhile(s, i + |marker|, IsSpace);
      var end := if stop.Some? then SectionEnd(s, start, stop.value) else |s|;
      Some(s[start..end])
  }

  /** The SQL section, trimmed, is the text between the first `SQL:` and the first
      `EXPLANATION:` after it (or the end), trimmed: the whitespace skip of the pattern
      makes no difference once the capture is trimmed. */
  lemma SqlSectionExtent(text: string, i: nat, k: nat)
    requires FirstMatchIgnoringCase(text, "SQL:", 0, i)
    requires FirstMatchIgnoringCase(text, "EXPLANATION:", i + 4, k)
      || (k == |text| && NoMatchIgnoringCase(text, "EXPLANATION:", i + 4))
    ensures i + 4 <= k <= |text|
    ensures Capture(text, "SQL:", Some("EXPLANATION:")).Some?
    ensures Trim(Capture(text, "SQL:", Some("EXPLANATION:")).value) == Trim(text[i + 4..k])
  {
    SectionExtent(text, "SQL:", Some("EXPLANATION:"), i, k);
  }

  /** Any section, trimmed, runs from the end of its first marker to its stop marker. */
  lemma {:induction false} SectionExtent(text: string, marker: string, stop: Option<string>, i: nat, k: nat)
    requires |marker| > 0
    requires stop.Some? ==> |stop.value| > 0 && !IsSpace(Lower(stop.value)[0])
    requires FirstMatchIgnoringCase(text, marker, 0, i)
    requires stop.Some? ==>
      || FirstMatchIgnoringCase(text, stop.value, i + |marker|, k)
      || (k == |text| && NoMatchIgnoringCase(text, stop.value, i + |marker|))
    requires stop.None? ==> k == |text|
    ensures i + |marker| <= k <= |text|
    ensures Capture(text, marker, stop).Some?
    ensures Trim(Capture(text, marker, stop).value) == Trim(text[i + |marker|..k])
  {
    var start := CaptureStart(text, marker, stop, i, k);
    CaptureTrims(text, marker, stop, i, start, k);
  }

  /** A capture that starts after whitespace trims like the text from the end of its
      marker. */
  lemma CaptureTrims(text: string, marker: string, stop: Option<string>, i: nat, start: nat, k: nat)
    requires |marker| > 0
    requires stop.Some? ==> |stop.value| > 0
    requires i + |marker| <= start <= k <= |text| && AllSpace(text[i + |marker|..start])
    requires Capture(text, marker, stop) == Some(text[start..k])
    ensures Trim(Capture(text, marker, stop).value) == Trim(text[i + |marker|..k])
  {
    TrimAfterSpaceSlice(text, i + |marker|, start, k);
  }

  /** The capture starts after the marker and the whitespace that follows it. */
  lemma CaptureStart(text: string, marker: string, stop: Option<string>, i: nat, k: nat) returns (start: nat)
    requires |marker| > 0
    requires stop.Some? ==> |stop.value| > 0 && !IsSpace(Lower(stop.value)[0])
    requires FirstMatchIgnoringCase(text, marker, 0, i)
    requires stop.Some? ==>
      || FirstMatchIgnoringCase(text, stop.value, i + |marker|, k)
      || (k == |text| && NoMatchIgnoringCase(text, stop.value, i + |marker|))
    requires stop.None? ==> k == |text|
    ensures i + |marker| <= start <= k <= |text|
    ensures AllSpace(text[i + |marker|..start])
    ensures Capture(text, marker, stop) == Some(text[start..k])
  {
    FindFirst(text, marker, i);
    start := SkipWhile(text, i + |marker|, IsSpace);
    if stop.Some? {
      SkipKeepsFirstMatch(text, stop.value, i + |marker|, start, k);
      assert k <= |text| by {
        if k < |text| {
          assert MatchAt(Lower(text), k, Lower(stop.value));
        }
      }
    }
  }

  /** The search finds the first match, which lies inside the text. */
  lemma FindFirst(text: string, marker: string, i: nat)
    requires FirstMatchIgnoringCase(text, marker, 0, i)
    ensures FindIgnoringCase(text, marker, 0) == Some(i)
    ensures i + |marker| <= |text|
  {
    assert MatchAt(Lower(text), i, Lower(marker));
  }

  /** Skipping whitespace cannot jump over a stop marker that starts with a letter. */
  lemma SkipKeepsFirstMatch(s: string, stop: string, from: nat, start: nat, k: nat)
    requires from <= start <= |s|
    requires forall j | from <= j < start :: IsSpace(s[j])
    requires |stop| > 0 && !IsSpace(Lower(stop)[0])
    requires FirstMatchIgnoringCase(s, stop, from, k) || (k == |s| && NoMatchIgnoringCase(s, stop, from))
    ensures start <= k
    ensures SectionEnd(s, start, stop) == k
  {
    forall j: nat | from <= j < start
      ensures !MatchAtIgnoringCase(s, j, stop)
    {
      assert IsSpace(LowerChar(s[j]));
    }
  }

  // ---------------------------------------------------------------- code fences

  /** No three consecutive backticks. */
  predicate FenceFree(s: string) {
    forall i | 0 <= i < |s| - 2 :: !(s[i] == '`' && s[i + 1] == '`' && s[i + 2] == '`')
  }

  lemma FenceFreeMeansNoFence(s: string)
    ensures FenceFree(s) <==> !IsInfix("```", s)
  {
    if !FenceFree(s) {
      var i :| 0 <= i < |s| - 2 && s[i] == '`' && s[i + 1] == '`' && s[i + 2] == '`';
      assert MatchAt(s, i, "```");
    }
    if IsInfix("```", s) {
      var i: nat :| i <= |s| && MatchAt(s, i, "```");
      assert s[i..i + 3] == "```";
      assert s[i] == '`' && s[i + 1] == '`' && s[i + 2] == '`';
    }
  }

  predicate StartsWithFence(s: string) {
    |s| >= 3 && s[0] == '`' && s[1] == '`' && s[2] == '`'
  }

  /** `s.replace(/```(?:sql)?/gi, '')`: scanning left to right, every three backticks are
      removed together with an immediately following `sql` in any case. */
  function StripFences(s: string): (r: string)
    ensures |r| <= |s|
    ensures FenceFree(r)
    ensures (|s| == 0 || s[0] != '`') ==> (|r| == 0 || r[0] != '`')
    ensures !(|s| >= 2 && s[0] == '`' && s[1] == '`') ==> !(|r| >= 2 && r[0] == '`' && r[1] == '`')
  {
    if StartsWithFence(s) then
      var rest := s[3..];
      if |rest| >= 3 && Lower(rest[..3]) == "sql" then StripFences(rest[3..]) else StripFences(rest)
    else if |s| == 0 then []
    else [s[0]] + StripFences(s[1..])
  }

  /** Text without a fence is left as it is. */
  lemma {:induction false} StripFencesFenceFree(s: string)
    requires FenceFree(s)
    ensures StripFences(s) == s
  {
    if |s| > 0 {
      StripFencesFenceFree(s[1..]);
    }
  }

  /** The opening fence of a fenced block and its `sql` tag go, the closing fence goes, and
      the body between them is kept. */
  lemma FencedBlock(tag: string, body: string)
    requires |tag| == 3 && Lower(tag) == "sql"
    requires FenceFree(body) && (|body| == 0 || body[0] != '`') && (|body| == 0 || body[|body| - 1] != '`')
    ensures StripFences("```" + tag + body + "```") == body
  {
    var s := "```" + tag + body + "```";
    assert StartsWithFence(s);
    assert s[3..][..3] == tag;
    assert s[3..][3..] == body + "```";
    StripBeforeFence(body);
  }

  lemma {:induction false} StripBeforeFence(body: string)
    requires FenceFree(body) && (|body| == 0 || body[|body| - 1] != '`')
    ensures StripFences(body + "```") == body
  {
    if |body| == 0 {
      assert StripFences("```") == StripFences([]);
    } else {
      var s := body + "```";
      assert !StartsWithFence(s) by {
        if |body| == 1 {
          assert s[0] == body[0] && s[1] == '`';
        } else if |body| == 2 {
          assert s[1] == body[1];
        } else {
          assert s[2] == body[2];
        }
      }
      assert s[1..] == body[1..] + "```";
      StripBeforeFence(body[1..]);
    }
  }

  // ---------------------------------------------------------------- placeholders

  /** `s.replace(/\{([^}]+)\}/g, '{{$1}}')`: scanning left to right, a `{` whose next `}`
      is not immediately after it opens a group that is doubled on both sides. */
  function RewriteBraces(s: string): (r: string)
    decreases |s|
  {
    if |s| == 0 then []
    else if s[0] == '{' then
      match IndexOf(s, "}", 1)
      case Some(q) =>
        if q >= 2 then "{{" + s[1..q] + "}}" + RewriteBraces(s[q + 1..])
        else "{" + RewriteBraces(s[1..])
      case None => "{" + RewriteBraces(s[1..])
    else [s[0]] + RewriteBraces(s[1..])
  }

  /** The text with every brace removed. */
  function Unbraced(s: string): (r: string)
    ensures |r| <= |s|
    ensures forall c | c in r :: c in s && c != '{' && c != '}'
  {
    if |s| == 0 then [] else (if s[0] == '{' || s[0] == '}' then [] else [s[0]]) + Unbraced(s[1..])
  }

  lemma {:induction false} UnbracedConcat(a: string, b: string)
    ensures Unbraced(a + b) == Unbraced(a) + Unbraced(b)
  {
    if |a| > 0 {
      assert (a + b)[1..] == a[1..] + b;
      UnbracedConcat(a[1..], b);
    } else {
      assert a + b == b;
    }
  }

  /** Rewriting only adds braces: the text apart from braces is unchanged. */
  lemma {:induction false} RewriteKeepsText(s: string)
    ensures Unbraced(RewriteBraces(s)) == Unbraced(s)
    decreases |s|
  {
    if |s| > 0 {
      if s[0] == '{' {
        var found := IndexOf(s, "}", 1);
        if found.Some? && found.value >= 2 {
          var q := found.value;
          assert s == "{" + s[1..q] + "}" + s[q + 1..] by {
            assert s[q..q + 1] == "}";
          }
          assert Unbraced(RewriteBraces(s[q + 1..])) == Unbraced(s[q + 1..]) by {
            RewriteKeepsText(s[q + 1..]);
          }
          GroupKeepsText(s[1..q], RewriteBraces(s[q + 1..]), s[q + 1..]);
        } else {
          assert Unbraced(RewriteBraces(s[1..])) == Unbraced(s[1..]) by {
            RewriteKeepsText(s[1..]);
          }
          UnbracedConcat("{", RewriteBraces(s[1..]));
        }
      } else {
        assert Unbraced(RewriteBraces(s[1..])) == Unbraced(s[1..]) by {
          RewriteKeepsText(s[1..]);
        }
        UnbracedConcat([s[0]], RewriteBraces(s[1..]));
      }
    }
  }

  /** Doubling the braces of a group keeps the text apart from braces. */
  lemma GroupKeepsText(body: string, r: string, t: string)
    requires Unbraced(r) == Unbraced(t)
    ensures Unbraced("{{" + body + "}}" + r) == Unbraced("{" + body + "}" + t)
  {
    UnbracedConcat("{{" + body + "}}", r);
    UnbracedConcat("{{" + body, "}}");
    UnbracedConcat("{{", body);
    UnbracedConcat("{" + body + "}", t);
    UnbracedConcat("{" + body, "}");
    UnbracedConcat("{", body);
  }

  /** Text without `{` is not changed by the rewrite. */
  lemma {:induction false} RewriteWithoutBraces(s: string)
    requires '{' !in s
    ensures RewriteBraces(s) == s
  {
    if |s| > 0 {
      assert s[0] in s;
      RewriteWithoutBraces(s[1..]);
    }
  }

  /** A single `{name}` after text with no `{` becomes `{{name}}`. */
  lemma {:induction false} RewriteSinglePlaceholder(before: string, name: string, after: string)
    requires '{' !in before
    requires |name| > 0 && '}' !in name
    ensures RewriteBraces(before + "{" + name + "}" + after) == before + "{{" + name + "}}" + RewriteBraces(after)
  {
    var s := before + "{" + name + "}" + after;
    if |before| > 0 {
      assert before[0] in before;
      assert s[1..] == before[1..] + "{" + name + "}" + after;
      RewriteSinglePlaceholder(before[1..], name, after);
    } else {
      assert s == "{" + name + "}" + after;
      assert MatchAt(s, |name| + 1, "}");
      forall j: nat | 1 <= j < |name| + 1
        ensures !MatchAt(s, j, "}")
      {
        assert s[j] == name[j - 1];
      }
      assert IndexOf(s, "}", 1) == Some(|name| + 1);
      assert s[1..|name| + 1] == name;
      assert s[|name| + 2..] == after;
    }
  }

  lemma InfixOfChar(c: char, s: string)
    ensures IsInfix([c], s) <==> c in s
  {
    if IsInfix([c], s) {
      var i: nat :| i <= |s| && MatchAt(s, i, [c]);
      assert s[i] == c;
    }
    if c in s {
      var i :| 0 <= i < |s| && s[i] == c;
      assert MatchAt(s, i, [c]);
    }
  }

  /** Single braces are doubled only when the template has no `{{` but has some `{`. */
  function NormalizePlaceholders(template: string): (r: string)
    ensures IsInfix("{{", template) ==> r == template
    ensures '{' !in template ==> r == template
    ensures Unbraced(r) == Unbraced(template)
  {
    RewriteKeepsText(template);
    InfixOfChar('{', template);
    if !IsInfix("{{", template) && IsInfix("{", template) then RewriteBraces(template) else template
  }

  // ---------------------------------------------------------------- reply

  /** A trimmed section, or the default when its marker is absent. */
  function Section(text: string, marker: string, stop: Option<string>, default: string): (r: string)
    requires |marker| > 0
    requires stop.Some? ==> |stop.value| > 0
    ensures NoMatchIgnoringCase(text, marker, 0) ==> r == default
    ensures !NoMatchIgnoringCase(text, marker, 0) ==> r == Trim(Capture(text, marker, stop).value)
  {
    match Capture(text, marker, stop)
    case None => default
    case Some(c) => Trim(c)
  }

  /** The SQL returned for a captured SQL section: trimmed, fences removed, trimmed again. */
  function CleanCapturedSql(capture: string): (sql: string)
    ensures IsTrimmed(sql)
    ensures !IsInfix("```", sql)
  {
    var stripped := StripFences(Trim(capture));
    TrimKeepsFenceFree(stripped);
    FenceFreeMeansNoFence(Trim(stripped));
    Trim(stripped)
  }

  lemma TrimKeepsFenceFree(s: string)
    requires FenceFree(s)
    ensures FenceFree(Trim(s))
  {
    TrimStartFenceFree(s);
    TrimEndFenceFree(TrimStart(s));
  }

  lemma TrimStartFenceFree(s: string)
    requires FenceFree(s)
    ensures FenceFree(TrimStart(s))
  {
    FenceFreeTail(s, TrimStart(s));
  }

  lemma FenceFreeTail(s: string, r: string)
    requires FenceFree(s) && |r| <= |s| && r == s[|s| - |r|..]
    ensures FenceFree(r)
  {
    FenceFreeSlice(s, |s| - |r|, |s|);
    assert s[|s| - |r|..] == s[|s| - |r|..|s|];
  }

  lemma TrimEndFenceFree(s: string)
    requires FenceFree(s)
    ensures FenceFree(TrimEnd(s))
  {
    FenceFreeSlice(s, 0, |TrimEnd(s)|);
  }

  lemma FenceFreeSlice(s: string, a: nat, b: nat)
    requires a <= b <= |s| && FenceFree(s)
    ensures FenceFree(s[a..b])
  {
    var t := s[a..b];
    forall i | 0 <= i < |t| - 2
      ensures !(t[i] == '`' && t[i + 1] == '`' && t[i + 2] == '`')
    {
      assert t[i] == s[a + i] && t[i + 1] == s[a + i + 1] && t[i + 2] == s[a + i + 2];
    }
  }

  lemma DefaultTemplateHasNoBrace()
    ensures '{' !in NoTemplate
  {
    forall i | 0 <= i < |NoTemplate|
      ensures NoTemplate[i] != '{'
    {
      assert NoTemplate[i] in "No response template available";
    }
  }

  /** The parse of the model's reply text, as `generateSQL` does it after the text is
      extracted from the first candidate. */
  function ParseReply(reply: string): (r: Result<Generation, string>)
    ensures r.Failure? <==> NoMatchIgnoringCase(Trim(reply), "SQL:", 0)
    ensures r.Failure? ==> r.error == NoSqlError
    ensures r.Success? ==> IsTrimmed(r.value.sql) && !IsInfix("```", r.value.sql)
    ensures r.Success? ==>
      r.value.explanation == Section(Trim(reply), "EXPLANATION:", Some("TEMPLATE:"), NoExplanation)
    ensures r.Success? && NoMatchIgnoringCase(Trim(reply), "TEMPLATE:", 0) ==>
      r.value.responseTemplate == NoTemplate
    ensures r.Success? ==>
      Unbraced(r.value.responseTemplate) == Unbraced(Section(Trim(reply), "TEMPLATE:", None, NoTemplate))
  {
    var text := Trim(reply);
    match Capture(text, "SQL:", Some("EXPLANATION:"))
    case None => Failure(NoSqlError)
    case Some(capture) =>
      var explanation := Section(text, "EXPLANATION:", Some("TEMPLATE:"), NoExplanation);
      var template := Section(text, "TEMPLATE:", None, NoTemplate);
      DefaultTemplateHasNoBrace();
      Success(Generation(CleanCapturedSql(capture), explanation, NormalizePlaceholders(template)))
  }

  /** The parsed SQL is the text between the first `SQL:` and the first `EXPLANATION:`
      after it (or the end of the reply), trimmed, with its fences removed, trimmed again. */
  lemma ParsedSqlExtent(reply: string, i: nat, k: nat)
    requires FirstMatchIgnoringCase(Trim(reply), "SQL:", 0, i)
    requires FirstMatchIgnoringCase(Trim(reply), "EXPLANATION:", i + 4, k)
      || (k == |Trim(reply)| && NoMatchIgnoringCase(Trim(reply), "EXPLANATION:", i + 4))
    ensures i + 4 <= k <= |Trim(reply)|
    ensures ParseReply(reply).Success?
    ensures ParseReply(reply).value.sql == Trim(StripFences(Trim(Trim(reply)[i + 4..k])))
  {
    var text := Trim(reply);
    SqlSectionExtent(text, i, k);
  }

  /** The parsed explanation is the text between the first `EXPLANATION:` and the first
      `TEMPLATE:` after it (or the end of the reply), trimmed. */
  lemma ParsedExplanationExtent(reply: string, i: nat, j: nat, m: nat)
    requires FirstMatchIgnoringCase(Trim(reply), "SQL:", 0, i)
    requires FirstMatchIgnoringCase(Trim(reply), "EXPLANATION:", 0, j)
    requires FirstMatchIgnoringCase(Trim(reply), "TEMPLATE:", j + 12, m)
      || (m == |Trim(reply)| && NoMatchIgnoringCase(Trim(reply), "TEMPLATE:", j + 12))
    ensures j + 12 <= m <= |Trim(reply)|
    ensures ParseReply(reply).Success?
    ensures ParseReply(reply).value.explanation == Trim(Trim(reply)[j + 12..m])
  {
    ParsedWithSqlMarker(reply, i);
    MarkersStartWithLetters();
    SectionFrom(Trim(reply), "EXPLANATION:", Some("TEMPLATE:"), NoExplanation, j, m);
  }

  /** The parsed template is, up to the brace rewrite, everything after the first
      `TEMPLATE:`, trimmed. */
  lemma ParsedTemplateExtent(reply: string, i: nat, t: nat)
    requires FirstMatchIgnoringCase(Trim(reply), "SQL:", 0, i)
    requires FirstMatchIgnoringCase(Trim(reply), "TEMPLATE:", 0, t)
    ensures t + 9 <= |Trim(reply)|
    ensures ParseReply(reply).Success?
    ensures Unbraced(ParseReply(reply).value.responseTemplate) == Unbraced(Trim(Trim(reply)[t + 9..]))
  {
    var text := Trim(reply);
    ParsedWithSqlMarker(reply, i);
    SectionFrom(text, "TEMPLATE:", None, NoTemplate, t, |text|);
    DropIsSlice(text, t + 9);
  }

  lemma DropIsSlice(s: string, a: nat)
    requires a <= |s|
    ensures s[a..] == s[a..|s|]
  { }

  /** A reply with an `SQL:` marker parses. */
  lemma ParsedWithSqlMarker(reply: string, i: nat)
    requires FirstMatchIgnoringCase(Trim(reply), "SQL:", 0, i)
    ensures ParseReply(reply).Success?
  {
    assert MatchAtIgnoringCase(Trim(reply), i, "SQL:");
  }

  /** A section whose marker is present is the trimmed text from the end of its first
      marker to its stop. */
  lemma SectionFrom(text: string, marker: string, stop: Option<string>, default: string, j: nat, m: nat)
    requires |marker| > 0
    requires stop.Some? ==> |stop.value| > 0 && !IsSpace(Lower(stop.value)[0])
    requires FirstMatchIgnoringCase(text, marker, 0, j)
    requires stop.Some? ==>
      || FirstMatchIgnoringCase(text, stop.value, j + |marker|, m)
      || (m == |text| && NoMatchIgnoringCase(text, stop.value, j + |marker|))
    requires stop.None? ==> m == |text|
    ensures j + |marker| <= m <= |text|
    ensures Section(text, marker, stop, default) == Trim(text[j + |marker|..m])
  {
    assert MatchAtIgnoringCase(text, j, marker);
    SectionExtent(text, marker, stop, j, m);
  }

  // ---------------------------------------------------------------- the requested format

  /** The reply in the format the prompt asks for. */
  function FormattedReply(sql: string, explanation: string, template: string): string {
    "SQL: " + sql + "\nEXPLANATION: " + explanation + "\nTEMPLATE: " + template
  }

  /** A reply in the requested format parses back to its three parts, provided the SQL
      names neither later marker, the explanation does not name `TEMPLATE:`, each part is
      trimmed, the SQL has no fence and the template needs no brace rewrite. */
  lemma ParseFormattedReply(sql: string, explanation: string, template: string)
    requires IsTrimmed(sql) && FenceFree(sql)
    requires NoMatchIgnoringCase(sql, "EXPLANATION:", 0) && NoMatchIgnoringCase(sql, "TEMPLATE:", 0)
    requires IsTrimmed(explanation) && NoMatchIgnoringCase(explanation, "TEMPLATE:", 0)
    requires IsTrimmed(template) && template != "" && (IsInfix("{{", template) || '{' !in template)
    ensures ParseReply(FormattedReply(sql, explanation, template))
      == Success(Generation(sql, explanation, template))
  {
    var text := FormattedReply(sql, explanation, template);
    FormattedSlices(sql, explanation, template, text);
    TrimOfTrimmed(text);
    SqlOfFormatted(sql, explanation, template, text);
    ExplanationOfFormatted(sql, explanation, template, text);
    TemplateOfFormatted(sql, explanation, template, text);
    ParseFromParts(text, sql, explanation, template);
  }

  lemma ParseFromParts(text: string, sql: string, explanation: string, template: string)
    requires Trim(text) == text
    requires Capture(text, "SQL:", Some("EXPLANATION:")).Some?
    requires CleanCapturedSql(Capture(text, "SQL:", Some("EXPLANATION:")).value) == sql
    requires Section(text, "EXPLANATION:", Some("TEMPLATE:"), NoExplanation) == explanation
    requires Section(text, "TEMPLATE:", None, NoTemplate) == template
    requires IsInfix("{{", template) || '{' !in template
    ensures ParseReply(text) == Success(Generation(sql, explanation, template))
  {
  }

  lemma SqlOfFormatted(sql: string, explanation: string, template: string, text: string)
    requires IsTrimmed(sql) && FenceFree(sql)
    requires NoMatchIgnoringCase(sql, "EXPLANATION:", 0) && NoMatchIgnoringCase(sql, "TEMPLATE:", 0)
    requires NoMatchIgnoringCase(explanation, "TEMPLATE:", 0)
    requires text == ("SQL: " + sql) + "\n" + ("EXPLANATION: " + explanation) + "\n" + ("TEMPLATE: " + template)
    requires text[..4] == "SQL:"
    requires text[4..|sql| + 6] == " " + sql + "\n"
    ensures Capture(text, "SQL:", Some("EXPLANATION:")).Some?
    ensures CleanCapturedSql(Capture(text, "SQL:", Some("EXPLANATION:")).value) == sql
  {
    var e := |sql| + 6;
    ReplyMarkers(sql, explanation, template, text);
    SqlAtStart(text);
    MarkersStartWithLetters();
    LaterFirstMatch(text, "EXPLANATION:", 4, e);
    SectionCapture(text, "SQL:", 0, "EXPLANATION:", e, sql);
    StripFencesFenceFree(sql);
    TrimOfTrimmed(sql);
  }

  lemma SqlAtStart(text: string)
    requires |text| >= 4 && text[..4] == "SQL:"
    ensures FirstMatchIgnoringCase(text, "SQL:", 0, 0)
  {
    MatchPointwise(text, 0, "SQL:");
  }

  lemma ExplanationOfFormatted(sql: string, explanation: string, template: string, text: string)
    requires IsTrimmed(explanation)
    requires NoMatchIgnoringCase(sql, "EXPLANATION:", 0) && NoMatchIgnoringCase(sql, "TEMPLATE:", 0)
    requires NoMatchIgnoringCase(explanation, "TEMPLATE:", 0)
    requires text == ("SQL: " + sql) + "\n" + ("EXPLANATION: " + explanation) + "\n" + ("TEMPLATE: " + template)
    requires text[|sql| + 6 + 12..|sql| + |explanation| + 20] == " " + explanation + "\n"
    ensures Section(text, "EXPLANATION:", Some("TEMPLATE:"), NoExplanation) == explanation
  {
    var e, t := |sql| + 6, |sql| + |explanation| + 20;
    ReplyMarkers(sql, explanation, template, text);
    MarkersStartWithLetters();
    LaterFirstMatch(text, "TEMPLATE:", e + 12, t);
    SectionCapture(text, "EXPLANATION:", e, "TEMPLATE:", t, explanation);
  }

  lemma TemplateOfFormatted(sql: string, explanation: string, template: string, text: string)
    requires IsTrimmed(template)
    requires NoMatchIgnoringCase(sql, "EXPLANATION:", 0) && NoMatchIgnoringCase(sql, "TEMPLATE:", 0)
    requires NoMatchIgnoringCase(explanation, "TEMPLATE:", 0)
    requires text == ("SQL: " + sql) + "\n" + ("EXPLANATION: " + explanation) + "\n" + ("TEMPLATE: " + template)
    requires text[|sql| + |explanation| + 20 + 9..|text|] == " " + template + ""
    ensures Section(text, "TEMPLATE:", None, NoTemplate) == template
  {
    ReplyMarkers(sql, explanation, template, text);
    FinalCapture(text, |sql| + |explanation| + 20, "TEMPLATE:", template);
  }

  /** The layout of a formatted reply. */
  lemma FormattedSlices(sql: string, explanation: string, template: string, text: string)
    requires template != "" && IsTrimmed(template)
    requires text == FormattedReply(sql, explanation, template)
    ensures text == ("SQL: " + sql) + "\n" + ("EXPLANATION: " + explanation) + "\n" + ("TEMPLATE: " + template)
    ensures IsTrimmed(text)
    ensures text[..4] == "SQL:"
    ensures text[4..|sql| + 6] == " " + sql + "\n"
    ensures text[|sql| + 6 + 12..|sql| + |explanation| + 20] == " " + explanation + "\n"
    ensures text[|sql| + |explanation| + 20 + 9..|text|] == " " + template + ""
  {
    assert text[0] == 'S' && text[|text| - 1] == template[|template| - 1];
  }

  lemma MarkersStartWithLetters()
    ensures !IsSpace(Lower("EXPLANATION:")[0]) && !IsSpace(Lower("TEMPLATE:")[0])
  {
  }

  /** A section followed by a stop marker, laid out as marker, a space, the body, a newline. */
  lemma SectionCapture(text: string, marker: string, i: nat, stop: string, k: nat, body: string)
    requires |marker| > 0 && |stop| > 0 && !IsSpace(Lower(stop)[0])
    requires FirstMatchIgnoringCase(text, marker, 0, i)
    requires FirstMatchIgnoringCase(text, stop, i + |marker|, k)
    requires k <= |text| && text[i + |marker|..k] == " " + body + "\n"
    requires IsTrimmed(body)
    ensures Capture(text, marker, Some(stop)).Some?
    ensures Trim(Capture(text, marker, Some(stop)).value) == body
  {
    SectionExtent(text, marker, Some(stop), i, k);
    SpaceThenTrimmed(text[i + |marker|..k], body, "\n");
  }

  /** The first match from the start is also the first match from any earlier point. */
  lemma LaterFirstMatch(s: string, pat: string, from: nat, k: nat)
    requires FirstMatchIgnoringCase(s, pat, 0, k) && from <= k
    ensures FirstMatchIgnoringCase(s, pat, from, k)
  {
  }

  /** The last section, laid out as marker, a space, the body, the end of the text. */
  lemma FinalCapture(text: string, i: nat, marker: string, body: string)
    requires |marker| > 0
    requires FirstMatchIgnoringCase(text, marker, 0, i)
    requires i + |marker| <= |text| && text[i + |marker|..|text|] == " " + body + ""
    requires IsTrimmed(body)
    ensures Capture(text, marker, None).Some?
    ensures Trim(Capture(text, marker, None).value) == body
  {
    SectionExtent(text, marker, None, i, |text|);
    SpaceThenTrimmed(text[i + |marker|..|text|], body, "");
  }

  lemma SpaceThenTrimmed(t: string, body: string, after: string)
    requires t == " " + body + after
    requires AllSpace(after) && IsTrimmed(body)
    ensures Trim(t) == body
  {
    TrimSurrounded(" ", body, after);
  }

  /** Where the markers of a formatted reply are found. */
  lemma ReplyMarkers(sql: string, explanation: string, template: string, text: string)
    requires NoMatchIgnoringCase(sql, "EXPLANATION:", 0) && NoMatchIgnoringCase(sql, "TEMPLATE:", 0)
    requires NoMatchIgnoringCase(explanation, "TEMPLATE:", 0)
    requires text == ("SQL: " + sql) + "\n" + ("EXPLANATION: " + explanation) + "\n" + ("TEMPLATE: " + template)
    ensures FirstMatchIgnoringCase(text, "EXPLANATION:", 0, |sql| + 6)
    ensures FirstMatchIgnoringCase(text, "TEMPLATE:", 0, |sql| + |explanation| + 20)
  {
    var a := "SQL: " + sql;
    var b := "EXPLANATION: " + explanation;
    var c := "TEMPLATE: " + template;
    var explain, templ := "EXPLANATION:", "TEMPLATE:";
    NoMarkerInSqlLine(sql, explain);
    NoMarkerInSqlLine(sql, templ);
    NoTemplateInExplanationLine(explanation);
    NoMatchAcrossSeparator(a, '\n', b + "\n" + c, explain);
    assert text == a + "\n" + (b + "\n" + c);
    assert text[|a| + 1..|a| + 13] == explain;
    MatchPointwise(text, |a| + 1, explain);
    NoMatchJoin(a, '\n', b, templ);
    NoMatchAcrossSeparator(a + "\n" + b, '\n', c, templ);
    assert text[|a| + |b| + 2..|a| + |b| + 11] == templ;
    MatchPointwise(text, |a| + |b| + 2, templ);
  }

  lemma NoMarkerInSqlLine(sql: string, marker: string)
    requires marker == "EXPLANATION:" || marker == "TEMPLATE:"
    requires NoMatchIgnoringCase(sql, marker, 0)
    ensures NoMatchIgnoringCase("SQL: " + sql, marker, 0)
  {
    var f := "SQL: ";
    forall j | 0 <= j < |f|
      ensures DisagreesAt(f, marker, j)
    {
      assert MismatchAt(f, marker, j, 0);
    }
    NoMatchAfterFixed(f, sql, marker);
  }

  lemma NoTemplateInExplanationLine(explanation: string)
    requires NoMatchIgnoringCase(explanation, "TEMPLATE:", 0)
    ensures NoMatchIgnoringCase("EXPLANATION: " + explanation, "TEMPLATE:", 0)
  {
    var f, marker := "EXPLANATION: ", "TEMPLATE:";
    forall j | 0 <= j < |f|
      ensures DisagreesAt(f, marker, j)
    {
      if j == 7 {
        assert MismatchAt(f, marker, j, 1);
      } else {
        assert MismatchAt(f, marker, j, 0);
      }
    }
    NoMatchAfterFixed(f, explanation, marker);
  }

  /** Position `j + x` of `f` already disagrees with position `x` of `pat`. */
  predicate MismatchAt(f: string, pat: string, j: nat, x: nat) {
    x < |pat| && j + x < |f| && LowerChar(f[j + x]) != LowerChar(pat[x])
  }

  /** An occurrence of `pat` starting at `j` in any text that begins with `f` fails inside `f`. */
  predicate DisagreesAt(f: string, pat: string, j: nat) {
    exists x: nat | x < |pat| :: MismatchAt(f, pat, j, x)
  }

  lemma MatchPointwise(s: string, j: nat, pat: string)
    ensures MatchAtIgnoringCase(s, j, pat) <==>
      j + |pat| <= |s| && forall x | 0 <= x < |pat| :: LowerChar(s[j + x]) == LowerChar(pat[x])
  {
    if j + |pat| <= |s| {
      var ls, lp := Lower(s), Lower(pat);
      if forall x | 0 <= x < |pat| :: LowerChar(s[j + x]) == LowerChar(pat[x]) {
        assert ls[j..j + |pat|] == lp;
      }
      if ls[j..j + |pat|] == lp {
        forall x | 0 <= x < |pat|
          ensures LowerChar(s[j + x]) == LowerChar(pat[x])
        {
          assert ls[j..j + |pat|][x] == lp[x];
        }
      }
    }
  }

  /** Whether `pat` occurs at `j` depends only on the window of `s` it would cover. */
  lemma Window(s: string, j: nat, pat: string)
    requires j + |pat| <= |s|
    ensures MatchAtIgnoringCase(s, j, pat) <==> Lower(s[j..j + |pat|]) == Lower(pat)
  {
    assert Lower(s)[j..j + |pat|] == Lower(s[j..j + |pat|]);
  }

  /** A fixed prefix in which every occurrence would already fail does not create one. */
  lemma NoMatchAfterFixed(f: string, rest: string, pat: string)
    requires forall j: nat | j < |f| :: DisagreesAt(f, pat, j)
    requires NoMatchIgnoringCase(rest, pat, 0)
    ensures NoMatchIgnoringCase(f + rest, pat, 0)
  {
    var s := f + rest;
    forall j: nat | j <= |s|
      ensures !MatchAtIgnoringCase(s, j, pat)
    {
      if j < |f| {
        assert DisagreesAt(f, pat, j);
        var x: nat :| x < |pat| && MismatchAt(f, pat, j, x);
        assert s[j + x] == f[j + x];
        MatchPointwise(s, j, pat);
      } else if j + |pat| <= |s| {
        assert s[j..j + |pat|] == rest[j - |f|..j - |f| + |pat|];
        Window(s, j, pat);
        Window(rest, j - |f|, pat);
      }
    }
  }

  /** An occurrence cannot span a character the pattern does not contain. */
  lemma NoMatchAcrossSeparator(left: string, sep: char, right: string, pat: string)
    requires forall x | 0 <= x < |pat| :: LowerChar(pat[x]) != LowerChar(sep)
    requires NoMatchIgnoringCase(left, pat, 0)
    ensures forall j: nat | j <= |left| :: !MatchAtIgnoringCase(left + [sep] + right, j, pat)
  {
    var s := left + [sep] + right;
    forall j: nat | j <= |left|
      ensures !MatchAtIgnoringCase(s, j, pat)
    {
      if j + |pat| <= |left| {
        assert s[j..j + |pat|] == left[j..j + |pat|];
        Window(s, j, pat);
        Window(left, j, pat);
      } else {
        assert s[j + (|left| - j)] == sep;
        MatchPointwise(s, j, pat);
      }
    }
  }

  lemma NoMatchJoin(left: string, sep: char, right: string, pat: string)
    requires forall x | 0 <= x < |pat| :: LowerChar(pat[x]) != LowerChar(sep)
    requires NoMatchIgnoringCase(left, pat, 0) && NoMatchIgnoringCase(right, pat, 0)
    ensures NoMatchIgnoringCase(left + [sep] + right, pat, 0)
  {
    var s := left + [sep] + right;
    NoMatchAcrossSeparator(left, sep, right, pat);
    forall j: nat | |left| < j <= |s| && j + |pat| <= |s|
      ensures !MatchAtIgnoringCase(s, j, pat)
    {
      var k := j - |left| - 1;
      assert s[j..j + |pat|] == right[k..k + |pat|];
      Window(s, j, pat);
      Window(right, k, pat);
    }
  }

  // ---------------------------------------------------------------- the request

  const MissingKeyError: string := "GEMINI_API_KEY is not defined in environment variables"
  const ApiErrorPrefix: string := "Gemini API error: "
  const NoResponseError: string := "No response from Gemini API"

  /** What the generateContent endpoint answers to one request. */
  datatype Completion =
    | HttpError(status: nat, body: string) // `!response.ok`: the status and the body text
    | NoCandidates                         // `candidates` missing or empty
    | Reply(text: string)                  // `candidates[0].content.parts[0].text`
    | Thrown(message: string)              // the message of an error thrown on the way: the
                                           // fetch rejects, the body is not JSON, or the
                                           // first candidate has no text to trim

  /** What `generateSQL` resolves to, or the message of the error it throws, with the
      remote calls it made. */
  datatype Generated = Generated(outcome: Result<Generation, string>, calls: seq<Call>)

  /** `generateSQL(question)`. `schema` is the text `getSchemaInfo` resolves to (the
      server's is `DbService.SchemaInfo`); `apiKey` is `GEMINI_API_KEY`, empty when unset;
      `model` is the endpoint's answer to the prompt it is sent. */
  function GenerateSql(question: string, schema: string, apiKey: string,
                       model: string -> Completion): (g: Generated)
    ensures apiKey == "" ==> g.outcome == Failure(MissingKeyError) && g.calls == []
    ensures apiKey != "" ==> g.calls == [ModelRequest(BuildPrompt(schema, question))]
    ensures apiKey != "" ==>
      match model(BuildPrompt(schema, question))
      case HttpError(status, body) =>
        g.outcome == Failure(ApiErrorPrefix + NatToString(status) + " - " + body)
      case NoCandidates => g.outcome == Failure(NoResponseError)
      case Reply(text) => g.outcome == ParseReply(Trim(text))
      case Thrown(message) => g.outcome == Failure(message)
    ensures g.outcome.Success? ==>
      IsTrimmed(g.outcome.value.sql) && !IsInfix("```", g.outcome.value.sql)
  {
    if apiKey == "" then Generated(Failure(MissingKeyError), [])
    else
      var prompt := BuildPrompt(schema, question);
      var outcome := match model(prompt)
        case HttpError(status, body) =>
          Failure(ApiErrorPrefix + NatToString(status) + " - " + body)
        case NoCandidates => Failure(NoResponseError)
        case Reply(text) => ParseReply(Trim(text))
        case Thrown(message) => Failure(message);
      Generated(outcome, [ModelRequest(prompt)])
  }

  /** With a reply to parse, generation fails exactly when the reply has no `SQL:`
      section: the reply trimmed once more is the same text. */
  lemma ReplyFailsOnlyWithoutSql(question: string, schema: string, apiKey: string,
                                 model: string -> Completion)
    requires apiKey != "" && model(BuildPrompt(schema, question)).Reply?
    ensures var text := model(BuildPrompt(schema, question)).text;
      && (GenerateSql(question, schema, apiKey, model).outcome.Failure? <==>
          NoMatchIgnoringCase(Trim(text), "SQL:", 0))
      && (GenerateSql(question, schema, apiKey, model).outcome.Failure? ==>
          GenerateSql(question, schema, apiKey, model).outcome.error == NoSqlError)
  {
    var text := model(BuildPrompt(schema, question)).text;
    var g := GenerateSql(question, schema, apiKey, model);
    assert g.outcome == ParseReply(Trim(text));
    TrimOfTrimmed(Trim(text));
  }
}

=== FILE: keymatch.dfy ===
/** `getKeyByPattern` (server/src/controllers/askController.ts): resolving a semantic role,
    given as an ordered list of candidate column names, to an actual key of a result row. */
module KeyMatch {
  import opened Base
  import opened Strings
  import opened Values

  /** `obj[key] !== undefined`. */
  predicate Present(row: Row, key: string) {
    Lookup(row, key) != Undefined
  }

  function LowerAll(patterns: seq<string>): (r: seq<string>)
    ensures |r| == |patterns|
    ensures forall i | 0 <= i < |patterns| :: r[i] == Lower(patterns[i])
  {
    seq(|patterns|, i requires 0 <= i < |patterns| => Lower(patterns[i]))
  }

  /** The key equals one of the patterns once both are lower-cased. */
  predicate EqualsIgnoringCase(key: string, patterns: seq<string>) {
    Lower(key) in LowerAll(patterns)
  }

  /** Key and pattern contain one another, ignoring case. */
  predicate Overlaps(key: string, pattern: string) {
    IsInfix(Lower(pattern), Lower(key)) || IsInfix(Lower(key), Lower(pattern))
  }

  predicate OverlapsAny(key: string, patterns: seq<string>) {
    exists p | p in patterns :: Overlaps(key, p)
  }

  /** Pattern `i` is the earliest pattern, in pattern order, stored in the row. */
  predicate FirstExactHit(row: Row, patterns: seq<string>, i: nat) {
    && i < |patterns|
    && Present(row, patterns[i])
    && forall j | 0 <= j < i :: !Present(row, patterns[j])
  }

  predicate NoExactHit(row: Row, patterns: seq<string>) {
    forall j | 0 <= j < |patterns| :: !Present(row, patterns[j])
  }

  /** Key `i` is the earliest key, in row order, equal to a pattern ignoring case. */
  predicate FirstCaseHit(row: Row, patterns: seq<string>, i: nat) {
    && i < |row|
    && EqualsIgnoringCase(row[i].0, patterns)
    && forall j | 0 <= j < i :: !EqualsIgnoringCase(row[j].0, patterns)
  }

  predicate NoCaseHit(row: Row, patterns: seq<string>) {
    forall j | 0 <= j < |row| :: !EqualsIgnoringCase(row[j].0, patterns)
  }

  /** Key `i` is the earliest key, in row order, overlapping some pattern. */
  predicate FirstOverlap(row: Row, patterns: seq<string>, i: nat) {
    && i < |row|
    && OverlapsAny(row[i].0, patterns)
    && forall j | 0 <= j < i :: !OverlapsAny(row[j].0, patterns)
  }

  /** The first pass: the earliest pattern, in pattern order, stored in the row. */
  function ExactPass(row: Row, patterns: seq<string>): (r: Option<nat>)
    ensures r.Some? ==> FirstExactHit(row, patterns, r.value)
    ensures r.None? <==> NoExactHit(row, patterns)
  {
    FirstIndex(patterns, p => Present(row, p))
  }

  /** The second pass: the earliest key, in row order, equal to a pattern ignoring case. */
  function CasePass(row: Row, patterns: seq<string>): (r: Option<nat>)
    ensures r.Some? ==> FirstCaseHit(row, patterns, r.value)
    ensures r.None? <==> NoCaseHit(row, patterns)
  {
    var lowered := LowerAll(patterns);
    FirstIndex(row, (f: Field) => Lower(f.0) in lowered)
  }

  /** The third pass: the earliest key, in row order, overlapping some pattern. */
  function SubstringPass(row: Row, patterns: seq<string>): (r: Option<nat>)
    ensures r.Some? ==> FirstOverlap(row, patterns, r.value)
    ensures r.None? <==> forall j | 0 <= j < |row| :: !OverlapsAny(row[j].0, patterns)
  {
    FirstIndex(row, (f: Field) => OverlapsAny(f.0, patterns))
  }

  /** Three passes: exact (pattern order), case-insensitive (row order), then substring in
      either direction ignoring case (row order); `None` is the source's `null`. */
  function GetKeyByPattern(row: Row, patterns: seq<string>): (r: Option<string>)
    ensures r.Some? ==> r.value in Keys(row)
    ensures r.None? <==>
      forall i, j | 0 <= i < |row| && 0 <= j < |patterns| :: !Overlaps(row[i].0, patterns[j])
    ensures forall i: nat | FirstExactHit(row, patterns, i) :: r == Some(patterns[i])
    ensures NoExactHit(row, patterns) ==>
      forall i: nat | FirstCaseHit(row, patterns, i) :: r == Some(row[i].0)
    ensures NoExactHit(row, patterns) && NoCaseHit(row, patterns) ==>
      forall i: nat | FirstOverlap(row, patterns, i) :: r == Some(row[i].0)
  {
    PassesAgree(row, patterns);
    match ExactPass(row, patterns)
    case Some(i) => Some(patterns[i])
    case None =>
      match CasePass(row, patterns)
      case Some(i) => Some(row[i].0)
      case None =>
        match SubstringPass(row, patterns)
        case Some(i) => Some(row[i].0)
        case None => None
  }

  /** Facts linking the three passes: each hit is unique and implies an overlap. */
  lemma PassesAgree(row: Row, patterns: seq<string>)
    ensures forall i: nat | FirstExactHit(row, patterns, i) :: ExactPass(row, patterns) == Some(i)
    ensures forall i: nat | FirstCaseHit(row, patterns, i) :: CasePass(row, patterns) == Some(i)
    ensures forall i: nat | FirstOverlap(row, patterns, i) :: SubstringPass(row, patterns) == Some(i)
    ensures ExactPass(row, patterns).Some? ==> patterns[ExactPass(row, patterns).value] in Keys(row)
    ensures ExactPass(row, patterns).Some? || CasePass(row, patterns).Some? ==>
      SubstringPass(row, patterns).Some?
    ensures SubstringPass(row, patterns).None? <==>
      forall i, j | 0 <= i < |row| && 0 <= j < |patterns| :: !Overlaps(row[i].0, patterns[j])
  {
    FirstHitsUnique(row, patterns);
    EarlierPassesOverlap(row, patterns);
    NoOverlapIff(row, patterns);
  }

  lemma FirstHitsUnique(row: Row, patterns: seq<string>)
    ensures forall i: nat | FirstExactHit(row, patterns, i) :: ExactPass(row, patterns) == Some(i)
    ensures forall i: nat | FirstCaseHit(row, patterns, i) :: CasePass(row, patterns) == Some(i)
    ensures forall i: nat | FirstOverlap(row, patterns, i) :: SubstringPass(row, patterns) == Some(i)
  { }

  /** A hit of the exact or the case-insensitive pass is also an overlap. */
  lemma EarlierPassesOverlap(row: Row, patterns: seq<string>)
    ensures ExactPass(row, patterns).Some? ==> patterns[ExactPass(row, patterns).value] in Keys(row)
    ensures ExactPass(row, patterns).Some? || CasePass(row, patterns).Some? ==>
      SubstringPass(row, patterns).Some?
  {
    match ExactPass(row, patterns)
    case Some(i) => ExactHitOverlaps(row, patterns, i);
    case None =>
    match CasePass(row, patterns)
    case Some(i) => CaseHitOverlaps(row, patterns, i);
    case None =>
  }

  lemma NoOverlapIff(row: Row, patterns: seq<string>)
    ensures SubstringPass(row, patterns).None? <==>
      forall i, j | 0 <= i < |row| && 0 <= j < |patterns| :: !Overlaps(row[i].0, patterns[j])
  { }

  lemma InfixOfSelf(s: string)
    ensures IsInfix(s, s)
  {
    assert MatchAt(s, 0, s);
  }

  /** A pattern stored in the row is one of its keys, and overlaps itself. */
  lemma ExactHitOverlaps(row: Row, patterns: seq<string>, i: nat)
    requires i < |patterns| && Present(row, patterns[i])
    ensures patterns[i] in Keys(row)
    ensures exists k | 0 <= k < |row| :: row[k].0 == patterns[i] && Overlaps(row[k].0, patterns[i])
  {
    var k :| 0 <= k < |row| && Keys(row)[k] == patterns[i];
    InfixOfSelf(Lower(patterns[i]));
    assert Overlaps(row[k].0, patterns[i]);
  }

  /** A key equal to a pattern ignoring case overlaps that pattern. */
  lemma CaseHitOverlaps(row: Row, patterns: seq<string>, i: nat)
    requires i < |row| && Lower(row[i].0) in LowerAll(patterns)
    ensures exists j | 0 <= j < |patterns| :: Overlaps(row[i].0, patterns[j])
  {
    var j :| 0 <= j < |patterns| && LowerAll(patterns)[j] == Lower(row[i].0);
    InfixOfSelf(Lower(row[i].0));
    assert Overlaps(row[i].0, patterns[j]);
  }

  /** Row keys `ProductName`, `product_name_extra` with patterns `product_name`, `name`,
      `product`: no exact or case-insensitive hit, so the substring pass picks the first key,
      which contains `name`. */
  lemma SubstringPassExample()
    ensures GetKeyByPattern(ExampleRow(), ExamplePatterns()) == Some("ProductName")
  {
    var row, patterns := ExampleRow(), ExamplePatterns();
    ExampleNoExactHit();
    ExampleNoCaseHit();
    ExampleOverlap();
    assert FirstOverlap(row, patterns, 0);
  }

  function ExampleRow(): Row {
    [("ProductName", Text("Widget")), ("product_name_extra", Num(1.0))]
  }

  function ExamplePatterns(): seq<string> {
    ["product_name", "name", "product"]
  }

  lemma ExampleNoExactHit()
    ensures NoExactHit(ExampleRow(), ExamplePatterns())
  {
    var row := ExampleRow();
    assert Lookup(row, "product_name") == Undefined;
    assert Lookup(row, "name") == Undefined;
    assert Lookup(row, "product") == Undefined;
  }

  lemma ExampleNoCaseHit()
    ensures NoCaseHit(ExampleRow(), ExamplePatterns())
  {
    var row := ExampleRow();
    assert |Lower(row[0].0)| == 11;
    assert |Lower(row[1].0)| == 18;
    var lowered := LowerAll(ExamplePatterns());
    assert |lowered[0]| == 12 && |lowered[1]| == 4 && |lowered[2]| == 7;
  }

  lemma ExampleOverlap()
    ensures Overlaps("ProductName", "name")
  {
    assert Lower("ProductName") == "productname";
    assert Lower("name") == "name";
    assert MatchAt("productname", 7, "name");
  }
}

=== FILE: strings.dfy ===
/** Character classes and string scans with the meaning JavaScript gives them. */
module Strings {
  import opened Base

  /** ECMAScript WhiteSpace or LineTerminator: the regular-expression class `\s`,
      and exactly the characters `String.prototype.trim` removes. */
  predicate IsSpace(c: char) {
    || c == ' ' || c == '\t' || c == '\n' || c == '\U{B}' || c == '\U{C}' || c == '\r'
    || c == '\U{A0}' || c == '\U{1680}' || ('\U{2000}' <= c <= '\U{200A}')
    || c == '\U{2028}' || c == '\U{2029}' || c == '\U{202F}' || c == '\U{205F}'
    || c == '\U{3000}' || c == '\U{FEFF}'
  }

  /** ECMAScript LineTerminator: where `.` stops and where multiline `^`/`$` match. */
  predicate IsLineTerminator(c: char) {
    c == '\n' || c == '\r' || c == '\U{2028}' || c == '\U{2029}'
  }

  lemma LineTerminatorIsSpace(c: char)
    requires IsLineTerminator(c)
    ensures IsSpace(c)
  {}

  /** ASCII lower-casing. This is exactly the folding of a non-unicode `/i` regular
      expression on ASCII patterns; as `toLowerCase` it leaves non-ASCII letters alone. */
  function LowerChar(c: char): char {
    if 'A' <= c <= 'Z' then (c as int + 32) as char else c
  }

  function Lower(s: string): (r: string)
    ensures |r| == |s|
    ensures forall i | 0 <= i < |s| :: r[i] == LowerChar(s[i])
  {
    seq(|s|, i requires 0 <= i < |s| => LowerChar(s[i]))
  }

  /** `toUpperCase` on ASCII letters and on the two non-ASCII letters whose upper case is
      an ASCII letter: U+017F (long s) to 'S' and U+0131 (dotless i) to 'I'. */
  function UpperChar(c: char): char {
    if 'a' <= c <= 'z' then (c as int - 32) as char
    else if c == '\U{17F}' then 'S'
    else if c == '\U{131}' then 'I'
    else c
  }

  function Upper(s: string): (r: string)
    ensures |r| == |s|
    ensures forall i | 0 <= i < |s| :: r[i] == UpperChar(s[i])
  {
    seq(|s|, i requires 0 <= i < |s| => UpperChar(s[i]))
  }

  predicate IsPrefix(p: string, s: string) {
    |p| <= |s| && s[..|p|] == p
  }

  predicate IsSuffix(p: string, s: string) {
    |p| <= |s| && s[|s| - |p|..] == p
  }

  lemma PrefixOfConcat(a: string, b: string)
    ensures IsPrefix(a, a + b)
  {
    assert (a + b)[..|a|] == a;
  }

  lemma PrefixTrans(a: string, b: string, c: string)
    requires IsPrefix(a, b) && IsPrefix(b, c)
    ensures IsPrefix(a, c)
  {
    assert c[..|a|] == c[..|b|][..|a|];
  }

  /** A prefix of a prefix is a prefix. */
  lemma PrefixOfPrefix(a: string, b: string, s: string)
    requires IsPrefix(a + b, s)
    ensures IsPrefix(a, s)
  {
    assert s[..|a|] == (a + b)[..|a|];
    PrefixOfConcat(a, b);
  }

  lemma SuffixOfConcat(a: string, b: string)
    ensures IsSuffix(b, a + b)
  {
    assert (a + b)[|a|..] == b;
  }

  /** A suffix of a suffix is a suffix. */
  lemma SuffixOfSuffix(a: string, b: string, s: string)
    requires IsSuffix(a + b, s)
    ensures IsSuffix(b, s)
  {
    assert s[|s| - |b|..] == s[|s| - |a + b|..][|a|..];
    SuffixOfConcat(a, b);
  }

  /** `pat` occurs in `s` starting at index `i`. */
  predicate MatchAt(s: string, i: nat, pat: string) {
    i + |pat| <= |s| && s[i..i + |pat|] == pat
  }

  /** `s.includes(sub)`. */
  predicate IsInfix(sub: string, s: string) {
    exists i: nat | i <= |s| :: MatchAt(s, i, sub)
  }

  lemma InfixOfConcat(a: string, b: string, c: string)
    ensures IsInfix(b, a + b + c)
  {
    assert MatchAt(a + b + c, |a|, b);
  }

  /** `s.indexOf(pat, from)`: the first occurrence of `pat` at or after `from`. */
  function IndexOf(s: string, pat: string, from: nat): (r: Option<nat>)
    ensures r.Some? ==> from <= r.value && MatchAt(s, r.value, pat)
    ensures r.Some? ==> forall j: nat | from <= j < r.value :: !MatchAt(s, j, pat)
    ensures r.None? ==> forall j: nat | from <= j :: !MatchAt(s, j, pat)
    decreases |s| - from
  {
    if from + |pat| > |s| then None
    else if MatchAt(s, from, pat) then Some(from)
    else IndexOf(s, pat, from + 1)
  }

  /** A search in which ASCII letters match regardless of case. */
  function IndexOfIgnoreCase(s: string, pat: string, from: nat): Option<nat> {
    IndexOf(Lower(s), Lower(pat), from)
  }

  /** The first index at or after `i` whose character does not satisfy `p`, or `|s|`. */
  function SkipWhile(s: string, i: nat, p: char -> bool): (k: nat)
    requires i <= |s|
    ensures i <= k <= |s|
    ensures forall j | i <= j < k :: p(s[j])
    ensures k == |s| || !p(s[k])
    decreases |s| - i
  {
    if i == |s| || !p(s[i]) then i else SkipWhile(s, i + 1, p)
  }

  predicate AllSpace(s: string) {
    forall i | 0 <= i < |s| :: IsSpace(s[i])
  }

  /** No whitespace at either end. */
  predicate IsTrimmed(s: string) {
    s == [] || (!IsSpace(s[0]) && !IsSpace(s[|s| - 1]))
  }

  function TrimStart(s: string): (r: string)
    ensures |r| <= |s| && r == s[|s| - |r|..]
    ensures forall i | 0 <= i < |s| - |r| :: IsSpace(s[i])
    ensures r == [] || !IsSpace(r[0])
  {
    if |s| > 0 && IsSpace(s[0]) then TrimStart(s[1..]) else s
  }

  function TrimEnd(s: string): (r: string)
    ensures |r| <= |s| && r == s[..|r|]
    ensures forall i | |r| <= i < |s| :: IsSpace(s[i])
    ensures r == [] || !IsSpace(r[|r| - 1])
  {
    if |s| > 0 && IsSpace(s[|s| - 1]) then TrimEnd(s[..|s| - 1]) else s
  }

  /** `String.prototype.trim`. */
  function Trim(s: string): (r: string)
    ensures IsTrimmed(r)
    ensures AllSpace(s) <==> r == []
  {
    TrimShape(s);
    TrimEnd(TrimStart(s))
  }

  lemma TrimShape(s: string)
    ensures IsTrimmed(TrimEnd(TrimStart(s)))
    ensures AllSpace(s) <==> TrimEnd(TrimStart(s)) == []
  {
    TrimEndKeepsStart(TrimStart(s));
    TrimStartEmpty(s);
    TrimEndEmpty(TrimStart(s));
  }

  /** Trimming the end of a string that does not start with whitespace keeps its start. */
  lemma TrimEndKeepsStart(t: string)
    requires t == [] || !IsSpace(t[0])
    ensures IsTrimmed(TrimEnd(t))
  {
    var r := TrimEnd(t);
    if r != [] {
      assert r[0] == t[0];
    }
  }

  lemma {:induction false} TrimStartEmpty(s: string)
    ensures TrimStart(s) == [] <==> AllSpace(s)
  {
    if |s| > 0 && IsSpace(s[0]) {
      TrimStartEmpty(s[1..]);
      assert AllSpace(s) <==> AllSpace(s[1..]) by {
        assert forall i | 1 <= i < |s| :: s[i] == s[1..][i - 1];
      }
    }
  }

  lemma {:induction false} TrimEndEmpty(s: string)
    ensures TrimEnd(s) == [] <==> AllSpace(s)
  {
    if |s| > 0 && IsSpace(s[|s| - 1]) {
      TrimEndEmpty(s[..|s| - 1]);
      assert AllSpace(s) <==> AllSpace(s[..|s| - 1]) by {
        assert forall i | 0 <= i < |s| - 1 :: s[i] == s[..|s| - 1][i];
      }
    }
  }

  /** Trimming removes only surrounding whitespace: a trimmed string is left alone. */
  lemma TrimOfTrimmed(s: string)
    requires IsTrimmed(s)
    ensures Trim(s) == s
  {
    assert TrimStart(s) == s;
  }

  /** Surrounding whitespace, and only that, is removed. */
  lemma {:induction false} TrimSurrounded(a: string, m: string, b: string)
    requires AllSpace(a) && AllSpace(b) && IsTrimmed(m)
    ensures Trim(a + m + b) == m
  {
    if m == [] {
      assert AllSpace(a + m + b);
    } else {
      assert a + m + b == a + (m + b);
      TrimStartSkips(a, m + b);
      TrimEndSkips(m, b);
      TrimOfParts(a + m + b, m + b, m);
    }
  }

  lemma TrimOfParts(s: string, t: string, m: string)
    requires TrimStart(s) == t && TrimEnd(t) == m
    ensures Trim(s) == m
  { }

  /** Leading whitespace makes no difference to trimming. */
  lemma {:induction false} TrimStartAfterSpace(ws: string, t: string)
    requires AllSpace(ws)
    ensures TrimStart(ws + t) == TrimStart(t)
  {
    if ws != [] {
      assert (ws + t)[1..] == ws[1..] + t;
      TrimStartAfterSpace(ws[1..], t);
    } else {
      assert ws + t == t;
    }
  }

  /** A slice trims like the slice with its leading whitespace dropped. */
  lemma TrimAfterSpaceSlice(s: string, a: nat, b: nat, k: nat)
    requires a <= b <= k <= |s| && AllSpace(s[a..b])
    ensures Trim(s[a..k]) == Trim(s[b..k])
  {
    assert s[a..k] == s[a..b] + s[b..k];
    TrimStartAfterSpace(s[a..b], s[b..k]);
  }

  lemma {:induction false} TrimStartSkips(a: string, t: string)
    requires AllSpace(a)
    requires t == [] || !IsSpace(t[0])
    ensures TrimStart(a + t) == t
  {
    if a != [] {
      assert (a + t)[1..] == a[1..] + t;
      TrimStartSkips(a[1..], t);
    } else {
      assert a + t == t;
    }
  }

  lemma {:induction false} TrimEndSkips(t: string, b: string)
    requires AllSpace(b)
    requires t == [] || !IsSpace(t[|t| - 1])
    ensures TrimEnd(t + b) == t
  {
    if b != [] {
      assert (t + b)[..|t + b| - 1] == t + b[..|b| - 1];
      TrimEndSkips(t, b[..|b| - 1]);
    } else {
      assert t + b == t;
    }
  }

  function DigitChar(d: nat): char
    requires d < 10
  {
    ('0' as int + d) as char
  }

  /** The decimal numeral of `n`, as JavaScript writes an integer-valued number. */
  function NatToString(n: nat): (r: string)
    ensures |r| > 0
    ensures forall i | 0 <= i < |r| :: '0' <= r[i] <= '9'
    decreases n
  {
    if n < 10 then [DigitChar(n)] else NatToString(n / 10) + [DigitChar(n % 10)]
  }

  /** The value of a string of decimal digits, read back. */
  function DigitsValue(s: string): nat
    requires forall i | 0 <= i < |s| :: '0' <= s[i] <= '9'
  {
    if s == [] then 0 else 10 * DigitsValue(s[..|s| - 1]) + (s[|s| - 1] as int - '0' as int)
  }

  /** Reading the numeral back gives the number: the rendering loses nothing. */
  lemma {:induction false} NatToStringRoundTrip(n: nat)
    ensures DigitsValue(NatToString(n)) == n
    decreases n
  {
    if n >= 10 {
      NatToStringRoundTrip(n / 10);
      var s := NatToString(n);
      assert s[..|s| - 1] == NatToString(n / 10);
    }
  }
}

=== FILE: values.dfy ===
/** Result rows as the server receives them and the client renders them
    (client/src/types/index.ts), with the JavaScript coercions the core applies to cells. */
module Values {
  import opened Base

  /** One cell of a result row. `Undefined` is the value of a missing key; `Composite`
      is a JSON object or array (a `jsonb` column) carried as its `String()` rendering. */
  datatype Value =
    | Text(s: string)
    | Num(n: real)
    | Bool(b: bool)
    | Null
    | Undefined
    | Composite(shown: string)

  type Field = (string, Value)

  predicate UniqueKeys(fields: seq<Field>) {
    forall i, j | 0 <= i < j < |fields| :: fields[i].0 != fields[j].0
  }

  /** A result row: its fields in `Object.keys` order. Object keys are unique. */
  type Row = r: seq<Field> | UniqueKeys(r) witness []

  function Keys(row: seq<Field>): (ks: seq<string>)
    ensures |ks| == |row|
    ensures forall i | 0 <= i < |row| :: ks[i] == row[i].0
  {
    seq(|row|, i requires 0 <= i < |row| => row[i].0)
  }

  /** `obj[key]`: the value stored under `key`, `undefined` when there is none. */
  function Lookup(row: seq<Field>, key: string): (v: Value)
    ensures key !in Keys(row) ==> v == Undefined
  {
    if |row| == 0 then Undefined
    else if row[0].0 == key then row[0].1
    else Lookup(row[1..], key)
  }

  /** In a row the key at position `i` looks up the value at position `i`. */
  lemma {:induction false} LookupAt(row: Row, i: nat)
    requires i < |row|
    ensures Lookup(row, row[i].0) == row[i].1
  {
    if i > 0 {
      assert row[0].0 != row[i].0;
      var rest: Row := row[1..];
      LookupAt(rest, i - 1);
    }
  }

  /** The number-to-text and text-to-number conversions of the JavaScript runtime, which
      depend on floating point and `Intl` and are taken as given. */
  datatype NumberText = NumberText(
    show: real -> string,      // `String(n)` and `${n}`
    toFixed2: real -> string,  // `n.toFixed(2)`
    currency: real -> string,  // `n.toLocaleString('en-US', {style: 'currency', ... 0 digits})`
    grouped: real -> string,   // `n.toLocaleString()`
    parse: string -> Option<real>  // `Number(s)`; `None` is `NaN`
  )

  /** JavaScript truthiness. Numbers in JSON are never `NaN`. */
  predicate Truthy(v: Value) {
    match v
    case Text(s) => s != ""
    case Num(n) => n != 0.0
    case Bool(b) => b
    case Null => false
    case Undefined => false
    case Composite(_) => true
  }

  /** `String(v)`, which is also what a template literal `${v}` inserts. */
  function ToText(v: Value, nt: NumberText): string {
    match v
    case Text(s) => s
    case Num(n) => nt.show(n)
    case Bool(b) => if b then "true" else "false"
    case Null => "null"
    case Undefined => "undefined"
    case Composite(shown) => shown
  }

  /** `Number(v)`, also the coercion `v < n` applies to its left side; `None` is `NaN`.
      An object or array converts through its string form. */
  function ToNumber(v: Value, nt: NumberText): Option<real> {
    match v
    case Text(s) => nt.parse(s)
    case Num(n) => Some(n)
    case Bool(b) => Some(if b then 1.0 else 0.0)
    case Null => Some(0.0)
    case Undefined => None
    case Composite(shown) => nt.parse(shown)
  }

  /** `v < bound` for a number `bound`: false whenever `v` converts to `NaN`. */
  predicate LessThan(v: Value, bound: real, nt: NumberText) {
    match ToNumber(v, nt)
    case Some(n) => n < bound
    case None => false
  }
}
